=== FILE: README.md ===
# LieDetect core, modelled in Dafny

LieDetect records a questioner and an answerer and scores how likely the answer is
deceptive. Three model backends each return a lie score and an eight-slot emotion
vector:

- audio emotions;
- macro facial expressions;
- micro facial expressions.

The backend averages the audio and macro vectors into a comparison vector, fuses the
three scores into a lie probability, and stores the summary with the session. The
transcript endpoint can later enrich that summary. An LLM weights the eight emotions
for the transcript. The cosine of that map with the comparison vector becomes the
alignment score, and the final lie probability is recomputed from the micro score and
the alignment.

This project models:

- **Score and vector maths:** averaging, cosine, fusion, alignment and the final score.
- **The session store:** a class over a table of session documents. Each mutation is a
  load-modify-save of one document.
- **Orchestration:** the analysis run, the two inference handlers with summary
  enrichment, media storage, transcription and the LLM emotion service.
- **The canonical emotion schema and the ML helpers:** the RAVDESS file-name parser and
  list splitter, feature padding, the audio lie score, the hosted audio endpoint's
  request handling, and frame sampling.
- **Configuration strings:** the backend's allowed-origins parsing and upload limit, and
  the frontend's API base URL resolution.

Remote services are parameters of the operations that reach them. Each is either a
function value or the outcome it produced:

- the model gateway
- the LLM and the speech-to-text backend
- S3 transfers
- the file system
- the clock
- JSON decoding
- URL parsing

A raised exception is the `Err` of an `Outcome`, with the exception class the code
raises. Messages the code writes itself are modelled verbatim. Messages that Python's
runtime builds are approximated, and each difference has its own line under "## Left out":

- The `int()` and `float()` messages carry the offending value between single quotes,
  where Python uses repr().
- The `'<type>' object has no attribute` messages leave out the type name, because a
  decoded JSON number does not say whether it became an `int` or a `float`.
- A division by zero gives "float division by zero" when an operand is a float and
  "division by zero" for two ints. The frame interval tells the two apart; the weight
  normalisation always uses the float message.

Three facts about the code shape the model:

- A vector that is not of the canonical length makes the averaging raise `ValueError`
  (backend/liedetect/services/vector_math.py:14-16). Two vectors of different lengths
  make the cosine raise one (lines 24-25 of the same file).
- The store takes no lock around its load-modify-save (see Concurrency under "## Left out").
- Enrichment overwrites the summary's `lieProbability` with the final score
  (backend/liedetect/routes/inference.py:68-72).

## Model

| member | source | states |
|---|---|---|
| `VectorMath.Zeros` | backend/liedetect/services/vector_math.py:10-11 | n slots, every one 0.0 (the empty-input result of average_vectors) |
| `VectorMath.Averaged` | backend/liedetect/services/vector_math.py:8-20 | no vectors give eight zeros; a ValueError exactly when some vector is not of length 8; every success has 8 slots |
| `VectorMath.AverageVectors` | backend/liedetect/services/vector_math.py:8-20 | the totals loop returns exactly `Averaged`: eight zeros for no vectors, ValueError for any vector not of length 8, otherwise slot i is the mean of the inputs' slot i |
| `VectorMath.AverageRejectsMisaligned` | backend/liedetect/services/vector_math.py:14-16 | one input of the wrong length makes the whole average a ValueError; nothing is padded or truncated |
| `VectorMath.AverageHasCanonicalLength` | backend/liedetect/services/vector_math.py:10-20 | every successful average has 8 slots |
| `VectorMath.AverageOfTwo` | backend/liedetect/services/vector_math.py:13-20 | two canonical vectors average to their slot-wise midpoint |
| `VectorMath.AverageExample` | backend/liedetect/services/vector_math.py:8-20 | [0.2]*8 and [0.4]*8 average to [0.3]*8 |
| `VectorMath.AverageOfCopies` | backend/liedetect/services/vector_math.py:13-20 | averaging n ≥ 1 copies of a canonical vector gives it back |
| `VectorMath.CosineSimilarity` | backend/liedetect/services/vector_math.py:23-31 | ValueError exactly when the lengths differ; exactly 0.0 when either norm is zero |
| `VectorMath.DotSymmetric` | backend/liedetect/services/vector_math.py:26 | the dot product does not depend on argument order |
| `VectorMath.CosineSymmetric` | backend/liedetect/services/vector_math.py:23-31 | cosine(a, b) == cosine(b, a) for all inputs, errors included |
| `VectorMath.CosineWithZeroVector` | backend/liedetect/services/vector_math.py:27-30 | a zero vector has cosine Ok(0.0) with every vector of its length, on either side |
| `VectorMath.CosineWithItself` | backend/liedetect/services/vector_math.py:26-31 | a vector with a non-zero slot has cosine 1 with itself, given only that Sqrt squares back to the sum of squares |
| `VectorMath.DividedBy` | backend/liedetect/services/vector_math.py:37 | each weight divided by the total, same length |
| `VectorMath.NormalizedSumsToOne` | backend/liedetect/services/vector_math.py:35-37 | weights with a non-zero sum normalise to weights summing to 1 |
| `VectorMath.FuseLieScores` | backend/liedetect/services/vector_math.py:34-39 | a zero weight sum is ZeroDivisionError, fewer than three weights an IndexError, and a success is the weighted sum of the three scores with each weight divided by the total |
| `VectorMath.FuseFailures` | backend/liedetect/services/vector_math.py:34-38 | fusion fails exactly on a zero weight sum or on fewer than three weights |
| `VectorMath.FuseWithDefaults` | backend/liedetect/services/vector_math.py:34-39 | with no weights given, the result is 0.35·audio + 0.35·macro + 0.30·micro |
| `VectorMath.FuseExample` | backend/liedetect/services/vector_math.py:34-39 | fuse(0.5, 0.25, 0.75) = 0.4875, the code's value |
| `VectorMath.FuseEqualScores` | backend/liedetect/services/vector_math.py:34-39 | three equal scores x fuse to x under any three weights with a non-zero sum |
| `VectorMath.FuseScaleInvariant` | backend/liedetect/services/vector_math.py:35-38 | scaling the three weights by c > 0 leaves the fused score unchanged |
| `VectorMath.FuseBounded` | backend/liedetect/services/vector_math.py:34-39 | scores in [0, 1] and non-negative weights give a fused score in [0, 1] |
| `VectorMath.DenseLlmVector` | backend/liedetect/services/vector_math.py:43 | the dense LLM vector always has 8 slots |
| `VectorMath.DenseSlots` | backend/liedetect/services/vector_math.py:43 | slot i is the LLM's weight for EMOTIONS[i], or 0.0 when the map lacks it |
| `VectorMath.DenseIgnoresExtraKeys` | backend/liedetect/services/vector_math.py:43 | two maps that agree on the canonical emotions give the same dense vector |
| `VectorMath.LlmAlignmentScore` | backend/liedetect/services/vector_math.py:42-44 | a ValueError about the lengths exactly when the comparison vector does not have 8 slots |
| `VectorMath.AlignmentNeedsCanonicalLength` | backend/liedetect/services/vector_math.py:42-44 | the alignment fails exactly when the comparison vector is not of length 8 |
| `VectorMath.AlignmentOfZeroVector` | backend/liedetect/services/vector_math.py:42-44 | a zero comparison vector aligns 0.0 with every LLM map |
| `VectorMath.FinalLieScore` | backend/liedetect/services/vector_math.py:47-49 | a non-positive alignment gives (1 + micro) / 2; a non-negative one gives (1 − alignment + micro) / 2 |
| `VectorMath.FinalIgnoresNegativeAlignment` | backend/liedetect/services/vector_math.py:47-49 | every negative alignment scores like alignment 0, namely (1 + micro) / 2 |
| `VectorMath.FinalExample` | backend/liedetect/services/vector_math.py:47-49 | final(0.6, 0.2) = 0.7 |
| `VectorMath.FinalAntitoneInAlignment` | backend/liedetect/services/vector_math.py:47-49 | a better alignment never raises the final score |
| `VectorMath.FinalBounded` | backend/liedetect/services/vector_math.py:47-49 | micro in [0, 1] and alignment ≤ 1 keep the final score in [0, 1] |
| `SessionStore.FieldOf` | backend/liedetect/utils/session_store.py:48-53 | a None is written as JSON null, which reads back as None and is never a missing key |
| `SessionStore.Load` | backend/liedetect/utils/session_store.py:30-38 | the stored document, or a fresh one with the id, no media, createdAt = now and no other field |
| `SessionStore.Save` | backend/liedetect/utils/session_store.py:40-44 | the document is stored under its id stamped updatedAt = now; every other document is unchanged |
| `SessionStore.EntryOf` | backend/liedetect/utils/session_store.py:48-53 | the written media entry is never empty |
| `SessionStore.WithMedia` | backend/liedetect/utils/session_store.py:46-54 | the role's entry is replaced by the record's four keys; other roles, transcript, summary, LLM map and other sessions are unchanged; createdAt kept, updatedAt = now |
| `SessionStore.WithMediaPath` | backend/liedetect/utils/session_store.py:56-60 | only localPath of the role's entry changes, the entry's other keys are kept, and an absent role gets a localPath-only entry; all else unchanged |
| `SessionStore.WithTranscript` | backend/liedetect/utils/session_store.py:62-65 | replaces the transcript; media, summary, LLM map and other sessions unchanged |
| `SessionStore.WithSummary` | backend/liedetect/utils/session_store.py:67-70 | replaces the summary; media, transcript, LLM map and other sessions unchanged |
| `SessionStore.WithLlmVector` | backend/liedetect/utils/session_store.py:72-75 | replaces the LLM map; media, transcript, summary and other sessions unchanged |
| `SessionStore.Lookup` | backend/liedetect/utils/session_store.py:77-81 | Some exactly for a stored id, and then the stored document; never a synthesised one |
| `SessionStore.StoredSummary` | backend/liedetect/routes/inference.py:59-60 | None without a document, otherwise the document's summary |
| `SessionStore.MediaRecordOf` | backend/liedetect/utils/session_store.py:83-97 | None without a document or a non-empty role entry; otherwise the id and role come from the arguments, the other fields from the entry, and a missing content type reads "video/mp4" |
| `SessionStore.MediaRoundTrip` | backend/liedetect/utils/session_store.py:46-97 | after update_media(id, role, r), get_media_record(id, role) is r |
| `SessionStore.MediaRoundTripRelabelled` | backend/liedetect/utils/session_store.py:90-97 | under any id and role, the record read back is r with that id and role |
| `SessionStore.PathPatchReadBack` | backend/liedetect/utils/session_store.py:56-97 | after update_media_path the record reads back with the new local path, and key, bucket and content type are as before |
| `SessionStore.Apply` | backend/liedetect/utils/session_store.py:46-75 | every mutation changes only its target document, keeps its id and creation stamp, and stamps updatedAt |
| `SessionStore.ApplyKeepsWellFormed` | backend/liedetect/utils/session_store.py:30-44 | each mutation keeps every document named by its own id and stamped |
| `SessionStore.ReplayKeepsWellFormed` | backend/liedetect/utils/session_store.py:30-44 | any history of mutations keeps the table well formed |
| `SessionStore.NeverMutatedIsUnknown` | backend/liedetect/utils/session_store.py:77-81 | starting from an empty store, get(id) is None until a mutation targets id |
| `SessionStore.CreatedAtFirstMutation` | backend/liedetect/utils/session_store.py:30-37 | once a mutation targets id, the document exists and createdAt is the clock reading of the first such mutation |
| `SessionStore.UpdatedAtLastMutation` | backend/liedetect/utils/session_store.py:40-41 | updatedAt is the clock reading of the last mutation of the document |
| `SessionStore.Store.constructor` | backend/liedetect/utils/session_store.py:23-25 | a new store holds no sessions |
| `SessionStore.Store.SaveSession` | backend/liedetect/utils/session_store.py:40-44 | the table becomes `Save` of the old table |
| `SessionStore.Store.UpdateMedia` | backend/liedetect/utils/session_store.py:46-54 | the table becomes `WithMedia` of the old table, and stays well formed |
| `SessionStore.Store.UpdateMediaPath` | backend/liedetect/utils/session_store.py:56-60 | the table becomes `WithMediaPath` of the old table, and stays well formed |
| `SessionStore.Store.SetTranscript` | backend/liedetect/utils/session_store.py:62-65 | the table becomes `WithTranscript` of the old table, and stays well formed |
| `SessionStore.Store.SetSummary` | backend/liedetect/utils/session_store.py:67-70 | the table becomes `WithSummary` of the old table, and stays well formed |
| `SessionStore.Store.SetLlmVector` | backend/liedetect/utils/session_store.py:72-75 | the table becomes `WithLlmVector` of the old table, and stays well formed |
| `SessionStore.Store.Get` | backend/liedetect/utils/session_store.py:77-81 | the stored document or None, as `Lookup` |
| `SessionStore.Store.GetMediaRecord` | backend/liedetect/utils/session_store.py:83-97 | the rebuilt media record, as `MediaRecordOf` |
| `Analysis.EndpointResult.Vector` | backend/liedetect/services/analysis.py:33-34 | a missing or empty emotion vector reads as eight zeros, a non-empty one as itself |
| `Analysis.InvokeEndpoint` | backend/liedetect/services/analysis.py:55-58 | an unset or empty endpoint name answers {lie_score 0.0, emotion_vector []} without the gateway; a set one is the gateway's answer |
| `Analysis.UnconfiguredReadsZero` | backend/liedetect/services/analysis.py:33-47 | an unconfigured backend contributes score 0.0 and eight zeros |
| `Analysis.ChosenRole` | backend/liedetect/services/analysis.py:17-20 | answerer when it has an entry, else questioner when it has one, else none |
| `Analysis.AnswererPreferred` | backend/liedetect/services/analysis.py:18 | with an answerer entry the answerer is analysed, whatever the questioner has |
| `Analysis.PayloadFor` | backend/liedetect/services/analysis.py:22-27 | the payload carries the session id, the chosen role, and the chosen entry's key and bucket |
| `Analysis.Summarise` | backend/liedetect/services/analysis.py:33-51 | lieProbability is the default-weight fusion; the three scores and both zero-filled vectors are echoed; comparisonVector is their slot-wise mean; misaligned vectors are the averaging's ValueError |
| `Analysis.Analyse` | backend/liedetect/services/analysis.py:12-51 | unknown session and no-media ValueErrors; otherwise the first of the audio, macro and micro calls to raise is the error, and three replies give exactly their summary, each backend asked with the chosen entry's payload |
| `Analysis.NothingConfigured` | backend/liedetect/services/analysis.py:29-51 | with no endpoint configured the run succeeds with lieProbability 0 and all-zero vectors, whatever the gateway |
| `Analysis.ShortVectorRejected` | backend/liedetect/services/analysis.py:33-35 | a backend's 7-slot vector makes the run fail in the averaging |
| `Analysis.Run` | backend/liedetect/services/analysis.py:12-53 | returns `Analyse`; the summary returned is exactly the one stored with set_summary, and a failed run writes nothing |
| `InferenceRoutes.Enriched` | backend/liedetect/routes/inference.py:64-72 | exactly llmVector, alignmentScore (cosine with the dense map) and lieProbability (final score of micro and alignment) change; a misaligned comparison vector is a ValueError |
| `InferenceRoutes.EnrichIdempotent` | backend/liedetect/routes/inference.py:65-72 | enriching an enriched summary with the same map changes nothing |
| `InferenceRoutes.EnrichZeroComparison` | backend/liedetect/routes/inference.py:65-66 | an all-zero comparison vector aligns 0 and gives lieProbability (1 + micro) / 2 |
| `InferenceRoutes.EnrichOutcome` | backend/liedetect/routes/inference.py:58-72 | no stored summary gives None without asking the LLM; otherwise an LLM failure or a misaligned comparison vector raises, and an LLM map gives exactly the enriched stored summary |
| `InferenceRoutes.EnrichNeverFabricates` | backend/liedetect/routes/inference.py:59-62 | a summary comes back exactly when one is stored |
| `InferenceRoutes.EnrichDependsOnSummary` | backend/liedetect/routes/inference.py:58-62 | enrichment depends on the store only through the stored summary |
| `InferenceRoutes.MaybeEnrich` | backend/liedetect/routes/inference.py:58-75 | returns `EnrichOutcome`; no summary means no write; an LLM failure writes nothing; a misaligned comparison vector leaves only the LLM map written; otherwise the LLM map and then the enriched summary are stored, with media and transcript untouched |
| `InferenceRoutes.TranscriptResponse` | backend/liedetect/routes/inference.py:54-55 | 200 with the id, the transcript and the enrichment, or the enrichment's exception |
| `InferenceRoutes.RunResponse` | backend/liedetect/routes/inference.py:23-31 | success is 200 with the summary; a ValueError is 400 with its message; other exceptions escape |
| `InferenceRoutes.RunRejectsUnknownSession` | backend/liedetect/routes/inference.py:23-28 | an unknown session or one without media is answered 400 |
| `InferenceRoutes.RunLiedetect` | backend/liedetect/routes/inference.py:16-31 | a missing or empty sessionId is 400 with no write; otherwise the answer to the analysis run, whose summary is what the store then holds, and a failed run writes nothing |
| `InferenceRoutes.Transcript` | backend/liedetect/routes/inference.py:34-55 | a missing sessionId is 400; a stored non-empty transcript is reused and kept; otherwise any transcription failure is 400 with its message (no media also writes nothing), and a transcript is answered with it and the enrichment of the summary stored before the request; a 200 carrying an enriched summary leaves that summary and the LLM's map stored for the session |
| `Storage.S3Enabled` | backend/liedetect/services/storage.py:14-21 | S3 is on exactly when a non-empty bucket is set and mock services are off |
| `Storage.MediaKey` | backend/liedetect/services/storage.py:29 | the key is the prefix, "/", the session id, "/", the role and ".mp4", each read back at its position |
| `Storage.MediaKeysDistinct` | backend/liedetect/services/storage.py:29 | different slash-free session ids never share a key |
| `Storage.NewRecord` | backend/liedetect/services/storage.py:23-53 | empty id and bad role ValueErrors before anything else; otherwise the key, the configured bucket, mimetype or "video/mp4", and a local path under the media root exactly when S3 is off |
| `Storage.SaveMedia` | backend/liedetect/services/storage.py:23-55 | rejection or a failed transfer writes nothing; an accepted upload whose transfer succeeds always succeeds, storing the record with update_media and returning it, so it reads back |
| `Storage.LocalPath` | backend/liedetect/services/storage.py:57-72 | an existing local file is returned; else S3 off or no bucket/key is FileNotFoundError, a failed download raises, and a download lands at root/key |
| `Storage.EnsureLocalPath` | backend/liedetect/services/storage.py:57-72 | returns `LocalPath`; only a download writes, patching just localPath so the record reads back with it |
| `Whisper.SelectMedia` | backend/liedetect/services/whisper.py:32-33 | the questioner's record, else the answerer's; none only when neither exists |
| `Whisper.QuestionerPreferred` | backend/liedetect/services/whisper.py:32-33 | with a questioner record the questioner is transcribed, the opposite of the analysis run |
| `Whisper.TranscriptOf` | backend/liedetect/services/whisper.py:43-45 | a failed request raises; no text is ""; a text is stripped, so a transcript never begins or ends with whitespace |
| `Whisper.TranscriptStable` | backend/liedetect/services/whisper.py:45 | a transcript sent back as the response text transcribes to itself |
| `Whisper.BlankResponseIsEmpty` | backend/liedetect/services/whisper.py:45 | an all-whitespace text gives the empty transcript |
| `Whisper.TranscribeOutcome` | backend/liedetect/services/whisper.py:17-27 | no media is ValueError; mock mode gives "[mock transcript for {id} using {role}]"; otherwise the local-path error, or the backend's transcript of the local file |
| `Whisper.Transcribe` | backend/liedetect/services/whisper.py:17-30 | returns `TranscribeOutcome` of the old table and writes nothing without media; a returned transcript is the stored one (in mock mode the only write), and the stored summary is untouched |
| `LieLlm.MockWeightsCanonical` | backend/liedetect/services/lie_llm.py:49-59 | the mock map's keys are exactly the 8 canonical emotions, each weight in [0, 1] |
| `LieLlm.MockWeightsSumToOne` | backend/liedetect/services/lie_llm.py:51-58 | the mock weights sum to 1.0 |
| `LieLlm.ToFloat` | backend/liedetect/services/lie_llm.py:47 | numbers pass through, booleans are 1.0 and 0.0, a string converts to its parse and otherwise is a ValueError naming it, and null, lists and objects are a TypeError naming their type |
| `LieLlm.Coerce` | backend/liedetect/services/lie_llm.py:47 | succeeds exactly when every value converts, and then keeps exactly the keys with their converted values |
| `LieLlm.LiveWeights` | backend/liedetect/services/lie_llm.py:45-47 | a failed chat call raises, and a non-object reply has no items |
| `LieLlm.LiveKeepsKeys` | backend/liedetect/services/lie_llm.py:46-47 | the live map holds exactly the returned keys, each converted; it fails exactly when some value does not convert |
| `LieLlm.NumbersPassThrough` | backend/liedetect/services/lie_llm.py:46-47 | an object of numbers with distinct keys comes back as those numbers |
| `LieLlm.Weights` | backend/liedetect/services/lie_llm.py:18-22 | the mock map exactly when mock services are on or no API key is set; otherwise the live weights |
| `LieLlm.EmotionWeights` | backend/liedetect/services/lie_llm.py:18-24 | returns `Weights` and persists exactly that map with set_llm_vector; a failure writes nothing |
| `Config.FromEnvironment` | backend/liedetect/config.py:8-20 | a MAX_UPLOAD_MB that int() rejects is a ValueError quoting it; the mock flag is "lower-cased value is true"; the bucket is S3_BUCKET_NAME or None |
| `Config.UsesMock` | backend/liedetect/services/whisper.py:23 | the mock switch always selects the mock; with the switch off a present non-empty key selects the real service; no key or an empty key selects the mock |
| `Config.DefaultSettings` | backend/liedetect/config.py:9-20 | with nothing set: prefix "sessions", 500 MB, mock off, no bucket or endpoints |
| `Config.MockFlagSpelling` | backend/liedetect/config.py:20 | the switch is on exactly for "true" in any ASCII capitalisation |
| `Config.AllowedOrigins` | backend/liedetect/config.py:23-26 | an empty raw string allows no origin; never more origins than comma pieces |
| `Config.NonBlankStripped` | backend/liedetect/config.py:26 | every kept piece is non-empty and its own strip |
| `Config.NonBlankStrippedSelects` | backend/liedetect/config.py:26 | the kept pieces are the strips of exactly the pieces whose strip is not blank, in their order |
| `Config.AllowedOriginsSelects` | backend/liedetect/config.py:23-26 | a non-empty setting allows exactly the non-blank comma pieces, stripped, in the order written |
| `Config.OriginsAreClean` | backend/liedetect/config.py:22-26 | every origin is non-empty, unpadded and comma-free |
| `Config.OriginsRoundTrip` | backend/liedetect/config.py:22-26 | a comma-join of clean origins parses back to exactly that list, in order |
| `Config.OriginsExample` | backend/liedetect/config.py:26 | " a , ,b" allows exactly ["a", "b"] |
| `Config.MaxContentLength` | backend/liedetect/config.py:28-31 | the byte limit is a whole number of mebibytes, max_upload_mb of them |
| `Config.DefaultContentLength` | backend/liedetect/config.py:19-31 | the default limit is 524288000 bytes |
| `Emotions.EmotionsDistinct` | ml/common/emotions.py:3-12 | eight pairwise distinct names |
| `Emotions.IndexRoundTrip` | ml/common/emotions.py:14 | the index maps exactly the canonical names, and EMOTION_TO_INDEX[EMOTIONS[i]] = i |
| `Emotions.IndexHasExactlyOneName` | ml/common/emotions.py:14 | every index below 8 has exactly one name |
| `Emotions.IndexOf` | ml/common/vector_ops.py:11-12 | a position exactly for canonical names, and it is that name's position |
| `Emotions.EmotionsSorted` | ml/common/emotions.py:3-12 | the canonical list is strictly sorted |
| `Emotions.SortedIsUnique` | ml/audio_lie/inference.py:35 | two strictly sorted lists over the same names are equal |
| `Emotions.SortedKeysAreCanonical` | ml/audio_lie/inference.py:35 | any sorted listing of the index's keys is the canonical order |
| `AudioConstants.CodeMapIsBijection` | ml/audio_lie/constants.py:5-14 | codes "01".."08" map injectively onto exactly the canonical emotions |
| `AudioConstants.BadGoodPartition` | ml/audio_lie/constants.py:16-17 | the two sets are disjoint, have four members each and cover the canonical set |
| `AudioConstants.AudioSchemaIsCanonical` | ml/audio_lie/constants.py:19-21 | the audio list has eight names and the audio index maps each to its own position |
| `VectorOps.LastMatch` | ml/common/vector_ops.py:10-12 | the position of the last of the first n labels equal to e, or none exactly when no such label exists |
| `VectorOps.ExpandEmotionVector` | ml/common/vector_ops.py:8-13 | 8 slots; slot i holds the probability of the last paired label naming EMOTIONS[i], else 0.0 |
| `VectorOps.PairingStopsAtShorter` | ml/common/vector_ops.py:10 | only the first min(|labels|, |probabilities|) pairs matter |
| `VectorOps.UnmatchedSlotStaysZero` | ml/common/vector_ops.py:9-12 | a slot no paired label names stays 0.0 |
| `VectorOps.RepeatedLabelKeepsLast` | ml/common/vector_ops.py:12 | a repeated label keeps its last probability |
| `VectorOps.UnknownLabelIgnored` | ml/common/vector_ops.py:11 | a pair with a non-canonical label changes no slot |
| `VectorOps.FerCalmSlotIsZero` | ml/common/vector_ops.py:8-13 | with the seven FER labels the calm slot is always 0.0 |
| `AudioDataset.AudioSample.LieLabel` | ml/audio_lie/dataset.py:27-29 | 1.0 exactly for a cue emotion, 0.0 exactly otherwise |
| `AudioDataset.Name` | ml/audio_lie/dataset.py:35 | the name holds no '/'; a path without '/' is its own name |
| `AudioDataset.NameIsSuffix` | ml/audio_lie/dataset.py:35 | the name is the path's suffix after its last '/' |
| `AudioDataset.Stem` | ml/audio_lie/dataset.py:33 | the stem is a prefix of the name |
| `AudioDataset.StemOfWav` | ml/audio_lie/dataset.py:33 | the stem of "x.wav" is x |
| `AudioDataset.ParseFilename` | ml/audio_lie/dataset.py:32-49 | a stem without seven '-' fields is the "Unexpected filename" ValueError; success exactly for seven fields with a known emotion code and an integer actor, keeping the path and giving a canonical emotion |
| `AudioDataset.ParseFields` | ml/audio_lie/dataset.py:32-49 | not seven fields, unknown code and a non-integer actor are ValueErrors, in that order; success exactly otherwise, with the fields placed |
| `AudioDataset.ParsedCodes` | ml/audio_lie/dataset.py:43-44 | intensity is strong exactly for "02" and normal otherwise; statement is dogs exactly for "02" and kids otherwise |
| `AudioDataset.DecodeFields` | ml/audio_lie/dataset.py:36-49 | seven valid fields decode to the emotion, the intensity and statement words, verbatim copies and the actor's integer |
| `AudioDataset.RavdessFields` | ml/audio_lie/dataset.py:33 | the fields of a RAVDESS name in any directory are the pieces it was built from |
| `AudioDataset.ParseRavdessName` | ml/audio_lie/dataset.py:32-49 | parsing a well-formed RAVDESS name gives back its fields, decoded |
| `AudioDataset.CodesOfCues` | ml/audio_lie/constants.py:5-16 | codes 04-07 are exactly the cue emotions |
| `AudioDataset.LieLabelOfCode` | ml/audio_lie/dataset.py:27-39 | a parsed recording is labelled 1.0 exactly for codes 04-07 |
| `AudioDataset.LieLabelOfGoodEmotions` | ml/audio_lie/dataset.py:27-29 | over canonical emotions, 0.0 exactly for the non-cue emotions |
| `AudioDataset.SplitSamples` | ml/audio_lie/dataset.py:80-83 | the two parts concatenate to the input, and the first has int(count·ratio) items, read as a slice bound |
| `AudioDataset.SplitProportion` | ml/audio_lie/dataset.py:80-83 | for a ratio in [0, 1] the first part has ⌊count·ratio⌋ items |
| `AudioDataset.SplitExtremes` | ml/audio_lie/dataset.py:80-83 | ratio 0 and ratio 1 put every sample on one side |
| `AudioDataset.DefaultSplitOfTen` | ml/audio_lie/dataset.py:80-83 | ten samples split 8/2 with the default ratio |
| `AudioDataset.Collect` | ml/audio_lie/dataset.py:55 | a list comprehension succeeds exactly when every item does, and raises the first failure |
| `AudioDataset.ParseResults` | ml/audio_lie/dataset.py:55 | one parse outcome per path found, in order |
| `AudioDataset.LoadDataset` | ml/audio_lie/dataset.py:52-57 | missing directory is FileNotFoundError, a bad name its parse error, none found a RuntimeError; success returns one parsed sample per file |
| `AudioFeatures.PadFeatures` | ml/audio_lie/features.py:26-30 | rows kept; width max_frames (a slice bound when cutting); kept columns are original, added columns are zero |
| `AudioFeatures.PadTruncates` | ml/audio_lie/features.py:27-28 | with at least max_frames columns each row is its first max_frames values |
| `AudioFeatures.PadFills` | ml/audio_lie/features.py:29-30 | with fewer columns each row is the original followed by zeros |
| `AudioFeatures.PadIdempotent` | ml/audio_lie/features.py:26-30 | padding twice to the same non-negative width is padding once |
| `AudioInference.Weight` | ml/audio_lie/inference.py:38 | positive, and 1.0 exactly for cue emotions |
| `AudioInference.MaxScoreIsSix` | ml/audio_lie/inference.py:40 | the denominator is 4·1.0 + 4·0.5 = 6 |
| `AudioInference.LieScore` | ml/audio_lie/serving/inference.py:67-74 | IndexError exactly for fewer than 8 slots; otherwise the weighted sum of the first 8 slots over 6 |
| `AudioInference.ComputeLieScore` | ml/audio_lie/inference.py:34-41 | the loop over the sorted index keys returns exactly `LieScore` |
| `AudioInference.SortedIndexKeys` | ml/audio_lie/inference.py:35 | sorted(EMOTION_INDEX.keys()) is the canonical order |
| `AudioInference.WeightsSumToSix` | ml/audio_lie/inference.py:37-40 | the weights sum to 6 |
| `AudioInference.ScoreExtremes` | ml/audio_lie/inference.py:36-41 | the zero vector scores 0 and the all-ones vector 1 |
| `AudioInference.ScoreMonotone` | ml/audio_lie/inference.py:37-39 | a slot-wise larger vector scores at least as high |
| `AudioInference.RaisingOneSlot` | ml/audio_lie/inference.py:37-39 | raising one slot never lowers the score |
| `AudioInference.ScoreInUnitInterval` | ml/audio_lie/inference.py:36-41 | probabilities in [0, 1] give a score in [0, 1] |
| `AudioInference.ExtraSlotsIgnored` | ml/audio_lie/inference.py:37-39 | slots past the eighth never change the score |
| `AudioServing.InputFn` | ml/audio_lie/serving/inference.py:27-30 | JSON bodies are decoded; any other content type is a ValueError naming it |
| `AudioServing.OutputFn` | ml/audio_lie/serving/inference.py:55-58 | JSON is encoded; any other accept type is a ValueError naming it |
| `AudioServing.ResponseReadsBack` | ml/audio_lie/serving/inference.py:55-58 | a JSON response decodes back to the prediction when the codec round-trips |
| `AudioServing.Or` | ml/audio_lie/serving/inference.py:34-35 | `a or b` is truthy exactly when a or b is |
| `AudioServing.SelectLocation` | ml/audio_lie/serving/inference.py:33-37 | bucket is the request's or DEFAULT_AUDIO_BUCKET, key audioKey or videoKey; either falsy is a ValueError; a non-object has no get |
| `AudioServing.RequestFieldsPreferred` | ml/audio_lie/serving/inference.py:34-35 | the request's bucket and audio key win |
| `AudioServing.DefaultBucketFallback` | ml/audio_lie/serving/inference.py:34 | without a request bucket, a set default bucket is used |
| `AudioServing.Prediction` | ml/audio_lie/serving/inference.py:49-52 | exactly the keys emotion_vector and lie_score; emotion_vector holds the probabilities in order, as numbers, and lie_score is the score |
| `AudioServing.PredictFn` | ml/audio_lie/serving/inference.py:33-52 | a location error is raised before the model runs; a model error is raised; fewer than eight probabilities are an IndexError, and otherwise the prediction echoes the probabilities with their lie score |
| `AudioServing.RejectedBeforeDownload` | ml/audio_lie/serving/inference.py:36-41 | a request without a usable location fails identically whatever the model |
| `AudioServing.EightProbabilitiesPredict` | ml/audio_lie/serving/inference.py:46-52 | eight probabilities always yield a prediction |
| `JsonValues.Members` | ml/audio_lie/serving/inference.py:29 | the decoded dict has exactly the object's keys |
| `JsonValues.MembersLastWins` | backend/liedetect/services/lie_llm.py:46-47 | a key maps to its last member's value |
| `JsonValues.Get` | ml/audio_lie/serving/inference.py:34-35 | d.get(key) is present exactly for a key of the object, with the dict's value |
| `FrameExtractor.FrameInterval` | ml/video_lie/frame_extractor.py:19-21 | max(int(original / target), 1) ≥ 1 with 30 fps for 0 and the configured rate for no or 0 target; a zero target divides by zero, with Python's int message when the unreported rate's int 30 is divided and the float message otherwise |
| `FrameExtractor.ZeroTargetMessages` | ml/video_lie/frame_extractor.py:19-21 | an unreported rate over a zero target is "division by zero"; a reported rate over it is "float division by zero" |
| `FrameExtractor.DefaultInterval` | ml/video_lie/config.py:12 | a 30 fps (or 0-reporting) video at the default rate keeps every 30th frame |
| `FrameExtractor.FastTargetKeepsAll` | ml/video_lie/frame_extractor.py:21 | a target faster than the video keeps every frame |
| `FrameExtractor.Kept` | ml/video_lie/frame_extractor.py:25-34 | kept indices are below the frame count, multiples of the interval, strictly increasing |
| `FrameExtractor.KeptExactly` | ml/video_lie/frame_extractor.py:29 | an index is kept exactly when it is below the count and a multiple of the interval |
| `FrameExtractor.FramePathsDistinct` | ml/video_lie/frame_extractor.py:31 | different frames are written to different `{index:06d}.jpg` files |
| `FrameExtractor.Paths` | ml/video_lie/frame_extractor.py:31-33 | one path per kept index, in order |
| `FrameExtractor.Extracted` | ml/video_lie/frame_extractor.py:11-37 | an unopened video is RuntimeError; otherwise the interval's error or the paths of the kept frames in frame order |
| `FrameExtractor.ExtractFrames` | ml/video_lie/frame_extractor.py:23-37 | the read loop returns exactly `Extracted` |
| `FrameExtractor.ExtractedInFrameOrder` | ml/video_lie/frame_extractor.py:29-37 | saved paths follow strictly increasing frame indices and are pairwise distinct |
| `FrontendEnv.Candidate` | frontend/src/config/env.ts:13-24 | none exactly for blank input; always an http(s) scheme; a schemed input kept trimmed, `exp://` rewritten, anything else prefixed with `http://` |
| `FrontendEnv.CandidateIdempotent` | frontend/src/config/env.ts:19-24 | coercing a candidate again changes nothing |
| `FrontendEnv.CandidateEndsUnpadded` | frontend/src/config/env.ts:14-24 | a candidate never ends in whitespace |
| `FrontendEnv.NoSchemeBeforeDigit` | frontend/src/config/env.ts:19-22 | input starting with a digit gets `http://` in front |
| `FrontendEnv.LoopbackCandidate` | frontend/src/config/env.ts:19-22 | "127.0.0.1" is tried as "http://127.0.0.1" |
| `FrontendEnv.CoerceToUrl` | frontend/src/config/env.ts:13-31 | blank input is null; otherwise the result is exactly the parse of the candidate |
| `FrontendEnv.ExtractHost` | frontend/src/config/env.ts:33-49 | null for non-strings, unparsable values and empty, "localhost" or loopback hosts; otherwise the parsed host |
| `FrontendEnv.LoopbackIgnored` | frontend/src/config/env.ts:44-46 | the loopback address never counts as a host |
| `FrontendEnv.PotentialHosts` | frontend/src/config/env.ts:51-71 | the nine sources at fixed positions: Expo Go's host URI, its config's host URI and debugger host, then the same pair in the legacy manifest, the new manifest's client config and the app config |
| `FrontendEnv.FirstHost` | frontend/src/config/env.ts:73-76 | the host of the first source yielding one; none exactly when no source does |
| `FrontendEnv.LoopbackSkipped` | frontend/src/config/env.ts:73-76 | a loopback address reported first is passed over |
| `FrontendEnv.DefaultHost` | frontend/src/config/env.ts:73-87 | the first reported host, else "10.0.2.2" on Android, else "127.0.0.1" |
| `FrontendEnv.DefaultApiBaseUrl` | frontend/src/config/env.ts:89 | `http://{host}:{port}` with the default host and port |
| `FrontendEnv.ApiBaseUrl` | frontend/src/config/env.ts:91 | EXPO_PUBLIC_API_URL when set (even empty), else a non-nullish extra.apiBaseUrl, else the default URL |
| `FrontendEnv.AndroidFallbackUrl` | frontend/src/config/env.ts:82-91 | with nothing configured or reported, an Android device uses "http://10.0.2.2:5000" |
| `Strings.Split` | backend/liedetect/config.py:26 | at least one piece, and no piece contains the separator |
| `Strings.JoinSplit` | backend/liedetect/config.py:26 | joining the split pieces gives the string back |
| `Strings.SplitJoin` | backend/liedetect/config.py:26 | splitting a join of separator-free pieces gives the pieces back |
| `Strings.SplitWithoutSeparator` | ml/audio_lie/dataset.py:33 | a string without the separator is one piece |
| `Strings.Strip` | backend/liedetect/config.py:26 | the strip is never longer than its input |
| `Strings.StripIsInfix` | backend/liedetect/config.py:26 | the strip is an infix between a whitespace-only prefix and suffix |
| `Strings.StripEnds` | backend/liedetect/services/whisper.py:45 | a stripped string neither begins nor ends with whitespace |
| `Strings.StripEmpty` | backend/liedetect/config.py:26 | stripping gives "" exactly for all-whitespace strings |
| `Strings.StripKeepsAbsence` | backend/liedetect/config.py:26 | stripping introduces no character |
| `Strings.StripIdempotent` | backend/liedetect/config.py:26 | stripping twice is stripping once |
| `Strings.StripUnpadded` | backend/liedetect/config.py:26 | an unpadded string is its own strip |
| `Strings.Lower` | backend/liedetect/config.py:20 | same length, with each ASCII capital lowered and every other character kept |
| `Strings.ZeroPadded` | ml/video_lie/frame_extractor.py:31 | digits only, width characters or the numeral's own length if longer |
| `Strings.ZeroPaddedRoundTrip` | ml/video_lie/frame_extractor.py:31 | the padded numeral reads back as its number |
| `Strings.ZeroPaddedInjective` | ml/video_lie/frame_extractor.py:31 | different numbers have different padded numerals |
| `Strings.ParseInt` | backend/liedetect/config.py:19 | blank text is never an integer; an accepted literal, once stripped, is non-empty and starts with a digit or a sign |
| `Strings.ParseDigits` | ml/audio_lie/dataset.py:46 | a run of digits, leading zeros included, parses to its value |
| `Strings.ParseDecimal` | ml/audio_lie/dataset.py:46 | every decimal numeral parses back to its number |
| `Strings.ParseZeroPadded` | ml/audio_lie/dataset.py:46 | a zero-padded actor number such as "01" parses to its number |
| `Strings.ParseIntNeedsDigit` | ml/audio_lie/dataset.py:46 | text without a digit is never an integer |
| `Slices.Trunc` | ml/video_lie/frame_extractor.py:21 | int() of a float truncates toward zero |
| `Slices.Bound` | ml/audio_lie/features.py:28 | a slice bound lands in 0..n, counting from the end when negative |

## Left out

- `VectorMath.Round4`: round(·, 4) is taken as exact (the identity). Every "rounded" result of average_vectors, cosine_similarity, fuse_lie_scores, final_lie_score and compute_lie_score is the exact real value.
- `VectorMath.CosineSimilarity`: the square root is an abstract function. Only properties that hold whatever its value are proved, and cosine(v, v) = 1 assumes Sqrt squares back to |v|².
- Floating point: every Python float and JavaScript number is a `real`. Overflow, NaN and IEEE-754 rounding are not modelled.
- Concurrency: the store's load-modify-save is unlocked, so concurrent writes can lose updates. Each mutation is one atomic step here, and no race freedom is claimed. The frontend's parallel `Promise.all` calls are not modelled.
- Clock: each mutation reads the clock once. The model uses that one reading for a fresh document's createdAt and for updatedAt.
- File system and persistence: documents are a map; JSON files, directory creation and `Path` normalisation are not modelled. A path is the root, "/" and the relative part. `onDisk` is the set of existing paths.
- `Analysis.EndpointResult`: a backend reply is typed, with `lie_score` a number and `emotion_vector` a list of numbers or absent. A reply whose `lie_score` is JSON null or not a number makes fuse_lie_scores raise TypeError (analysis.py:37-41), and the model cannot represent that reply. Likewise a reply with an ill-typed vector.
- `Whisper.TranscriptOf`: the transcription response's `text` is a string or absent. A JSON null or non-string `text` makes `.strip()` raise AttributeError (whisper.py:45), and the model cannot represent that response.
- Remote services: the model gateway (including its random mock mode with 7-slot vectors, which the averaging rejects), the OpenAI chat and transcription requests, S3 upload/download and the deployment scripts are parameters or outcomes. The LLM prompt, model name and HTTP headers are not modelled.
- `LieLlm.LiveWeights`: the coercion is stated over a parsed object with its members in document order. Python's `float()` of a string is a parameter. A reply that is not an object raises `'<type>' object has no attribute 'items'`, and the model's message leaves out the type name.
- `Whisper.Transcribe`: on the live path the new store state is stated only for the transcript and the stored summary. Any path patch made by the download is stated by `Storage.EnsureLocalPath`.
- `Config.FromEnvironment`: only the upload-limit failure, the mock switch and the bucket are stated for every environment. The other fields are plain getenv defaults, shown for the empty environment by `Config.DefaultSettings`.
- `Strings.Lower`: only ASCII letters are lowered. Python's full Unicode lower-casing is not modelled.
- `Strings.ParseInt`: only ASCII digits are accepted. Python's `int()` also reads other Unicode decimal digits, so `int("٣")` is 3 where the model gives None.
- `Strings.IntLiteralMessage`: the value is shown between single quotes. Python shows its repr(): double quotes when the value holds a `'` and no `"`, escaped control and non-printable characters, and for `int()` at most 200 characters.
- `LieLlm.ConvertMessage`: the string is shown between single quotes, not as its repr(), with the same differences as `Strings.IntLiteralMessage`.
- `VectorMath.FuseLieScores`: the weights are reals. Weights that are all Python ints and sum to 0 raise "division by zero"; the model always gives "float division by zero".
- `AudioDataset.LoadDataset`: the recursive search for `*.wav` is its `found` parameter. The sort by name and the random shuffle (dataset.py:58-59) are left out, so the samples come in discovery order.
- `AudioFeatures.PadIdempotent`: proved for non-negative max_frames only. A negative bound shrinks the array again on each call.
- MFCC extraction, the Torch models, training, the micro/macro feature code and the dataset classes are numeric ML code and are not part of this model.
- `AudioServing.PredictFn`: the download, the feature extraction and the network's forward pass are one classifier parameter. For fewer than eight probabilities the tensor's own IndexError message is not modelled.
- `AudioServing.SelectLocation`: a request that is not a JSON object raises the AttributeError `'<type>' object has no attribute 'get'`. The model's message leaves out the type name.
- `FrameExtractor.ExtractFrames`: the capture is its open flag, its frame rate and the number of frames it yields. Resizing and writing the images are not modelled, and the default output directory is not modelled.
- `FrontendEnv.CoerceToUrl`: the WHATWG URL parser is an abstract parameter that yields a hostname or fails. Expo's `Constants` lookups are taken as already-resolved values.
- Flask wiring, the media upload route and the React Native UI are not part of this model.
- backend/tests/test_vector_math.py:17-19 expects fuse(0.5, 0.25, 0.75) ≈ 0.5. The code computes 0.4875, and the model follows the code (`VectorMath.FuseExample`).

=== FILE: analysis.dfy ===
/**
 * The analysis run: picks the session's media (answerer first), asks the
 * audio, macro-expression and micro-expression backends for a lie score and an
 * emotion vector, averages the audio and macro vectors, fuses the three scores
 * and stores the summary with the session. The model gateway is a parameter.
 */
module Analysis {
  import opened Wrappers
  import opened Exceptions
  import opened Emotions
  import opened VectorMath
  import opened Config
  import opened SessionStore

  const NO_MEDIA_MESSAGE: string := "Session has no uploaded media"

  function UnknownSessionMessage(sessionId: string): string {
    "Unknown session: " + sessionId
  }

  /** What each backend is told: the session, the chosen media's key and bucket, and its role. */
  datatype Payload = Payload(sessionId: string, videoKey: Option<string>, bucket: Option<string>, role: string)

  /** A backend's reply; None for a key the reply lacks. */
  datatype EndpointResult = EndpointResult(lieScore: Option<real>, emotionVector: Option<seq<real>>) {
    /** `.get('lie_score', 0.0)`. */
    function Score(): real {
      lieScore.GetOr(0.0)
    }

    /** `.get('emotion_vector', []) or [0.0] * 8`: a missing or empty vector reads as eight zeros. */
    function Vector(): (v: seq<real>)
      ensures |v| > 0
      ensures emotionVector.None? || emotionVector.value == [] ==> v == Zeros(DIM)
      ensures emotionVector.Some? && emotionVector.value != [] ==> v == emotionVector.value
    {
      if emotionVector.None? || emotionVector.value == [] then Zeros(DIM) else emotionVector.value
    }
  }

  /** The model gateway: the reply of the named endpoint, or the exception its call raised. */
  type Gateway = (string, Payload) -> Outcome<EndpointResult>

  /** The reply that stands in for an unconfigured backend. */
  const UNCONFIGURED: EndpointResult := EndpointResult(Some(0.0), Some([]))

  /** _invoke_endpoint: an unset or empty endpoint name answers UNCONFIGURED without calling the gateway. */
  function InvokeEndpoint(endpoint: Option<string>, payload: Payload, gateway: Gateway): (r: Outcome<EndpointResult>)
    ensures !Present(endpoint) ==> r == Ok(UNCONFIGURED)
    ensures Present(endpoint) ==> r == gateway(endpoint.value, payload)
  {
    if !Present(endpoint) then Ok(UNCONFIGURED) else gateway(endpoint.value, payload)
  }

  /** An unconfigured backend scores 0.0 with eight zeros. */
  lemma UnconfiguredReadsZero()
    ensures UNCONFIGURED.Score() == 0.0 && UNCONFIGURED.Vector() == Zeros(DIM)
  {
  }

  /** `media.get(role)` is a non-empty entry. */
  predicate HasEntry(media: map<string, MediaEntry>, role: string) {
    role in media && !media[role].IsEmpty()
  }

  /** The role whose media is analysed: answerer if it has an entry, else questioner if it has one. */
  function ChosenRole(media: map<string, MediaEntry>): (role: Option<string>)
    ensures role.None? <==> !HasEntry(media, "answerer") && !HasEntry(media, "questioner")
    ensures role.Some? ==> HasEntry(media, role.value)
    ensures role.Some? ==> (role.value == "answerer" <==> HasEntry(media, "answerer"))
  {
    if HasEntry(media, "answerer") then Some("answerer")
    else if HasEntry(media, "questioner") then Some("questioner")
    else None
  }

  /** The backend payload for the chosen entry. */
  function PayloadFor(sessionId: string, media: map<string, MediaEntry>, role: string): (p: Payload)
    requires role in media
    ensures p.sessionId == sessionId && p.role == role
    ensures p.videoKey == media[role].key.Get() && p.bucket == media[role].bucket.Get()
  {
    Payload(sessionId, media[role].key.Get(), media[role].bucket.Get(), role)
  }

  /**
   * The summary of three replies: the audio and macro vectors (zero-filled when
   * empty) averaged slot by slot, the three scores fused with the default
   * weights and echoed; a vector that is not of canonical length is the
   * averaging's ValueError.
   */
  function Summarise(audio: EndpointResult, macro: EndpointResult, micro: EndpointResult): (r: Outcome<Summary>)
    ensures r.Ok? <==> |audio.Vector()| == DIM && |macro.Vector()| == DIM
    ensures r.Err? ==> r == Err(ValueError(ALIGN_MESSAGE))
    ensures r.Ok? ==>
      r.value.lieProbability == 0.35 * audio.Score() + 0.35 * macro.Score() + 0.30 * micro.Score()
      && r.value.audioScore == audio.Score() && r.value.macroScore == macro.Score()
      && r.value.microScore == micro.Score()
      && r.value.audioVector == audio.Vector() && r.value.macroVector == macro.Vector()
      && |r.value.comparisonVector| == DIM
      && (forall i :: 0 <= i < DIM ==>
            r.value.comparisonVector[i] == (audio.Vector()[i] + macro.Vector()[i]) / 2.0)
      && r.value.llmVector.None? && r.value.alignmentScore.None?
  {
    var audioVector, macroVector := audio.Vector(), macro.Vector();
    match Averaged([audioVector, macroVector])
    case Err(e) => Err(e)
    case Ok(combined) =>
      FuseWithDefaults(audio.Score(), macro.Score(), micro.Score());
      assert AllCanonical([audioVector, macroVector]);
      assert [audioVector, macroVector][0] == audioVector && [audioVector, macroVector][1] == macroVector;
      AverageOfTwo(audioVector, macroVector);
      var lieProbability := FuseLieScores(audio.Score(), macro.Score(), micro.Score(), None).value;
      Ok(Summary(lieProbability, audio.Score(), macro.Score(), micro.Score(),
        combined, audioVector, macroVector, None, None))
  }

  /**
   * AnalysisService.run without the store write: an unknown session or one
   * with neither an answerer nor a questioner entry is a ValueError; the three
   * backends are asked in turn (audio, macro, micro), a raising call raising
   * through, and their replies summarised.
   */
  function Analyse(db: Table, settings: Settings, sessionId: string, gateway: Gateway): (r: Outcome<Summary>)
    ensures sessionId !in db ==> r == Err(ValueError(UnknownSessionMessage(sessionId)))
    ensures sessionId in db && ChosenRole(db[sessionId].media).None? ==> r == Err(ValueError(NO_MEDIA_MESSAGE))
    ensures r.Ok? ==> sessionId in db && ChosenRole(db[sessionId].media).Some?
    ensures sessionId in db && ChosenRole(db[sessionId].media).Some? ==>
      var media := db[sessionId].media;
      var payload := PayloadFor(sessionId, media, ChosenRole(media).value);
      var audio := InvokeEndpoint(settings.audioEndpoint, payload, gateway);
      var macro := InvokeEndpoint(settings.macroEndpoint, payload, gateway);
      var micro := InvokeEndpoint(settings.microEndpoint, payload, gateway);
      (audio.Err? ==> r == Err(audio.error))
      && (audio.Ok? && macro.Err? ==> r == Err(macro.error))
      && (audio.Ok? && macro.Ok? && micro.Err? ==> r == Err(micro.error))
      && (audio.Ok? && macro.Ok? && micro.Ok? ==> r == Summarise(audio.value, macro.value, micro.value))
    ensures r.Ok? ==>
      var media := db[sessionId].media;
      var payload := PayloadFor(sessionId, media, ChosenRole(media).value);
      var audio := InvokeEndpoint(settings.audioEndpoint, payload, gateway);
      var macro := InvokeEndpoint(settings.macroEndpoint, payload, gateway);
      var micro := InvokeEndpoint(settings.microEndpoint, payload, gateway);
      audio.Ok? && macro.Ok? && micro.Ok? && r == Summarise(audio.value, macro.value, micro.value)
  {
    match Lookup(db, sessionId)
    case None => Err(ValueError(UnknownSessionMessage(sessionId)))
    case Some(session) =>
      match ChosenRole(session.media)
      case None => Err(ValueError(NO_MEDIA_MESSAGE))
      case Some(role) =>
        var payload := PayloadFor(sessionId, session.media, role);
        match InvokeEndpoint(settings.audioEndpoint, payload, gateway)
        case Err(e) => Err(e)
        case Ok(audio) =>
          match InvokeEndpoint(settings.macroEndpoint, payload, gateway)
          case Err(e) => Err(e)
          case Ok(macro) =>
            match InvokeEndpoint(settings.microEndpoint, payload, gateway)
            case Err(e) => Err(e)
            case Ok(micro) => Summarise(audio, macro, micro)
  }

  /** With both roles uploaded, the answerer's media is analysed and named in the payload. */
  lemma AnswererPreferred(media: map<string, MediaEntry>)
    requires HasEntry(media, "answerer")
    ensures ChosenRole(media) == Some("answerer")
  {
  }

  /**
   * With no backend configured and some media uploaded, the run succeeds with
   * lie probability 0 and an all-zero comparison vector, whatever the gateway.
   */
  lemma NothingConfigured(db: Table, settings: Settings, sessionId: string, gateway: Gateway)
    requires sessionId in db && ChosenRole(db[sessionId].media).Some?
    requires !Present(settings.audioEndpoint) && !Present(settings.macroEndpoint) && !Present(settings.microEndpoint)
    ensures var r := Analyse(db, settings, sessionId, gateway);
      r.Ok? && r.value.lieProbability == 0.0 && r.value.comparisonVector == Zeros(DIM)
      && r.value.audioVector == Zeros(DIM) && r.value.macroVector == Zeros(DIM)
  {
    var r := Summarise(UNCONFIGURED, UNCONFIGURED, UNCONFIGURED);
    assert r.Ok?;
    assert r.value.comparisonVector == Zeros(DIM);
  }

  /** A backend replying with a seven-slot vector makes the run fail in the averaging. */
  lemma ShortVectorRejected(audio: EndpointResult, macro: EndpointResult, micro: EndpointResult)
    requires audio.emotionVector == Some(seq(7, _ => 0.5))
    ensures Summarise(audio, macro, micro) == Err(ValueError(ALIGN_MESSAGE))
  {
    assert |audio.Vector()| == 7;
  }

  /** run: the summary returned is exactly the one stored with set_summary; a failed run stores nothing. */
  method Run(settings: Settings, store: Store, sessionId: string, gateway: Gateway, now: Timestamp)
    returns (r: Outcome<Summary>)
    requires store.Valid()
    modifies store
    ensures store.Valid()
    ensures r == Analyse(old(store.sessions), settings, sessionId, gateway)
    ensures r.Ok? ==> store.sessions == WithSummary(old(store.sessions), sessionId, r.value, now)
    ensures r.Err? ==> store.sessions == old(store.sessions)
  {
    r := Analyse(store.sessions, settings, sessionId, gateway);
    if r.Ok? {
      store.SetSummary(sessionId, r.value, now);
    }
  }
}

=== FILE: audio_constants.dfy ===
/**
 * Constants of the audio (speech-emotion) model: the RAVDESS emotion codes and the
 * split of the canonical emotions into those that count towards a lie and the rest.
 */
module AudioConstants {
  import opened Emotions

  /** Third field of a RAVDESS file name mapped to the emotion it encodes. */
  const EMOTION_CODE_MAP: map<string, string> :=
    map["01" := "neutral", "02" := "calm", "03" := "happy", "04" := "sad",
        "05" := "angry", "06" := "fearful", "07" := "disgust", "08" := "surprised"]

  /** Emotions whose presence counts as a deception cue. */
  const BAD_EMOTIONS: set<string> := {"angry", "fearful", "disgust", "sad"}

  const GOOD_EMOTIONS: set<string> := {"happy", "surprised", "calm", "neutral"}

  /** The audio model reuses the canonical index and list unchanged. */
  const EMOTION_INDEX: map<string, nat> := EMOTION_TO_INDEX

  const AUDIO_EMOTIONS: seq<string> := EMOTIONS

  /** The code map is a bijection from the eight two-digit codes onto the canonical emotions. */
  lemma CodeMapIsBijection()
    ensures EMOTION_CODE_MAP.Keys == {"01", "02", "03", "04", "05", "06", "07", "08"}
    ensures EMOTION_CODE_MAP.Values == set e | e in EMOTIONS
    ensures forall c, d :: c in EMOTION_CODE_MAP && d in EMOTION_CODE_MAP && c != d ==>
      EMOTION_CODE_MAP[c] != EMOTION_CODE_MAP[d]
  {
  }

  /** BAD_EMOTIONS and GOOD_EMOTIONS partition the canonical set, four names each. */
  lemma BadGoodPartition()
    ensures BAD_EMOTIONS !! GOOD_EMOTIONS
    ensures |BAD_EMOTIONS| == 4 && |GOOD_EMOTIONS| == 4
    ensures BAD_EMOTIONS + GOOD_EMOTIONS == set e | e in EMOTIONS
  {
  }

  /** EMOTION_INDEX and AUDIO_EMOTIONS are the canonical index and order. */
  lemma AudioSchemaIsCanonical()
    ensures |AUDIO_EMOTIONS| == DIM
    ensures forall i :: 0 <= i < DIM ==> EMOTION_INDEX[AUDIO_EMOTIONS[i]] == i
  {
  }
}

=== FILE: audio_dataset.dfy ===
/**
 * The RAVDESS audio dataset: the metadata a file name encodes, the lie label
 * derived from its emotion, the train/test split and the checks made while
 * loading a directory of recordings. The directory walk is a parameter.
 */
module AudioDataset {
  import opened Wrappers
  import opened Exceptions
  import opened Strings
  import opened Slices
  import opened Emotions
  import opened AudioConstants

  /** One recording and the metadata parsed from its name. */
  datatype AudioSample = AudioSample(
    path: string,
    emotion: string,
    intensity: string,
    statement: string,
    repetition: string,
    actor: int,
    modality: string,
    vocalChannel: string)
  {
    /** `lie_label`: 1.0 for an emotion that counts as a deception cue, else 0.0. */
    function LieLabel(): (lie: real)
      ensures lie == 1.0 <==> emotion in BAD_EMOTIONS
      ensures lie == 0.0 <==> emotion !in BAD_EMOTIONS
    {
      if emotion in BAD_EMOTIONS then 1.0 else 0.0
    }
  }

  // ---------------------------------------------------------------------------
  // Path components

  /** `path.name`: everything after the last '/'. */
  function Name(path: string): (name: string)
    ensures '/' !in name
    ensures |name| <= |path|
    ensures '/' !in path ==> name == path
  {
    if |path| == 0 || path[|path| - 1] == '/' then ""
    else
      assert path == path[..|path| - 1] + [path[|path| - 1]];
      Name(path[..|path| - 1]) + [path[|path| - 1]]
  }

  /** The name is the part of the path after its last '/'. */
  lemma {:induction false} NameIsSuffix(path: string)
    ensures var name := Name(path); name == path[|path| - |name|..]
    decreases |path|
  {
    if |path| > 0 && path[|path| - 1] != '/' {
      var init := path[..|path| - 1];
      NameIsSuffix(init);
      assert path[|path| - |Name(path)|..] == init[|init| - |Name(init)|..] + [path[|path| - 1]];
    }
  }

  /** Index of the last occurrence of c, as `str.rfind` (None for -1). */
  function LastIndex(s: string, c: char): (r: Option<nat>)
    ensures r.None? <==> c !in s
    ensures r.Some? ==> r.value < |s| && s[r.value] == c && c !in s[r.value + 1..]
  {
    if |s| == 0 then None
    else if s[|s| - 1] == c then Some(|s| - 1)
    else
      var r := LastIndex(s[..|s| - 1], c);
      assert r.Some? ==> s[r.value + 1..] == s[..|s| - 1][r.value + 1..] + [s[|s| - 1]];
      r
  }

  /** `path.stem`: the name without its last suffix; a leading or trailing dot is no suffix. */
  function Stem(name: string): (stem: string)
    ensures |stem| <= |name| && stem == name[..|stem|]
  {
    var i := LastIndex(name, '.');
    if i.Some? && 0 < i.value < |name| - 1 then name[..i.value] else name
  }

  lemma {:induction false} NameAfterSlash(directory: string, name: string)
    requires '/' !in name
    ensures Name(directory + "/" + name) == name
    decreases |name|
  {
    var path := directory + "/" + name;
    if |name| == 0 {
      assert path[|path| - 1] == '/';
    } else {
      var init := name[..|name| - 1];
      assert path[..|path| - 1] == directory + "/" + init;
      NameAfterSlash(directory, init);
      assert name == init + [path[|path| - 1]];
    }
  }

  lemma StemOfWav(stem: string)
    requires |stem| > 0
    ensures Stem(stem + ".wav") == stem
  {
    var name := stem + ".wav";
    assert LastIndex(stem + ".", '.') == Some(|stem|);
    assert (stem + ".w")[..|stem| + 1] == stem + ".";
    assert LastIndex(stem + ".w", '.') == Some(|stem|);
    assert (stem + ".wa")[..|stem| + 2] == stem + ".w";
    assert LastIndex(stem + ".wa", '.') == Some(|stem|);
    assert name[..|stem| + 3] == stem + ".wa";
    assert LastIndex(name, '.') == Some(|stem|);
    assert name[..|stem|] == stem;
  }

  // ---------------------------------------------------------------------------
  // parse_filename

  function UnexpectedNameMessage(name: string): string {
    "Unexpected filename: " + name
  }

  function UnknownCodeMessage(code: string, name: string): string {
    "Unknown emotion code " + code + " in " + name
  }

  /** The dash-separated fields of a file's stem. */
  function Fields(path: string): seq<string> {
    Split(Stem(Name(path)), '-')
  }

  /**
   * The sample parse_filename builds from a name's fields: there must be
   * exactly seven, the third a known emotion code and the seventh an integer;
   * intensity and statement code "02" read as strong and dogs, anything else
   * as normal and kids; modality, vocal channel and repetition are kept as
   * written.
   */
  function ParseFields(path: string, name: string, parts: seq<string>): (r: Outcome<AudioSample>)
    ensures |parts| != 7 ==> r == Err(ValueError(UnexpectedNameMessage(name)))
    ensures |parts| == 7 && parts[2] !in EMOTION_CODE_MAP ==> r == Err(ValueError(UnknownCodeMessage(parts[2], name)))
    ensures |parts| == 7 && parts[2] in EMOTION_CODE_MAP && ParseInt(parts[6]).None? ==>
      r == Err(ValueError(IntLiteralMessage(parts[6])))
    ensures r.Ok? <==> |parts| == 7 && parts[2] in EMOTION_CODE_MAP && ParseInt(parts[6]).Some?
    ensures r.Ok? ==>
      r.value.path == path && r.value.emotion == EMOTION_CODE_MAP[parts[2]] && IsEmotion(r.value.emotion)
      && r.value.modality == parts[0] && r.value.vocalChannel == parts[1]
      && r.value.repetition == parts[5] && Some(r.value.actor) == ParseInt(parts[6])
      && r.value.intensity == (if parts[3] == "02" then "strong" else "normal")
      && r.value.statement == (if parts[4] == "02" then "dogs" else "kids")
  {
    if |parts| != 7 then Err(ValueError(UnexpectedNameMessage(name)))
    else
      var code := parts[2];
      if code !in EMOTION_CODE_MAP then Err(ValueError(UnknownCodeMessage(code, name)))
      else
        match ParseInt(parts[6])
        case None => Err(ValueError(IntLiteralMessage(parts[6])))
        case Some(actor) =>
          CodeMapIsBijection();
          var emotion := EMOTION_CODE_MAP[code];
          assert emotion in EMOTION_CODE_MAP.Values;
          Ok(AudioSample(
            path, emotion,
            if parts[3] == "02" then "strong" else "normal",
            if parts[4] == "02" then "dogs" else "kids",
            parts[5], actor, parts[0], parts[1]))
  }

  /** parse_filename: the fields of the path's stem, decoded. */
  function ParseFilename(path: string): (r: Outcome<AudioSample>)
    ensures |Fields(path)| != 7 ==> r == Err(ValueError(UnexpectedNameMessage(Name(path))))
    ensures r.Ok? ==> r.value.path == path && IsEmotion(r.value.emotion)
    ensures r.Ok? <==> |Fields(path)| == 7 && Fields(path)[2] in EMOTION_CODE_MAP && ParseInt(Fields(path)[6]).Some?
  {
    ParseFields(path, Name(path), Fields(path))
  }

  /** Intensity code "02" alone reads as strong and statement code "02" alone as dogs. */
  lemma ParsedCodes(path: string, name: string, parts: seq<string>)
    requires ParseFields(path, name, parts).Ok?
    ensures var sample := ParseFields(path, name, parts).value;
      (sample.intensity == "strong" <==> parts[3] == "02") && (sample.intensity == "normal" <==> parts[3] != "02")
      && (sample.statement == "dogs" <==> parts[4] == "02") && (sample.statement == "kids" <==> parts[4] != "02")
  {
    assert "strong" != "normal" by {
      assert "strong"[0] != "normal"[0];
    }
    assert "dogs" != "kids" by {
      assert "dogs"[0] != "kids"[0];
    }
  }

  /** The RAVDESS name `{modality}-{vocal}-{emotion}-{intensity}-{statement}-{repetition}-{actor}.wav`. */
  function RavdessName(modality: string, vocal: string, code: string, intensity: string,
                       statement: string, repetition: string, actor: nat): string
  {
    Join([modality, vocal, code, intensity, statement, repetition, ZeroPadded(actor, 2)], '-') + ".wav"
  }

  /** The fields of `{directory}/{stem}.wav` are the dash-separated pieces of the stem. */
  lemma FieldsOfWav(directory: string, stem: string)
    requires |stem| > 0 && '/' !in stem
    ensures Fields(directory + "/" + stem + ".wav") == Split(stem, '-')
  {
    var name := stem + ".wav";
    assert directory + "/" + stem + ".wav" == directory + "/" + name;
    NameAfterSlash(directory, name);
    StemOfWav(stem);
  }

  /** A field that can sit in a RAVDESS name: no dash and no slash. */
  predicate Clean(field: string) {
    '-' !in field && '/' !in field
  }

  /**
   * Parsing a well-formed RAVDESS name, in any directory, gives back the
   * fields it was built from, with the emotion decoded and the actor's number.
   */
  lemma ParseRavdessName(directory: string, modality: string, vocal: string, code: string, intensity: string,
                         statement: string, repetition: string, actor: nat)
    requires code in EMOTION_CODE_MAP
    requires Clean(modality) && Clean(vocal) && Clean(intensity) && Clean(statement) && Clean(repetition)
    ensures var path := directory + "/" + RavdessName(modality, vocal, code, intensity, statement, repetition, actor);
      ParseFilename(path) == Ok(AudioSample(
        path, EMOTION_CODE_MAP[code],
        if intensity == "02" then "strong" else "normal",
        if statement == "02" then "dogs" else "kids",
        repetition, actor, modality, vocal))
  {
    RavdessFields(directory, modality, vocal, code, intensity, statement, repetition, actor);
    ParseZeroPadded(actor, 2);
    DecodeRavdessFields(directory + "/" + RavdessName(modality, vocal, code, intensity, statement, repetition, actor),
                        modality, vocal, code, intensity, statement, repetition, ZeroPadded(actor, 2), actor);
  }

  /** The fields of a RAVDESS name are the pieces it was joined from. */
  lemma RavdessFields(directory: string, modality: string, vocal: string, code: string, intensity: string,
                      statement: string, repetition: string, actor: nat)
    requires code in EMOTION_CODE_MAP
    requires Clean(modality) && Clean(vocal) && Clean(intensity) && Clean(statement) && Clean(repetition)
    ensures Fields(directory + "/" + RavdessName(modality, vocal, code, intensity, statement, repetition, actor))
      == [modality, vocal, code, intensity, statement, repetition, ZeroPadded(actor, 2)]
  {
    var pieces := [modality, vocal, code, intensity, statement, repetition, ZeroPadded(actor, 2)];
    CodeIsClean(code);
    NumberIsClean(actor, 2);
    CleanFields(directory, pieces);
    assert directory + "/" + RavdessName(modality, vocal, code, intensity, statement, repetition, actor)
      == directory + "/" + Join(pieces, '-') + ".wav";
  }

  /** Seven fields with a known code and an actor number decode field by field. */
  lemma DecodeRavdessFields(path: string, modality: string, vocal: string, code: string, intensity: string,
                            statement: string, repetition: string, number: string, actor: int)
    requires code in EMOTION_CODE_MAP && ParseInt(number) == Some(actor)
    requires Fields(path) == [modality, vocal, code, intensity, statement, repetition, number]
    ensures ParseFilename(path) == Ok(AudioSample(
      path, EMOTION_CODE_MAP[code],
      if intensity == "02" then "strong" else "normal",
      if statement == "02" then "dogs" else "kids",
      repetition, actor, modality, vocal))
  {
    DecodeFields(path, Name(path), Fields(path));
  }

  lemma DecodeFields(path: string, name: string, parts: seq<string>)
    requires |parts| == 7 && parts[2] in EMOTION_CODE_MAP && ParseInt(parts[6]).Some?
    ensures ParseFields(path, name, parts) == Ok(AudioSample(
      path, EMOTION_CODE_MAP[parts[2]],
      if parts[3] == "02" then "strong" else "normal",
      if parts[4] == "02" then "dogs" else "kids",
      parts[5], ParseInt(parts[6]).value, parts[0], parts[1]))
  {
  }

  /** Emotion codes are made of digits only. */
  lemma CodeIsClean(code: string)
    requires code in EMOTION_CODE_MAP
    ensures Clean(code)
  {
    assert code in {"01", "02", "03", "04", "05", "06", "07", "08"};
  }

  /** A zero-padded number is made of digits only. */
  lemma NumberIsClean(n: nat, width: nat)
    ensures Clean(ZeroPadded(n, width))
  {
    var padded := ZeroPadded(n, width);
    assert forall k :: 0 <= k < |padded| ==> padded[k] != '-' && padded[k] != '/';
  }

  /** Clean pieces joined by dashes into a `.wav` name split back into the same pieces. */
  lemma CleanFields(directory: string, pieces: seq<string>)
    requires |pieces| > 1 && forall k :: 0 <= k < |pieces| ==> Clean(pieces[k])
    ensures Fields(directory + "/" + Join(pieces, '-') + ".wav") == pieces
  {
    var stem := Join(pieces, '-');
    assert |stem| > 0;
    JoinAvoids(pieces, '-', '/');
    FieldsOfWav(directory, stem);
    SplitJoin(pieces, '-');
  }

  /** The codes whose emotion is a deception cue. */
  lemma CodesOfCues()
    ensures forall c :: c in EMOTION_CODE_MAP ==> (EMOTION_CODE_MAP[c] in BAD_EMOTIONS <==> c in {"04", "05", "06", "07"})
  {
    forall c | c in EMOTION_CODE_MAP
      ensures EMOTION_CODE_MAP[c] in BAD_EMOTIONS <==> c in {"04", "05", "06", "07"}
    {
      assert c in EMOTION_CODE_MAP.Keys;
    }
  }

  /** A parsed recording's lie label is 1.0 exactly for the angry, fearful, disgust and sad codes. */
  lemma LieLabelOfCode(path: string)
    requires ParseFilename(path).Ok?
    ensures ParseFilename(path).value.LieLabel() == 1.0 <==> Fields(path)[2] in {"04", "05", "06", "07"}
  {
    CodesOfCues();
  }

  /** Over the canonical emotions the lie label is 0.0 exactly for the emotions that are not cues. */
  lemma LieLabelOfGoodEmotions(sample: AudioSample)
    requires IsEmotion(sample.emotion)
    ensures sample.LieLabel() == 0.0 <==> sample.emotion in GOOD_EMOTIONS
  {
    BadGoodPartition();
    assert sample.emotion in set e | e in EMOTIONS;
  }

  // ---------------------------------------------------------------------------
  // split_samples

  const DEFAULT_TRAIN_RATIO: real := 0.8

  /** split_samples: the first `int(count * ratio)` samples (a Python slice bound) and the rest. */
  function SplitSamples<T>(samples: seq<T>, trainRatio: real): (r: (seq<T>, seq<T>))
    ensures r.0 + r.1 == samples
    ensures |r.0| == Bound(Trunc(|samples| as real * trainRatio), |samples|)
  {
    var cutoff := Bound(Trunc(|samples| as real * trainRatio), |samples|);
    assert samples[..cutoff] + samples[cutoff..] == samples;
    (samples[..cutoff], samples[cutoff..])
  }

  /** A whole count scaled by a ratio in [0, 1] stays between 0 and the count. */
  lemma ScaledCount(count: nat, ratio: real)
    requires 0.0 <= ratio <= 1.0
    ensures 0.0 <= count as real * ratio <= count as real
  {
    assert count as real * (1.0 - ratio) >= 0.0;
  }

  /** For a ratio in [0, 1] the training part holds the largest whole number of samples not above count * ratio. */
  lemma SplitProportion<T>(samples: seq<T>, trainRatio: real)
    requires 0.0 <= trainRatio <= 1.0
    ensures var train := SplitSamples(samples, trainRatio).0;
      |train| as real <= |samples| as real * trainRatio < |train| as real + 1.0
  {
    ScaledCount(|samples|, trainRatio);
    var t := Trunc(|samples| as real * trainRatio);
    assert 0 <= t <= |samples|;
  }

  /** A ratio of 0 or 1 puts every sample on one side. */
  lemma SplitExtremes<T>(samples: seq<T>)
    ensures SplitSamples(samples, 0.0) == ([], samples)
    ensures SplitSamples(samples, 1.0) == (samples, [])
  {
    var count := |samples| as real;
    assert count * 1.0 == count;
    assert count.Floor == |samples|;
    assert samples[..|samples|] == samples;
    assert samples[..0] == [];
  }

  /** Ten samples split 8/2 with the default ratio. */
  lemma DefaultSplitOfTen<T>(samples: seq<T>)
    requires |samples| == 10
    ensures var (train, test) := SplitSamples(samples, DEFAULT_TRAIN_RATIO); |train| == 8 && |test| == 2
  {
    assert 10 as real * DEFAULT_TRAIN_RATIO == 8.0;
  }

  // ---------------------------------------------------------------------------
  // load_dataset

  /**
   * The values of a list built item by item, as a comprehension does: the
   * first failing item raises its exception.
   */
  function Collect<T>(results: seq<Outcome<T>>): (r: Outcome<seq<T>>)
    ensures r.Ok? <==> forall i :: 0 <= i < |results| ==> results[i].Ok?
    ensures r.Ok? ==> |r.value| == |results| && forall i :: 0 <= i < |results| ==> results[i] == Ok(r.value[i])
    ensures r.Err? ==>
      exists i :: 0 <= i < |results| && results[i] == Err(r.error) && (forall j :: 0 <= j < i ==> results[j].Ok?)
    decreases |results|
  {
    if |results| == 0 then Ok([])
    else
      match results[0]
      case Err(e) => Err(e)
      case Ok(v) =>
        var rest := Collect(results[1..]);
        assert forall i :: 1 <= i < |results| ==> results[i] == results[1..][i - 1];
        if rest.Err? then
          var i :| 0 <= i < |results[1..]| && results[1..][i] == Err(rest.error)
            && forall j :: 0 <= j < i ==> results[1..][j].Ok?;
          assert results[i + 1] == Err(rest.error);
          Err(rest.error)
        else
          Ok([v] + rest.value)
  }

  /** `[parse_filename(path) for path in found]`, each parse's outcome. */
  function ParseResults(paths: seq<string>): (r: seq<Outcome<AudioSample>>)
    ensures |r| == |paths| && forall i :: 0 <= i < |paths| ==> r[i] == ParseFilename(paths[i])
  {
    seq(|paths|, i requires 0 <= i < |paths| => ParseFilename(paths[i]))
  }

  function MissingDirectoryMessage(directory: string): string {
    "Dataset directory not found: " + directory
  }

  function NoFilesMessage(directory: string): string {
    "No audio files found in " + directory
  }

  /**
   * load_dataset: a missing directory is a FileNotFoundError, a badly named
   * recording its parse error, and a directory without recordings a
   * RuntimeError; otherwise every recording found is returned, parsed.
   * `found` is what the recursive search for `*.wav` yields.
   */
  function LoadDataset(directory: string, dirExists: bool, found: seq<string>): (r: Outcome<seq<AudioSample>>)
    ensures !dirExists ==> r == Err(FileNotFoundError(MissingDirectoryMessage(directory)))
    ensures dirExists && found == [] ==> r == Err(RuntimeError(NoFilesMessage(directory)))
    ensures dirExists ==> (r.Ok? <==> found != [] && forall i :: 0 <= i < |found| ==> ParseFilename(found[i]).Ok?)
    ensures dirExists && found != [] && r.Err? ==>
      exists i :: 0 <= i < |found| && ParseFilename(found[i]) == Err(r.error)
        && (forall j :: 0 <= j < i ==> ParseFilename(found[j]).Ok?)
    ensures r.Ok? ==> dirExists && |r.value| == |found| > 0
    ensures r.Ok? ==> forall i :: 0 <= i < |found| ==> ParseFilename(found[i]) == Ok(r.value[i])
  {
    if !dirExists then Err(FileNotFoundError(MissingDirectoryMessage(directory)))
    else
      var results := ParseResults(found);
      var samples := Collect(results);
      if samples.Err? then Err(samples.error)
      else if samples.value == [] then Err(RuntimeError(NoFilesMessage(directory)))
      else Ok(samples.value)
  }
}

=== FILE: audio_features.dfy ===
/**
 * Fixing the number of frames of an MFCC feature array: longer inputs are cut,
 * shorter ones padded on the right with zero columns. The MFCC extraction
 * itself is not part of this model.
 */
module AudioFeatures {
  import opened Slices
  import opened VectorMath

  /** A two-dimensional feature array: one row per coefficient, each `cols` frames long. */
  datatype Matrix = Matrix(rows: seq<seq<real>>, cols: nat) {
    predicate Valid() {
      forall i :: 0 <= i < |rows| ==> |rows[i]| == cols
    }
  }

  const DEFAULT_MAX_FRAMES: int := 200

  function MinNat(a: nat, b: nat): nat {
    if a <= b then a else b
  }

  /**
   * pad_features: a slice `[:, :max_frames]` when the array has at least
   * max_frames columns (a negative bound counting from the end), otherwise
   * zero columns appended up to max_frames. Rows are kept; every kept column
   * is an original one and every added column is zero.
   */
  function PadFeatures(features: Matrix, maxFrames: int): (r: Matrix)
    requires features.Valid()
    ensures r.Valid() && |r.rows| == |features.rows|
    ensures features.cols >= maxFrames ==> r.cols == Bound(maxFrames, features.cols)
    ensures features.cols < maxFrames ==> r.cols == maxFrames
    ensures forall i :: 0 <= i < |r.rows| ==>
      var kept := MinNat(r.cols, features.cols);
      r.rows[i][..kept] == features.rows[i][..kept]
    ensures forall i, j :: 0 <= i < |r.rows| && features.cols <= j < r.cols ==> r.rows[i][j] == 0.0
  {
    if features.cols >= maxFrames then
      var b := Bound(maxFrames, features.cols);
      Matrix(seq(|features.rows|, i requires 0 <= i < |features.rows| => features.rows[i][..b]), b)
    else
      var width: nat := maxFrames - features.cols;
      var rows := seq(|features.rows|, i requires 0 <= i < |features.rows| => features.rows[i] + Zeros(width));
      assert forall i :: 0 <= i < |rows| ==> rows[i] == features.rows[i] + Zeros(width);
      assert forall i :: 0 <= i < |rows| ==> |features.rows[i]| == features.cols;
      assert forall i, j :: 0 <= i < |rows| && features.cols <= j < maxFrames ==>
        rows[i][j] == Zeros(width)[j - features.cols];
      Matrix(rows, maxFrames)
  }

  /** With at least max_frames columns, each row keeps exactly its first max_frames values. */
  lemma PadTruncates(features: Matrix, maxFrames: nat)
    requires features.Valid() && features.cols >= maxFrames
    ensures forall i :: 0 <= i < |features.rows| ==>
      PadFeatures(features, maxFrames).rows[i] == features.rows[i][..maxFrames]
  {
    var r := PadFeatures(features, maxFrames);
    forall i | 0 <= i < |features.rows| ensures r.rows[i] == features.rows[i][..maxFrames] {
      assert r.rows[i][..maxFrames] == r.rows[i];
    }
  }

  /** With fewer columns, each row is the original followed by zeros up to max_frames. */
  lemma PadFills(features: Matrix, maxFrames: nat)
    requires features.Valid() && features.cols < maxFrames
    ensures forall i :: 0 <= i < |features.rows| ==>
      PadFeatures(features, maxFrames).rows[i] == features.rows[i] + Zeros(maxFrames - features.cols)
  {
    var r := PadFeatures(features, maxFrames);
    forall i | 0 <= i < |features.rows|
      ensures r.rows[i] == features.rows[i] + Zeros(maxFrames - features.cols)
    {
      var expected := features.rows[i] + Zeros(maxFrames - features.cols);
      assert r.rows[i][..features.cols] == features.rows[i][..features.cols];
      forall j | 0 <= j < maxFrames ensures r.rows[i][j] == expected[j] {
        if j < features.cols {
          assert r.rows[i][j] == r.rows[i][..features.cols][j];
          assert features.rows[i][j] == features.rows[i][..features.cols][j];
        }
      }
    }
  }

  /** Padding an already padded array to the same non-negative width changes nothing. */
  lemma PadIdempotent(features: Matrix, maxFrames: nat)
    requires features.Valid()
    ensures PadFeatures(PadFeatures(features, maxFrames), maxFrames) == PadFeatures(features, maxFrames)
  {
    var once := PadFeatures(features, maxFrames);
    var twice := PadFeatures(once, maxFrames);
    assert once.cols == maxFrames;
    forall i | 0 <= i < |once.rows| ensures twice.rows[i] == once.rows[i] {
      assert once.rows[i][..maxFrames] == once.rows[i];
    }
    assert twice.rows == once.rows;
  }
}

=== FILE: audio_inference.dfy ===
/**
 * The lie score of the audio model: the emotion probabilities weighted 1.0
 * for the four deception cues and 0.5 for the others, over the emotions in
 * sorted order, divided by the largest possible sum. The same computation
 * backs the offline analysis and the hosted endpoint.
 */
module AudioInference {
  import opened Wrappers
  import opened Exceptions
  import opened Emotions
  import opened AudioConstants
  import opened VectorMath

  /** The weight of an emotion: 1.0 for a deception cue, 0.5 for any other. */
  function Weight(emotion: string): (w: real)
    ensures w > 0.0
    ensures w == 1.0 <==> emotion in BAD_EMOTIONS
  {
    if emotion in BAD_EMOTIONS then 1.0 else 0.5
  }

  /** The first n slots of the vector, slot i weighted by the weight of emotions[i]. */
  function WeightedSum(emotions: seq<string>, vector: seq<real>, n: nat): real
    requires n <= |emotions| && n <= |vector|
  {
    if n == 0 then 0.0 else WeightedSum(emotions, vector, n - 1) + Weight(emotions[n - 1]) * vector[n - 1]
  }

  /** `max_score`: 1.0 per cue and 0.5 per remaining emotion of the list. */
  function MaxScore(emotions: seq<string>): real {
    |BAD_EMOTIONS| as real * 1.0 + (|emotions| - |BAD_EMOTIONS|) as real * 0.5
  }

  /** Over the eight canonical emotions the denominator is 4 * 1.0 + 4 * 0.5 = 6. */
  lemma MaxScoreIsSix()
    ensures MaxScore(EMOTIONS) == 6.0
  {
    BadGoodPartition();
  }

  /**
   * The score of a probability vector: a vector with fewer than eight slots
   * fails on the first missing index; otherwise the weighted sum of the first
   * eight slots over 6, rounded. Extra slots are never read.
   */
  function LieScore(vector: seq<real>): (r: Outcome<real>)
    ensures r.Err? <==> |vector| < DIM
    ensures r.Err? ==> r.error == IndexError
    ensures r.Ok? ==> r.value == Round4(WeightedSum(EMOTIONS, vector, DIM) / 6.0)
  {
    MaxScoreIsSix();
    if |vector| < DIM then Err(IndexError)
    else Ok(Round4(WeightedSum(EMOTIONS, vector, DIM) / MaxScore(EMOTIONS)))
  }

  /**
   * compute_lie_score (and the endpoint's _compute_lie_score): iterates over
   * the sorted emotion names, accumulating each slot times its weight.
   */
  method ComputeLieScore(vector: seq<real>) returns (r: Outcome<real>)
    ensures r == LieScore(vector)
  {
    // sorted(EMOTION_INDEX.keys()): the one strictly sorted list of the index's keys
    assert StrictlySorted(EMOTIONS) && (set x | x in EMOTIONS) == EMOTION_INDEX.Keys by {
      EmotionsSorted();
      IndexKeys();
    }
    var emotionList :| StrictlySorted(emotionList) && (set x | x in emotionList) == EMOTION_INDEX.Keys;
    SortedIndexKeys(emotionList);
    var score := 0.0;
    var idx := 0;
    while idx < |emotionList|
      invariant 0 <= idx <= |emotionList| && idx <= |vector|
      invariant score == WeightedSum(emotionList, vector, idx)
    {
      var emotion := emotionList[idx];
      var weight := if emotion in BAD_EMOTIONS then 1.0 else 0.5;
      if idx >= |vector| {
        return Err(IndexError);
      }
      score := score + weight * vector[idx];
      idx := idx + 1;
    }
    MaxScoreIsSix();
    var maxScore := |BAD_EMOTIONS| as real * 1.0 + (|emotionList| - |BAD_EMOTIONS|) as real * 0.5;
    r := Ok(Round4(score / maxScore));
  }

  /** The sorted keys of the index are the canonical list. */
  lemma SortedIndexKeys(keys: seq<string>)
    requires StrictlySorted(keys) && (set x | x in keys) == EMOTION_INDEX.Keys
    ensures keys == EMOTIONS
  {
    assert forall x :: x in keys <==> x in (set y | y in keys);
    SortedKeysAreCanonical(keys);
  }

  /** The weighted sum of a vector of ones is the sum of the weights. */
  lemma WeightsSumToSix()
    ensures WeightedSum(EMOTIONS, seq(DIM, _ => 1.0), DIM) == 6.0
  {
    var ones := seq(DIM, _ => 1.0);
    assert WeightedSum(EMOTIONS, ones, 1) == 1.0;
    assert WeightedSum(EMOTIONS, ones, 2) == 1.5;
    assert WeightedSum(EMOTIONS, ones, 3) == 2.5;
    assert WeightedSum(EMOTIONS, ones, 4) == 3.5;
    assert WeightedSum(EMOTIONS, ones, 5) == 4.0;
    assert WeightedSum(EMOTIONS, ones, 6) == 4.5;
    assert WeightedSum(EMOTIONS, ones, 7) == 5.5;
  }

  lemma {:induction false} WeightedSumOfZeros(emotions: seq<string>, n: nat)
    requires n <= |emotions|
    ensures WeightedSum(emotions, Zeros(|emotions|), n) == 0.0
  {
    if n > 0 {
      WeightedSumOfZeros(emotions, n - 1);
    }
  }

  /** The zero vector scores 0 and the all-ones vector scores 1. */
  lemma ScoreExtremes()
    ensures LieScore(Zeros(DIM)) == Ok(0.0)
    ensures LieScore(seq(DIM, _ => 1.0)) == Ok(1.0)
  {
    WeightedSumOfZeros(EMOTIONS, DIM);
    WeightsSumToSix();
  }

  /** Raising slots never lowers the weighted sum: every weight is positive. */
  lemma {:induction false} WeightedSumMonotone(emotions: seq<string>, v: seq<real>, w: seq<real>, n: nat)
    requires n <= |emotions| && n <= |v| && n <= |w|
    requires forall i :: 0 <= i < n ==> v[i] <= w[i]
    ensures WeightedSum(emotions, v, n) <= WeightedSum(emotions, w, n)
  {
    if n > 0 {
      WeightedSumMonotone(emotions, v, w, n - 1);
      var k := Weight(emotions[n - 1]);
      assert k * v[n - 1] <= k * w[n - 1] by {
        assert k * (w[n - 1] - v[n - 1]) >= 0.0;
      }
    }
  }

  /** A vector that is at least as large slot by slot scores at least as high. */
  lemma ScoreMonotone(v: seq<real>, w: seq<real>)
    requires |v| >= DIM && |w| >= DIM
    requires forall i :: 0 <= i < DIM ==> v[i] <= w[i]
    ensures LieScore(v).Ok? && LieScore(w).Ok? && LieScore(v).value <= LieScore(w).value
  {
    WeightedSumMonotone(EMOTIONS, v, w, DIM);
  }

  /** Raising a single slot never lowers the score. */
  lemma RaisingOneSlot(v: seq<real>, k: nat, x: real)
    requires |v| >= DIM && k < |v| && x >= v[k]
    ensures LieScore(v).value <= LieScore(v[k := x]).value
  {
    ScoreMonotone(v, v[k := x]);
  }

  /** Probabilities in [0, 1] give a score in [0, 1]. */
  lemma ScoreInUnitInterval(v: seq<real>)
    requires |v| >= DIM
    requires forall i :: 0 <= i < DIM ==> 0.0 <= v[i] <= 1.0
    ensures LieScore(v).Ok? && 0.0 <= LieScore(v).value <= 1.0
  {
    var zeros, ones := Zeros(DIM), seq(DIM, _ => 1.0);
    WeightedSumMonotone(EMOTIONS, zeros, v, DIM);
    WeightedSumMonotone(EMOTIONS, v, ones, DIM);
    WeightedSumOfZeros(EMOTIONS, DIM);
    WeightsSumToSix();
  }

  lemma {:induction false} WeightedSumOfPrefix(emotions: seq<string>, v: seq<real>, extra: seq<real>, n: nat)
    requires n <= |emotions| && n <= |v|
    ensures WeightedSum(emotions, v + extra, n) == WeightedSum(emotions, v, n)
  {
    if n > 0 {
      WeightedSumOfPrefix(emotions, v, extra, n - 1);
      assert (v + extra)[n - 1] == v[n - 1];
    }
  }

  /** Slots past the eighth are never read. */
  lemma ExtraSlotsIgnored(v: seq<real>, extra: seq<real>)
    requires |v| >= DIM
    ensures LieScore(v + extra) == LieScore(v)
  {
    WeightedSumOfPrefix(EMOTIONS, v, extra, DIM);
  }
}

=== FILE: audio_serving.dfy ===
/**
 * The hosted audio endpoint: request decoding and response encoding accept
 * JSON only, and a prediction locates the recording in S3 from the request
 * (or the default bucket of the environment) before scoring it. JSON
 * encoding and decoding, the download and the network are parameters.
 */
module AudioServing {
  import opened Wrappers
  import opened Exceptions
  import opened JsonValues
  import opened AudioInference

  const JSON_CONTENT_TYPE: string := "application/json"
  const LOCATION_MESSAGE: string := "bucket and audioKey/videoKey are required"
  const GET_MESSAGE: string := "object has no attribute 'get'"

  function UnsupportedContentMessage(contentType: string): string {
    "Unsupported content type: " + contentType
  }

  function UnsupportedAcceptMessage(accept: string): string {
    "Unsupported accept type: " + accept
  }

  /** `json.loads`: the decoded document, or the decoding error. */
  type Decoder = string -> Outcome<Json>

  /** `json.dumps`. */
  type Encoder = Json -> string

  /** input_fn: only a JSON body is decoded; any other content type is a ValueError. */
  function InputFn(serialized: string, contentType: string, decode: Decoder): (r: Outcome<Json>)
    ensures contentType == JSON_CONTENT_TYPE ==> r == decode(serialized)
    ensures contentType != JSON_CONTENT_TYPE ==> r == Err(ValueError(UnsupportedContentMessage(contentType)))
  {
    if contentType == JSON_CONTENT_TYPE then decode(serialized)
    else Err(ValueError(UnsupportedContentMessage(contentType)))
  }

  /** output_fn: only a JSON response is encoded; any other accept type is a ValueError. */
  function OutputFn(prediction: Json, accept: string, encode: Encoder): (r: Outcome<string>)
    ensures accept == JSON_CONTENT_TYPE ==> r == Ok(encode(prediction))
    ensures accept != JSON_CONTENT_TYPE ==> r == Err(ValueError(UnsupportedAcceptMessage(accept)))
  {
    if accept == JSON_CONTENT_TYPE then Ok(encode(prediction))
    else Err(ValueError(UnsupportedAcceptMessage(accept)))
  }

  /** A response encoded by output_fn reads back through input_fn whenever the JSON codec round-trips. */
  lemma ResponseReadsBack(prediction: Json, encode: Encoder, decode: Decoder)
    requires decode(encode(prediction)) == Ok(prediction)
    ensures var body := OutputFn(prediction, JSON_CONTENT_TYPE, encode);
      body.Ok? && InputFn(body.value, JSON_CONTENT_TYPE, decode) == Ok(prediction)
  {
  }

  // ---------------------------------------------------------------------------
  // predict_fn

  /** `d.get(key)`, with Python's None as null. */
  function Field(members: seq<(string, Json)>, key: string): Json {
    Get(members, key).GetOr(JNull)
  }

  /** Python's `a or b`: a when it is truthy, else b. */
  function Or(a: Json, b: Json): (r: Json)
    ensures Truthy(r) <==> Truthy(a) || Truthy(b)
  {
    if Truthy(a) then a else b
  }

  /** An environment variable as Python sees it: a string or None. */
  function EnvironmentValue(value: Option<string>): Json {
    if value.Some? then JString(value.value) else JNull
  }

  /** Where predict_fn downloads the recording from. */
  datatype Location = Location(bucket: Json, key: Json)

  /**
   * The location of a request: the request's bucket, else the
   * DEFAULT_AUDIO_BUCKET variable; its audioKey, else its videoKey. A missing
   * or empty bucket or key is a ValueError; a request that is not a JSON
   * object has no `get`.
   */
  function SelectLocation(data: Json, defaultBucket: Option<string>): (r: Outcome<Location>)
    ensures !data.JObject? ==> r.Err? && r.error.OtherError?
    ensures data.JObject? ==>
      var bucket := Or(Field(data.members, "bucket"), EnvironmentValue(defaultBucket));
      var key := Or(Field(data.members, "audioKey"), Field(data.members, "videoKey"));
      (r.Ok? <==> Truthy(bucket) && Truthy(key))
      && (r.Err? ==> r.error == ValueError(LOCATION_MESSAGE))
      && (r.Ok? ==> r.value == Location(bucket, key))
    ensures r.Ok? ==> Truthy(r.value.bucket) && Truthy(r.value.key)
  {
    match data
    case JObject(members) =>
      var bucket := Or(Field(members, "bucket"), EnvironmentValue(defaultBucket));
      var key := Or(Field(members, "audioKey"), Field(members, "videoKey"));
      if !Truthy(bucket) || !Truthy(key) then Err(ValueError(LOCATION_MESSAGE))
      else Ok(Location(bucket, key))
    case _ => Err(OtherError(GET_MESSAGE))
  }

  /** A request's own bucket wins over the environment's, and an audio key over a video key. */
  lemma RequestFieldsPreferred(members: seq<(string, Json)>, defaultBucket: Option<string>)
    requires Truthy(Field(members, "bucket")) && Truthy(Field(members, "audioKey"))
    ensures SelectLocation(JObject(members), defaultBucket)
      == Ok(Location(Field(members, "bucket"), Field(members, "audioKey")))
  {
  }

  /** Without a bucket in the request, a set DEFAULT_AUDIO_BUCKET is used. */
  lemma DefaultBucketFallback(members: seq<(string, Json)>, defaultBucket: string, key: Json)
    requires !Truthy(Field(members, "bucket")) && defaultBucket != ""
    requires Truthy(Field(members, "audioKey")) && key == Field(members, "audioKey")
    ensures SelectLocation(JObject(members), Some(defaultBucket)) == Ok(Location(JString(defaultBucket), key))
  {
  }

  /**
   * The model run on the recording at a location: its emotion probabilities,
   * or the exception of the download or the feature extraction.
   */
  type Classifier = Location -> Outcome<seq<real>>

  /** The prediction document: exactly `emotion_vector` and `lie_score`. */
  function Prediction(emotionVector: seq<real>, lieScore: real): (r: Json)
    ensures r.JObject? && Keys(r.members) == ["emotion_vector", "lie_score"]
    ensures Members(r.members)["lie_score"] == JNumber(lieScore)
    ensures Members(r.members)["emotion_vector"].JArray?
    ensures |Members(r.members)["emotion_vector"].items| == |emotionVector|
    ensures forall i :: 0 <= i < |emotionVector| ==>
      Members(r.members)["emotion_vector"].items[i] == JNumber(emotionVector[i])
  {
    var numbers := seq(|emotionVector|, i requires 0 <= i < |emotionVector| => JNumber(emotionVector[i]));
    var members := [("emotion_vector", JArray(numbers)), ("lie_score", JNumber(lieScore))];
    assert Keys(members) == ["emotion_vector", "lie_score"];
    MembersLastWins(members, 0);
    JObject(members)
  }

  /**
   * predict_fn: the location is checked before anything is downloaded; the
   * probabilities the model returns are echoed with their lie score.
   */
  function PredictFn(data: Json, defaultBucket: Option<string>, classify: Classifier): (r: Outcome<Json>)
    ensures SelectLocation(data, defaultBucket).Err? ==> r == Err(SelectLocation(data, defaultBucket).error)
    ensures r.Ok? ==>
      var location := SelectLocation(data, defaultBucket);
      location.Ok? && classify(location.value).Ok?
      && var probs := classify(location.value).value;
      LieScore(probs).Ok? && r.value == Prediction(probs, LieScore(probs).value)
    ensures SelectLocation(data, defaultBucket).Ok? && classify(SelectLocation(data, defaultBucket).value).Err? ==>
      r == Err(classify(SelectLocation(data, defaultBucket).value).error)
    ensures SelectLocation(data, defaultBucket).Ok? && classify(SelectLocation(data, defaultBucket).value).Ok? ==>
      var probs := classify(SelectLocation(data, defaultBucket).value).value;
      (|probs| < 8 ==> r == Err(IndexError))
      && (|probs| >= 8 ==> r == Ok(Prediction(probs, LieScore(probs).value)))
  {
    match SelectLocation(data, defaultBucket)
    case Err(e) => Err(e)
    case Ok(location) =>
      match classify(location)
      case Err(e) => Err(e)
      case Ok(probs) =>
        match LieScore(probs)
        case Err(e) => Err(e)
        case Ok(score) => Ok(Prediction(probs, score))
  }

  /** A request without a usable location fails the same way whatever the model would have said. */
  lemma RejectedBeforeDownload(data: Json, defaultBucket: Option<string>, c1: Classifier, c2: Classifier)
    requires SelectLocation(data, defaultBucket).Err?
    ensures PredictFn(data, defaultBucket, c1) == PredictFn(data, defaultBucket, c2)
  {
  }

  /** Eight probabilities always yield a prediction. */
  lemma EightProbabilitiesPredict(data: Json, defaultBucket: Option<string>, classify: Classifier)
    requires SelectLocation(data, defaultBucket).Ok?
    requires classify(SelectLocation(data, defaultBucket).value).Ok?
    requires |classify(SelectLocation(data, defaultBucket).value).value| == 8
    ensures PredictFn(data, defaultBucket, classify).Ok?
  {
  }
}

=== FILE: config.dfy ===
/**
 * Backend settings read from the environment: the allowed CORS origins, the
 * upload size limit handed to Flask, and the mock-services switch.
 */
module Config {
  import opened Wrappers
  import opened Strings
  import opened Exceptions

  /** The process environment, variable name to value. */
  type Environment = map<string, string>

  datatype Settings = Settings(
    env: string,
    awsRegion: string,
    s3Bucket: Option<string>,
    s3Prefix: string,
    audioEndpoint: Option<string>,
    macroEndpoint: Option<string>,
    microEndpoint: Option<string>,
    whisperModel: string,
    allowedOriginsRaw: string,
    localMediaRoot: string,
    maxUploadMb: int,
    useMockServices: bool)

  /** A string that is set and non-empty, which Python treats as true. */
  predicate Present(v: Option<string>) {
    v.Some? && v.value != ""
  }

  /**
   * A service backed by an API key runs in mock mode when mock services are on
   * or the key is unset or empty.
   */
  predicate UsesMock(settings: Settings, apiKey: Option<string>)
    ensures settings.useMockServices ==> UsesMock(settings, apiKey)
    ensures !settings.useMockServices && Present(apiKey) ==> !UsesMock(settings, apiKey)
    ensures apiKey.None? || apiKey == Some("") ==> UsesMock(settings, apiKey)
  {
    settings.useMockServices || !Present(apiKey)
  }

  /** `os.getenv(name, default)`. */
  function GetEnv(environment: Environment, name: string, default: string): string {
    if name in environment then environment[name] else default
  }

  /** `os.getenv(name)`: None when the variable is unset. */
  function LookupEnv(environment: Environment, name: string): Option<string> {
    if name in environment then Some(environment[name]) else None
  }

  /** The mock switch: the value, lower-cased, is exactly "true". */
  predicate MockFlag(value: string) {
    Lower(value) == "true"
  }

  /**
   * Settings as the dataclass defaults compute them from the environment; a
   * MAX_UPLOAD_MB that `int()` rejects is the ValueError raised at import.
   */
  function FromEnvironment(environment: Environment): (r: Outcome<Settings>)
    ensures r.Err? <==> ParseInt(GetEnv(environment, "MAX_UPLOAD_MB", "500")).None?
    ensures r.Err? ==> r.error == ValueError(IntLiteralMessage(GetEnv(environment, "MAX_UPLOAD_MB", "500")))
    ensures r.Ok? ==> r.value.useMockServices == MockFlag(GetEnv(environment, "USE_MOCK_SERVICES", "false"))
    ensures r.Ok? ==> r.value.s3Bucket == LookupEnv(environment, "S3_BUCKET_NAME")
  {
    match ParseInt(GetEnv(environment, "MAX_UPLOAD_MB", "500"))
    case None => Err(ValueError(IntLiteralMessage(GetEnv(environment, "MAX_UPLOAD_MB", "500"))))
    case Some(mb) =>
      Ok(Settings(
        GetEnv(environment, "FLASK_ENV", "development"),
        GetEnv(environment, "AWS_REGION", "us-east-1"),
        LookupEnv(environment, "S3_BUCKET_NAME"),
        GetEnv(environment, "S3_PREFIX", "sessions"),
        LookupEnv(environment, "AUDIO_MODEL_ENDPOINT"),
        LookupEnv(environment, "MACRO_MODEL_ENDPOINT"),
        LookupEnv(environment, "MICRO_MODEL_ENDPOINT"),
        GetEnv(environment, "WHISPER_MODEL", "whisper-1"),
        GetEnv(environment, "ALLOWED_ORIGINS", ""),
        GetEnv(environment, "LOCAL_MEDIA_ROOT", "storage"),
        mb,
        MockFlag(GetEnv(environment, "USE_MOCK_SERVICES", "false"))))
  }

  /** With nothing set: prefix "sessions", 500 MB uploads, mock services off, no bucket. */
  lemma DefaultSettings()
    ensures FromEnvironment(map[]) == Ok(Settings(
      "development", "us-east-1", None, "sessions", None, None, None,
      "whisper-1", "", "storage", 500, false))
  {
    DefaultUploadLimit();
    DefaultMockOff();
  }

  lemma DefaultUploadLimit()
    ensures ParseInt("500") == Some(500)
  {
    assert Decimal(5) == "5";
    assert Decimal(50) == Decimal(5) + "0";
    assert Decimal(500) == Decimal(50) + "0";
    assert Decimal(500) == "500";
    ParseDecimal(500);
  }

  lemma DefaultMockOff()
    ensures !MockFlag("false")
  {
    assert Lower("false") == "false";
  }

  /** The switch accepts "true" in any ASCII capitalisation and nothing else. */
  lemma MockFlagSpelling(value: string)
    ensures MockFlag(value) <==>
      |value| == 4 && value[0] in "tT" && value[1] in "rR" && value[2] in "uU" && value[3] in "eE"
  {
    if |value| == 4 && value[0] in "tT" && value[1] in "rR" && value[2] in "uU" && value[3] in "eE" {
      assert Lower(value) == "true";
    }
    if MockFlag(value) {
      var l := Lower(value);
      assert l[0] == 't' && l[1] == 'r' && l[2] == 'u' && l[3] == 'e';
    }
  }

  // ---------------------------------------------------------------------------
  // allowed_origins

  /** The stripped pieces that are not blank, in order. */
  function NonBlankStripped(pieces: seq<string>): (r: seq<string>)
    ensures |r| <= |pieces|
    ensures forall k :: 0 <= k < |r| ==> r[k] != "" && r[k] == Strip(r[k], Python)
  {
    if |pieces| == 0 then []
    else
      var head := Strip(pieces[0], Python);
      var rest := NonBlankStripped(pieces[1..]);
      if head == "" then rest
      else
        StripIdempotent(pieces[0], Python);
        ConsStripped(head, rest);
        [head] + rest
  }

  lemma ConsStripped(head: string, rest: seq<string>)
    requires head != "" && head == Strip(head, Python)
    requires forall k :: 0 <= k < |rest| ==> rest[k] != "" && rest[k] == Strip(rest[k], Python)
    ensures var r := [head] + rest; forall k :: 0 <= k < |r| ==> r[k] != "" && r[k] == Strip(r[k], Python)
  {
    var r := [head] + rest;
    assert forall k :: 1 <= k < |r| ==> r[k] == rest[k - 1];
  }

  /** The comma-separated origins, each stripped, blank ones dropped; none for an empty string. */
  function AllowedOrigins(raw: string): (r: seq<string>)
    ensures raw == "" ==> r == []
    ensures |r| <= |Split(raw, ',')|
  {
    if raw == "" then [] else NonBlankStripped(Split(raw, ','))
  }

  /**
   * `r` is the strips of the pieces at the positions `idx`, which rise
   * strictly and are exactly the pieces whose strip is not blank.
   */
  predicate SelectsNonBlank(r: seq<string>, pieces: seq<string>, idx: seq<int>) {
    |idx| == |r|
    && (forall j :: 0 <= j < |idx| ==>
          0 <= idx[j] < |pieces| && Strip(pieces[idx[j]], Python) != "" && r[j] == Strip(pieces[idx[j]], Python))
    && (forall j, k :: 0 <= j < k < |idx| ==> idx[j] < idx[k])
    && (forall i :: 0 <= i < |pieces| && Strip(pieces[i], Python) != "" ==> i in idx)
  }

  /** Every position moved one piece further on. */
  function Shifted(idx: seq<int>): (r: seq<int>)
    ensures |r| == |idx| && forall j :: 0 <= j < |r| ==> r[j] == idx[j] + 1
  {
    seq(|idx|, j requires 0 <= j < |idx| => idx[j] + 1)
  }

  /** The kept pieces are exactly the non-blank ones, stripped, in their original order. */
  lemma {:induction false} NonBlankStrippedSelects(pieces: seq<string>)
    ensures exists idx :: SelectsNonBlank(NonBlankStripped(pieces), pieces, idx)
  {
    if |pieces| == 0 {
      assert NonBlankStripped(pieces) == [];
      assert SelectsNonBlank([], pieces, []);
    } else {
      NonBlankStrippedSelects(pieces[1..]);
      var rest := NonBlankStripped(pieces[1..]);
      var idx' :| SelectsNonBlank(rest, pieces[1..], idx');
      NonBlankUnfold(pieces);
      if Strip(pieces[0], Python) == "" {
        SelectsSkip(pieces, rest, idx');
        assert SelectsNonBlank(NonBlankStripped(pieces), pieces, Shifted(idx'));
      } else {
        SelectsKeep(pieces, rest, idx');
        assert SelectsNonBlank(NonBlankStripped(pieces), pieces, [0] + Shifted(idx'));
      }
    }
  }

  /** A blank first piece moves every selected position one further on. */
  lemma SelectsSkip(pieces: seq<string>, rest: seq<string>, idx: seq<int>)
    requires |pieces| > 0 && Strip(pieces[0], Python) == ""
    requires SelectsNonBlank(rest, pieces[1..], idx)
    ensures SelectsNonBlank(rest, pieces, Shifted(idx))
  {
    var shifted := Shifted(idx);
    forall j | 0 <= j < |shifted| ensures pieces[shifted[j]] == pieces[1..][idx[j]] { }
    forall i | 0 <= i < |pieces| && Strip(pieces[i], Python) != "" ensures i in shifted {
      assert pieces[1..][i - 1] == pieces[i];
      var j :| 0 <= j < |idx| && idx[j] == i - 1;
      assert shifted[j] == i;
    }
  }

  /** A non-blank first piece is selected at position 0, ahead of the rest. */
  lemma SelectsKeep(pieces: seq<string>, rest: seq<string>, idx: seq<int>)
    requires |pieces| > 0 && Strip(pieces[0], Python) != ""
    requires SelectsNonBlank(rest, pieces[1..], idx)
    ensures SelectsNonBlank([Strip(pieces[0], Python)] + rest, pieces, [0] + Shifted(idx))
  {
    var strips := seq(|pieces|, i requires 0 <= i < |pieces| => Strip(pieces[i], Python));
    forall j | 0 <= j < |idx| ensures strips[idx[j] + 1] == Strip(pieces[1..][idx[j]], Python) { }
    KeepPicks(strips, rest, idx);
    KeepRises(idx);
    KeepCovers(pieces, rest, idx);
  }

  /** `[s[0]] + rest` at positions `[0] + Shifted(idx)`, where `idx` picks `rest` out of `s[1..]`. */
  lemma KeepPicks(s: seq<string>, rest: seq<string>, idx: seq<int>)
    requires |s| > 0 && s[0] != "" && |idx| == |rest|
    requires forall j :: 0 <= j < |idx| ==> 0 <= idx[j] < |s| - 1 && s[idx[j] + 1] != "" && rest[j] == s[idx[j] + 1]
    ensures var r, all := [s[0]] + rest, [0] + Shifted(idx);
      |all| == |r| && forall j :: 0 <= j < |all| ==> 0 <= all[j] < |s| && s[all[j]] != "" && r[j] == s[all[j]]
  {
    var r, all := [s[0]] + rest, [0] + Shifted(idx);
    forall j | 1 <= j < |all| ensures 0 <= all[j] < |s| && s[all[j]] != "" && r[j] == s[all[j]] {
      assert all[j] == idx[j - 1] + 1 && r[j] == rest[j - 1];
    }
  }

  lemma KeepRises(idx: seq<int>)
    requires forall j :: 0 <= j < |idx| ==> 0 <= idx[j]
    requires forall j, k :: 0 <= j < k < |idx| ==> idx[j] < idx[k]
    ensures var all := [0] + Shifted(idx); forall j, k :: 0 <= j < k < |all| ==> all[j] < all[k]
  {
    var all := [0] + Shifted(idx);
    forall j, k | 0 <= j < k < |all| ensures all[j] < all[k] {
      assert all[k] == idx[k - 1] + 1;
      if j > 0 {
        assert all[j] == idx[j - 1] + 1;
      }
    }
  }

  lemma KeepCovers(pieces: seq<string>, rest: seq<string>, idx: seq<int>)
    requires |pieces| > 0
    requires SelectsNonBlank(rest, pieces[1..], idx)
    ensures var all := [0] + Shifted(idx);
      forall i :: 0 <= i < |pieces| && Strip(pieces[i], Python) != "" ==> i in all
  {
    var all := [0] + Shifted(idx);
    forall i | 1 <= i < |pieces| && Strip(pieces[i], Python) != "" ensures i in all {
      assert pieces[1..][i - 1] == pieces[i];
      var j :| 0 <= j < |idx| && idx[j] == i - 1;
      assert all[j + 1] == i;
    }
  }

  /**
   * A non-empty setting allows the comma-separated pieces that are not blank,
   * each stripped, in the order they are written.
   */
  lemma AllowedOriginsSelects(raw: string)
    requires raw != ""
    ensures exists idx :: SelectsNonBlank(AllowedOrigins(raw), Split(raw, ','), idx)
  {
    assert AllowedOrigins(raw) == NonBlankStripped(Split(raw, ','));
    NonBlankStrippedSelects(Split(raw, ','));
  }

  /** Every origin is non-empty, carries no surrounding whitespace and holds no comma. */
  lemma OriginsAreClean(raw: string)
    ensures forall k :: 0 <= k < |AllowedOrigins(raw)| ==>
      var o := AllowedOrigins(raw)[k];
      o != "" && !IsPythonSpace(o[0]) && !IsPythonSpace(o[|o| - 1]) && ',' !in o
  {
    if raw != "" {
      forall k | 0 <= k < |AllowedOrigins(raw)|
        ensures var o := AllowedOrigins(raw)[k];
          o != "" && !IsPythonSpace(o[0]) && !IsPythonSpace(o[|o| - 1]) && ',' !in o
      {
        var o := AllowedOrigins(raw)[k];
        StripEnds(o, Python);
        OriginsFromPieces(Split(raw, ','), ',', k);
      }
    }
  }

  /** Each kept origin is the strip of some piece, and so lacks what no piece has. */
  lemma {:induction false} OriginsFromPieces(pieces: seq<string>, c: char, k: nat)
    requires forall j :: 0 <= j < |pieces| ==> c !in pieces[j]
    requires k < |NonBlankStripped(pieces)|
    ensures c !in NonBlankStripped(pieces)[k]
  {
    var head := Strip(pieces[0], Python);
    var rest := NonBlankStripped(pieces[1..]);
    NonBlankUnfold(pieces);
    if head != "" && k == 0 {
      StripKeepsAbsence(pieces[0], Python, c);
    } else {
      var k' := if head == "" then k else k - 1;
      assert forall j :: 0 <= j < |pieces[1..]| ==> pieces[1..][j] == pieces[j + 1];
      OriginsFromPieces(pieces[1..], c, k');
    }
  }

  lemma NonBlankUnfold(pieces: seq<string>)
    requires |pieces| > 0
    ensures var head := Strip(pieces[0], Python);
      NonBlankStripped(pieces) == (if head == "" then [] else [head]) + NonBlankStripped(pieces[1..])
  {
  }

  /** A comma-joined list of clean origins parses back to exactly that list. */
  lemma {:induction false} OriginsRoundTrip(origins: seq<string>)
    requires |origins| >= 1
    requires forall k :: 0 <= k < |origins| ==>
      origins[k] != "" && ',' !in origins[k]
      && !IsPythonSpace(origins[k][0]) && !IsPythonSpace(origins[k][|origins[k]| - 1])
    ensures AllowedOrigins(Join(origins, ',')) == origins
  {
    SplitJoin(origins, ',');
    assert Join(origins, ',') != "" by {
      JoinHead(origins, ',');
    }
    CleanPiecesKept(origins);
  }

  lemma JoinHead(pieces: seq<string>, sep: char)
    requires |pieces| >= 1 && pieces[0] != ""
    ensures |Join(pieces, sep)| >= |pieces[0]| > 0
  {
  }

  lemma {:induction false} CleanPiecesKept(pieces: seq<string>)
    requires forall k :: 0 <= k < |pieces| ==>
      pieces[k] != "" && !IsPythonSpace(pieces[k][0]) && !IsPythonSpace(pieces[k][|pieces[k]| - 1])
    ensures NonBlankStripped(pieces) == pieces
  {
    if |pieces| > 0 {
      StripUnpadded(pieces[0], Python);
      CleanPiecesKept(pieces[1..]);
      assert [pieces[0]] + pieces[1..] == pieces;
    }
  }

  /** " a , ,b" allows exactly "a" and "b": pieces are stripped and blank ones dropped. */
  lemma OriginsExample()
    ensures AllowedOrigins(" a , ,b") == ["a", "b"]
  {
    var pieces := [" a ", " ", "b"];
    assert Split(" a , ,b", ',') == pieces by {
      assert Join(pieces, ',') == " a , ,b";
      SplitJoin(pieces, ',');
    }
    ExampleStrips();
    assert pieces[1..][1..] == ["b"];
    assert NonBlankStripped(pieces[1..][1..]) == ["b"];
  }

  lemma ExampleStrips()
    ensures Strip(" a ", Python) == "a" && Strip(" ", Python) == "" && Strip("b", Python) == "b"
  {
    assert LeadingSpace(" a ", Python) == 1;
    assert TrailingSpace(" a ", Python) == 1;
    assert LeadingSpace(" ", Python) == 1;
    StripUnpadded("b", Python);
  }

  // ---------------------------------------------------------------------------
  // to_flask_config

  const MEBIBYTE: int := 1024 * 1024

  /** Flask's MAX_CONTENT_LENGTH in bytes for an upload limit in mebibytes. */
  function MaxContentLength(maxUploadMb: int): (bytes: int)
    ensures bytes / MEBIBYTE == maxUploadMb && bytes % MEBIBYTE == 0
  {
    maxUploadMb * 1024 * 1024
  }

  /** The default 500 MB limit is 524288000 bytes. */
  lemma DefaultContentLength()
    ensures FromEnvironment(map[]).Ok?
    ensures MaxContentLength(FromEnvironment(map[]).value.maxUploadMb) == 524288000
  {
    DefaultSettings();
  }
}

=== FILE: emotions.dfy ===
/**
 * The canonical emotion schema shared by every emotion vector of the system:
 * eight names in a fixed order, and the index of each name.
 */
module Emotions {
  import opened Wrappers

  /** The canonical order; slot i of every emotion vector belongs to EMOTIONS[i]. */
  const EMOTIONS: seq<string> :=
    ["angry", "calm", "disgust", "fearful", "happy", "neutral", "sad", "surprised"]

  /**
   * Position of each canonical name (the enumeration of EMOTIONS, written out);
   * IndexRoundTrip shows that it is exactly that enumeration.
   */
  const EMOTION_TO_INDEX: map<string, nat> :=
    map["angry" := 0, "calm" := 1, "disgust" := 2, "fearful" := 3,
        "happy" := 4, "neutral" := 5, "sad" := 6, "surprised" := 7]

  /** Length of every emotion vector, `len(EMOTION_TO_INDEX)`. */
  const DIM: nat := 8

  predicate IsEmotion(e: string) {
    e in EMOTIONS
  }

  lemma EmotionsDistinct()
    ensures |EMOTIONS| == DIM
    ensures forall i, j :: 0 <= i < j < |EMOTIONS| ==> EMOTIONS[i] != EMOTIONS[j]
  {
  }

  /** EMOTION_TO_INDEX maps exactly the canonical names, each to its own position. */
  lemma IndexRoundTrip()
    ensures EMOTION_TO_INDEX.Keys == set e | e in EMOTIONS
    ensures |EMOTION_TO_INDEX| == DIM
    ensures forall i :: 0 <= i < DIM ==> EMOTION_TO_INDEX[EMOTIONS[i]] == i
    ensures forall e :: e in EMOTION_TO_INDEX ==> EMOTION_TO_INDEX[e] < DIM && EMOTIONS[EMOTION_TO_INDEX[e]] == e
  {
    IndexKeys();
    IndexPositions();
    forall e | e in EMOTION_TO_INDEX
      ensures EMOTION_TO_INDEX[e] < DIM && EMOTIONS[EMOTION_TO_INDEX[e]] == e
    {
      var i :| 0 <= i < DIM && EMOTIONS[i] == e;
    }
  }

  lemma IndexKeys()
    ensures EMOTION_TO_INDEX.Keys == set e | e in EMOTIONS
    ensures |EMOTION_TO_INDEX| == DIM
  {
  }

  lemma IndexPositions()
    ensures forall i :: 0 <= i < DIM ==> EMOTION_TO_INDEX[EMOTIONS[i]] == i
  {
  }

  /** Every index below DIM has exactly one name, and that name's index is the index itself. */
  lemma IndexHasExactlyOneName(i: nat)
    requires i < DIM
    ensures exists e :: e in EMOTION_TO_INDEX && EMOTION_TO_INDEX[e] == i
    ensures forall e :: e in EMOTION_TO_INDEX && EMOTION_TO_INDEX[e] == i ==> e == EMOTIONS[i]
  {
    IndexRoundTrip();
    assert EMOTIONS[i] in EMOTION_TO_INDEX;
  }

  /** The position of `e` in the canonical order, or None for a name outside the schema. */
  function IndexOf(e: string): (r: Option<nat>)
    ensures r.Some? <==> IsEmotion(e)
    ensures r.Some? ==> r.value < DIM && EMOTIONS[r.value] == e
  {
    IndexRoundTrip();
    if e in EMOTION_TO_INDEX then Some(EMOTION_TO_INDEX[e]) else None
  }

  // ---------------------------------------------------------------------------
  // The canonical order is also the sorted order of the names. Python compares
  // strings code point by code point; a proper prefix sorts first.

  predicate LexLess(a: string, b: string) {
    if |a| == 0 then |b| > 0
    else if |b| == 0 then false
    else if a[0] != b[0] then a[0] < b[0]
    else LexLess(a[1..], b[1..])
  }

  predicate StrictlySorted(s: seq<string>) {
    forall i, j :: 0 <= i < j < |s| ==> LexLess(s[i], s[j])
  }

  lemma {:induction false} LexIrreflexive(a: string)
    ensures !LexLess(a, a)
  {
    if |a| > 0 {
      LexIrreflexive(a[1..]);
    }
  }

  lemma {:induction false} LexAsymmetric(a: string, b: string)
    requires LexLess(a, b)
    ensures !LexLess(b, a)
  {
    if |a| > 0 && |b| > 0 && a[0] == b[0] {
      LexAsymmetric(a[1..], b[1..]);
    }
  }

  lemma EmotionsSorted()
    ensures StrictlySorted(EMOTIONS)
  {
    // only "sad" and "surprised" share a first letter
    forall i, j | 0 <= i < j < |EMOTIONS| ensures LexLess(EMOTIONS[i], EMOTIONS[j]) {
      if j < 7 {
        assert EMOTIONS[i][0] < EMOTIONS[j][0];
      } else if i < 6 {
        assert EMOTIONS[i][0] < EMOTIONS[j][0];
      } else {
        assert LexLess(EMOTIONS[6][1..], EMOTIONS[7][1..]);
      }
    }
  }

  /** Two strictly sorted sequences over the same set of names are the same sequence. */
  lemma {:induction false} SortedIsUnique(s: seq<string>, t: seq<string>)
    requires StrictlySorted(s) && StrictlySorted(t)
    requires forall x :: x in s <==> x in t
    ensures s == t
  {
    assert |t| > 0 ==> t[0] in t;
    if |s| > 0 {
      assert s[0] in t;
      assert t[0] in s;
      var k :| 0 <= k < |t| && t[k] == s[0];
      var m :| 0 <= m < |s| && s[m] == t[0];
      if k > 0 {
        assert LexLess(t[0], s[0]);
        if m == 0 {
          LexIrreflexive(s[0]);
        } else {
          LexAsymmetric(s[0], s[m]);
        }
        assert false;
      }
      assert s[0] == t[0];
      forall x
        ensures x in s[1..] <==> x in t[1..]
      {
        if x in s[1..] {
          var i :| 1 <= i < |s| && s[i] == x;
          if x == t[0] {
            LexIrreflexive(x);
          }
          assert x in t;
        }
        if x in t[1..] {
          var i :| 1 <= i < |t| && t[i] == x;
          if x == s[0] {
            LexIrreflexive(x);
          }
          assert x in s;
        }
      }
      SortedIsUnique(s[1..], t[1..]);
    }
  }

  /**
   * `sorted(EMOTION_TO_INDEX.keys())` is EMOTIONS: any strictly sorted listing of the
   * index's keys is the canonical order itself.
   */
  lemma SortedKeysAreCanonical(keys: seq<string>)
    requires StrictlySorted(keys)
    requires forall x :: x in keys <==> x in EMOTION_TO_INDEX
    ensures keys == EMOTIONS
  {
    IndexRoundTrip();
    EmotionsSorted();
    SortedIsUnique(keys, EMOTIONS);
  }
}

=== FILE: exceptions.dfy ===
/** The exceptions the modelled code raises, by the Python class that carries them. */
module Exceptions {
  import opened Wrappers

  /** `str(exc)` of a ZeroDivisionError raised by `/` with a float operand. */
  const FLOAT_DIVISION_MESSAGE := "float division by zero"

  /** `str(exc)` of a ZeroDivisionError raised by `/` on two ints. */
  const INT_DIVISION_MESSAGE := "division by zero"

  datatype Exception =
    | ValueError(message: string)
    | RuntimeError(message: string)
    | FileNotFoundError(message: string)
    | ZeroDivisionError(message: string)
    | IndexError
    | TypeError(message: string)
    /** An exception of any other class, raised by code outside the model (network, SDK). */
    | OtherError(message: string)
  {
    /** `except ValueError` also catches the subclasses of ValueError, such as a JSON decoding error. */
    predicate IsValueError() {
      ValueError?
    }

    /** `str(exc)`: the message the exception was raised with. */
    function Message(): string {
      match this
      case ZeroDivisionError(m) => m
      case IndexError => "list index out of range"
      case ValueError(m) => m
      case RuntimeError(m) => m
      case FileNotFoundError(m) => m
      case TypeError(m) => m
      case OtherError(m) => m
    }
  }

  type Outcome<T> = Result<T, Exception>
}

=== FILE: frame_extractor.dfy ===
/**
 * Frame sampling of the video pipeline: every k-th frame of a video is kept,
 * k being the ratio of the video's frame rate to the target rate, and saved
 * under its zero-padded index. Reading, resizing and writing the frames are
 * not part of this model: the video is its open flag, frame rate and number
 * of readable frames.
 */
module FrameExtractor {
  import opened Wrappers
  import opened Exceptions
  import opened Strings
  import opened Slices

  /** The frame rate used when the video reports none. */
  const FALLBACK_FPS: real := 30.0

  /** VIDEO_FRAME_RATE's default. */
  const DEFAULT_FRAME_RATE: int := 1

  function OpenFailedMessage(videoPath: string): string {
    "Failed to open video: " + videoPath
  }

  /**
   * `frame_interval`: the reported rate (30 when it reports 0) over the target
   * rate (the argument, or the configured rate when it is absent or 0),
   * truncated and at least 1; a target of 0 is a division by zero.
   */
  function FrameInterval(originalFps: real, fps: Option<int>, frameRate: int): (r: Outcome<nat>)
    ensures var target := if fps.Some? && fps.value != 0 then fps.value else frameRate;
      (r.Err? <==> target == 0)
      && (r.Err? ==> r.error == ZeroDivisionError(if originalFps != 0.0 then FLOAT_DIVISION_MESSAGE else INT_DIVISION_MESSAGE))
    ensures r.Ok? ==> r.value >= 1
    ensures r.Ok? ==>
      var original := if originalFps != 0.0 then originalFps else FALLBACK_FPS;
      var target := if fps.Some? && fps.value != 0 then fps.value else frameRate;
      var ratio := Trunc(original / target as real);
      r.value == if ratio > 1 then ratio else 1
  {
    var original := if originalFps != 0.0 then originalFps else FALLBACK_FPS;
    var target := if fps.Some? && fps.value != 0 then fps.value else frameRate;
    // A reported rate of 0 is replaced by the int 30, and the target is an int.
    if target == 0 then Err(ZeroDivisionError(if originalFps != 0.0 then FLOAT_DIVISION_MESSAGE else INT_DIVISION_MESSAGE))
    else
      var ratio := Trunc(original / target as real);
      Ok(if ratio > 1 then ratio else 1)
  }

  /** A 30 fps video sampled at the default 1 frame per second keeps every 30th frame. */
  lemma DefaultInterval()
    ensures FrameInterval(30.0, None, DEFAULT_FRAME_RATE) == Ok(30)
    ensures FrameInterval(0.0, None, DEFAULT_FRAME_RATE) == Ok(30)
  {
  }

  /**
   * A zero target divides by zero: the int 30 standing in for an unreported
   * rate over the int target is an int division, a reported rate a float one.
   */
  lemma ZeroTargetMessages()
    ensures FrameInterval(0.0, None, 0).Err? && FrameInterval(0.0, None, 0).error.Message() == "division by zero"
    ensures FrameInterval(25.0, Some(0), 0).Err? && FrameInterval(25.0, Some(0), 0).error.Message() == "float division by zero"
  {
  }

  /** A target faster than the video keeps every frame. */
  lemma FastTargetKeepsAll(originalFps: real, fps: int, frameRate: int)
    requires 0.0 < originalFps < fps as real
    ensures FrameInterval(originalFps, Some(fps), frameRate) == Ok(1)
  {
    assert originalFps / fps as real < 1.0;
  }

  /** The indices below n that the interval keeps, in increasing order. */
  function Kept(n: nat, interval: nat): (r: seq<nat>)
    requires interval >= 1
    ensures forall i :: 0 <= i < |r| ==> r[i] < n && r[i] % interval == 0
    ensures forall i, j :: 0 <= i < j < |r| ==> r[i] < r[j]
  {
    if n == 0 then []
    else Kept(n - 1, interval) + (if (n - 1) % interval == 0 then [n - 1] else [])
  }

  /** Kept holds exactly the multiples of the interval below n. */
  lemma {:induction false} KeptExactly(n: nat, interval: nat, i: nat)
    requires interval >= 1
    ensures i in Kept(n, interval) <==> i < n && i % interval == 0
  {
    if n > 0 {
      KeptExactly(n - 1, interval, i);
    }
  }

  /** The file a kept frame is written to: `{index:06d}.jpg` in the output directory. */
  function FramePath(outputDir: string, index: nat): string {
    outputDir + "/" + ZeroPadded(index, 6) + ".jpg"
  }

  /** Different frames are written to different files. */
  lemma FramePathsDistinct(outputDir: string, i: nat, j: nat)
    requires i != j
    ensures FramePath(outputDir, i) != FramePath(outputDir, j)
  {
    var a, b := ZeroPadded(i, 6), ZeroPadded(j, 6);
    if FramePath(outputDir, i) == FramePath(outputDir, j) {
      var p := |outputDir| + 1;
      assert |a| == |b|;
      assert a == FramePath(outputDir, i)[p..p + |a|];
      assert b == FramePath(outputDir, j)[p..p + |b|];
      ZeroPaddedInjective(i, j, 6);
    }
  }

  function Paths(outputDir: string, indices: seq<nat>): (r: seq<string>)
    ensures |r| == |indices| && forall k :: 0 <= k < |r| ==> r[k] == FramePath(outputDir, indices[k])
  {
    seq(|indices|, k requires 0 <= k < |indices| => FramePath(outputDir, indices[k]))
  }

  /**
   * What extract_frames returns: an unopened video is a RuntimeError, then
   * the interval's error; otherwise the paths of the kept frames in frame order.
   */
  function Extracted(videoPath: string, outputDir: string, isOpened: bool, originalFps: real, fps: Option<int>,
                     frameRate: int, frameCount: nat): (r: Outcome<seq<string>>)
    ensures !isOpened ==> r == Err(RuntimeError(OpenFailedMessage(videoPath)))
    ensures isOpened ==> (r.Ok? <==> FrameInterval(originalFps, fps, frameRate).Ok?)
    ensures r.Ok? ==>
      var indices := Kept(frameCount, FrameInterval(originalFps, fps, frameRate).value);
      |r.value| == |indices| && forall k :: 0 <= k < |indices| ==> r.value[k] == FramePath(outputDir, indices[k])
  {
    if !isOpened then Err(RuntimeError(OpenFailedMessage(videoPath)))
    else
      match FrameInterval(originalFps, fps, frameRate)
      case Err(e) => Err(e)
      case Ok(interval) => Ok(Paths(outputDir, Kept(frameCount, interval)))
  }

  /**
   * extract_frames: reads frames until the video runs out, keeping the
   * frames whose index is a multiple of the interval.
   */
  method ExtractFrames(videoPath: string, outputDir: string, isOpened: bool, originalFps: real, fps: Option<int>,
                       frameRate: int, frameCount: nat)
    returns (r: Outcome<seq<string>>)
    ensures r == Extracted(videoPath, outputDir, isOpened, originalFps, fps, frameRate, frameCount)
  {
    if !isOpened {
      return Err(RuntimeError(OpenFailedMessage(videoPath)));
    }
    var interval := FrameInterval(originalFps, fps, frameRate);
    if interval.Err? {
      return Err(interval.error);
    }
    var frameInterval := interval.value;
    var frameIdx := 0;
    var savedFrames: seq<string> := [];
    while frameIdx < frameCount
      invariant 0 <= frameIdx <= frameCount
      invariant savedFrames == Paths(outputDir, Kept(frameIdx, frameInterval))
    {
      if frameIdx % frameInterval == 0 {
        savedFrames := savedFrames + [FramePath(outputDir, frameIdx)];
      }
      frameIdx := frameIdx + 1;
    }
    r := Ok(savedFrames);
  }

  /** The saved paths are pairwise distinct and follow increasing frame indices. */
  lemma ExtractedInFrameOrder(videoPath: string, outputDir: string, originalFps: real, fps: Option<int>,
                              frameRate: int, frameCount: nat, k: nat, m: nat)
    requires FrameInterval(originalFps, fps, frameRate).Ok?
    requires var r := Extracted(videoPath, outputDir, true, originalFps, fps, frameRate, frameCount);
      k < m < |r.value|
    ensures var indices := Kept(frameCount, FrameInterval(originalFps, fps, frameRate).value);
      var r := Extracted(videoPath, outputDir, true, originalFps, fps, frameRate, frameCount);
      indices[k] < indices[m] && r.value[k] != r.value[m]
  {
    var indices := Kept(frameCount, FrameInterval(originalFps, fps, frameRate).value);
    FramePathsDistinct(outputDir, indices[k], indices[m]);
  }
}

=== FILE: frontend_env.dfy ===
/**
 * The mobile app's choice of API base URL: an explicit URL from the build
 * environment, else one from the app config, else `http://{host}:{port}` with
 * the host taken from the first usable development-server address Expo
 * reports, or an emulator or loopback fallback. The URL parser is a parameter.
 */
module FrontendEnv {
  import opened Wrappers
  import opened Strings

  /** An untyped JavaScript value, as far as this code distinguishes them. */
  datatype JsValue = JsString(text: string) | JsUndefined | JsNull | JsOther {
    /** Falls through `??`. */
    predicate Nullish() {
      JsUndefined? || JsNull?
    }
  }

  /** `new URL(candidate).hostname`, or None when the constructor throws. */
  type UrlParser = string -> Option<string>

  const DEFAULT_PORT_TEXT: string := "5000"
  const ANDROID_EMULATOR_HOST: string := "10.0.2.2"
  const LOOPBACK_HOST: string := "127.0.0.1"

  /** `/^https?:\/\//i`. */
  predicate HasHttpScheme(s: string) {
    StartsWithIgnoringCase(s, "http://") || StartsWithIgnoringCase(s, "https://")
  }

  lemma HttpPrefixHasScheme(rest: string)
    ensures HasHttpScheme("http://" + rest)
  {
    var s := "http://" + rest;
    assert s[..7] == "http://";
    assert Lower("http://") == "http://";
  }

  /**
   * The string coerceToUrl hands to the URL constructor: the trimmed input,
   * None when that is empty; an input without an http(s) scheme has a leading
   * `exp://` (any case) turned into `http://`, or else `http://` put in front.
   */
  function Candidate(raw: string): (r: Option<string>)
    ensures r.None? <==> Strip(raw, JavaScript) == ""
    ensures r.Some? ==> HasHttpScheme(r.value)
    ensures r.Some? && HasHttpScheme(Strip(raw, JavaScript)) ==> r.value == Strip(raw, JavaScript)
    ensures r.Some? && !HasHttpScheme(Strip(raw, JavaScript)) && StartsWithIgnoringCase(Strip(raw, JavaScript), "exp://") ==>
      r.value == "http://" + Strip(raw, JavaScript)[6..]
    ensures r.Some? && !HasHttpScheme(Strip(raw, JavaScript)) && !StartsWithIgnoringCase(Strip(raw, JavaScript), "exp://") ==>
      r.value == "http://" + Strip(raw, JavaScript)
  {
    var candidate := Strip(raw, JavaScript);
    if candidate == "" then None
    else if HasHttpScheme(candidate) then Some(candidate)
    else
      var replaced := if StartsWithIgnoringCase(candidate, "exp://") then "http://" + candidate[6..] else candidate;
      if HasHttpScheme(replaced) then Some(replaced)
      else
        HttpPrefixHasScheme(replaced);
        Some("http://" + replaced)
  }

  /** coerceToUrl: the parsed candidate; a blank input or a URL that does not parse is null. */
  function CoerceToUrl(raw: string, parse: UrlParser): (r: Option<string>)
    ensures Strip(raw, JavaScript) == "" ==> r.None?
    ensures r.Some? ==> Candidate(raw).Some? && parse(Candidate(raw).value) == r
    ensures Candidate(raw).Some? ==> r == parse(Candidate(raw).value)
  {
    match Candidate(raw)
    case None => None
    case Some(candidate) => parse(candidate)
  }

  /** Coercing an already coerced candidate changes nothing: its scheme is kept. */
  lemma CandidateIdempotent(raw: string)
    requires Candidate(raw).Some?
    ensures Candidate(Candidate(raw).value) == Candidate(raw)
  {
    var c := Candidate(raw).value;
    SchemeStartsUnpadded(c);
    CandidateEndsUnpadded(raw);
    StripUnpadded(c, JavaScript);
  }

  /** A string with an http(s) scheme starts with a letter, never with whitespace. */
  lemma SchemeStartsUnpadded(c: string)
    requires HasHttpScheme(c)
    ensures |c| > 0 && !JavaScript.Has(c[0])
  {
    assert Lower(c[..7])[0] == LowerChar(c[0]);
  }

  /** A candidate ends where the trimmed input ends, or in the `/` of a bare scheme. */
  lemma CandidateEndsUnpadded(raw: string)
    requires Candidate(raw).Some?
    ensures var c := Candidate(raw).value; |c| > 0 && !JavaScript.Has(c[|c| - 1])
  {
    var t := Strip(raw, JavaScript);
    var c := Candidate(raw).value;
    StripEnds(raw, JavaScript);
    assert c[|c| - 1] == t[|t| - 1] || c[|c| - 1] == '/';
  }

  /** A host that is not a usable development-server address. */
  predicate Unusable(host: string) {
    host == "" || host == "localhost" || host == LOOPBACK_HOST
  }

  /** extractHost: the hostname of a string value, null for anything else, unparsable, empty or loopback. */
  function ExtractHost(value: JsValue, parse: UrlParser): (r: Option<string>)
    ensures !value.JsString? ==> r.None?
    ensures r.Some? ==> !Unusable(r.value)
    ensures r.Some? ==> value.JsString? && CoerceToUrl(value.text, parse) == r
    ensures value.JsString? && CoerceToUrl(value.text, parse).Some? && !Unusable(CoerceToUrl(value.text, parse).value) ==>
      r == CoerceToUrl(value.text, parse)
  {
    if !value.JsString? then None
    else
      match CoerceToUrl(value.text, parse)
      case None => None
      case Some(host) => if Unusable(host) then None else Some(host)
  }

  /**
   * The nine places Expo may report the development server's address, in the
   * order they are tried: the host URI of Expo Go, its config's host URI and
   * debugger host, the same two in the legacy manifest, in the new manifest's
   * client config, and in the app config.
   */
  datatype HostSources = HostSources(
    expoGoHostUri: JsValue,
    expoGoConfigHostUri: JsValue, expoGoConfigDebuggerHost: JsValue,
    manifestHostUri: JsValue, manifestDebuggerHost: JsValue,
    manifest2ClientHostUri: JsValue, manifest2ClientDebuggerHost: JsValue,
    expoConfigHostUri: JsValue, expoConfigDebuggerHost: JsValue)

  /** resolvePotentialHosts. */
  function PotentialHosts(sources: HostSources): (r: seq<JsValue>)
    ensures |r| == 9 && r[0] == sources.expoGoHostUri
    ensures r[1] == sources.expoGoConfigHostUri && r[2] == sources.expoGoConfigDebuggerHost
    ensures r[3] == sources.manifestHostUri && r[4] == sources.manifestDebuggerHost
    ensures r[5] == sources.manifest2ClientHostUri && r[6] == sources.manifest2ClientDebuggerHost
    ensures r[7] == sources.expoConfigHostUri && r[8] == sources.expoConfigDebuggerHost
  {
    [sources.expoGoHostUri,
     sources.expoGoConfigHostUri, sources.expoGoConfigDebuggerHost,
     sources.manifestHostUri, sources.manifestDebuggerHost,
     sources.manifest2ClientHostUri, sources.manifest2ClientDebuggerHost,
     sources.expoConfigHostUri, sources.expoConfigDebuggerHost]
  }

  /** `.map(extractHost).find(Boolean)`: the host of the first value that yields one. */
  function FirstHost(values: seq<JsValue>, parse: UrlParser): (r: Option<string>)
    ensures r.None? <==> forall i :: 0 <= i < |values| ==> ExtractHost(values[i], parse).None?
    ensures r.Some? ==>
      exists i :: 0 <= i < |values| && ExtractHost(values[i], parse) == r
        && (forall j :: 0 <= j < i ==> ExtractHost(values[j], parse).None?)
  {
    if |values| == 0 then None
    else
      var head := ExtractHost(values[0], parse);
      if head.Some? then head
      else
        var rest := FirstHost(values[1..], parse);
        assert forall i :: 1 <= i < |values| ==> values[i] == values[1..][i - 1];
        if rest.Some? then
          var i :| 0 <= i < |values[1..]| && ExtractHost(values[1..][i], parse) == rest
            && (forall j :: 0 <= j < i ==> ExtractHost(values[1..][j], parse).None?);
          assert ExtractHost(values[i + 1], parse) == rest;
          rest
        else
          rest
  }

  /** resolveDefaultHost: the first reported host, else the Android emulator's host alias, else loopback. */
  function DefaultHost(sources: HostSources, android: bool, parse: UrlParser): (host: string)
    ensures FirstHost(PotentialHosts(sources), parse).Some? ==> host == FirstHost(PotentialHosts(sources), parse).value
    ensures FirstHost(PotentialHosts(sources), parse).None? ==> host == if android then ANDROID_EMULATOR_HOST else LOOPBACK_HOST
    ensures host == LOOPBACK_HOST ==> !android && FirstHost(PotentialHosts(sources), parse).None?
  {
    match FirstHost(PotentialHosts(sources), parse)
    case Some(host) => host
    case None => if android then ANDROID_EMULATOR_HOST else LOOPBACK_HOST
  }

  /** DEFAULT_PORT: EXPO_PUBLIC_API_PORT unless it is unset. */
  function DefaultPort(envPort: Option<string>): string {
    envPort.GetOr(DEFAULT_PORT_TEXT)
  }

  /** resolveDefaultApiBaseUrl. */
  function DefaultApiBaseUrl(sources: HostSources, android: bool, envPort: Option<string>, parse: UrlParser): (url: string)
    ensures var prefix := "http://" + DefaultHost(sources, android, parse) + ":";
      |prefix| <= |url| && url[..|prefix|] == prefix && url[|prefix|..] == DefaultPort(envPort)
  {
    var url := "http://" + DefaultHost(sources, android, parse) + ":" + DefaultPort(envPort);
    assert url == ("http://" + DefaultHost(sources, android, parse) + ":") + DefaultPort(envPort);
    url
  }

  /**
   * API_BASE_URL: EXPO_PUBLIC_API_URL when set (even to ""), else the app
   * config's `extra.apiBaseUrl` unless it is null or undefined, else the
   * default URL.
   */
  function ApiBaseUrl(envUrl: Option<string>, configApiBase: JsValue, sources: HostSources, android: bool,
                      envPort: Option<string>, parse: UrlParser): (r: JsValue)
    ensures envUrl.Some? ==> r == JsString(envUrl.value)
    ensures envUrl.None? && !configApiBase.Nullish() ==> r == configApiBase
    ensures envUrl.None? && configApiBase.Nullish() ==> r == JsString(DefaultApiBaseUrl(sources, android, envPort, parse))
  {
    if envUrl.Some? then JsString(envUrl.value)
    else if !configApiBase.Nullish() then configApiBase
    else JsString(DefaultApiBaseUrl(sources, android, envPort, parse))
  }

  /** With nothing configured and no host reported, an emulator talks to 10.0.2.2:5000. */
  lemma AndroidFallbackUrl(sources: HostSources, parse: UrlParser)
    requires forall i :: 0 <= i < 9 ==> !PotentialHosts(sources)[i].JsString?
    ensures ApiBaseUrl(None, JsUndefined, sources, true, None, parse) == JsString("http://10.0.2.2:5000")
  {
    var hosts := PotentialHosts(sources);
    assert forall i :: 0 <= i < |hosts| ==> ExtractHost(hosts[i], parse).None?;
    assert FirstHost(hosts, parse).None?;
    assert DefaultHost(sources, true, parse) == ANDROID_EMULATOR_HOST;
    assert DefaultApiBaseUrl(sources, true, None, parse) == "http://" + ANDROID_EMULATOR_HOST + ":" + DEFAULT_PORT_TEXT;
  }

  /** A string that starts with a digit has no scheme Candidate recognises. */
  lemma NoSchemeBeforeDigit(s: string)
    requires |s| > 0 && IsDigit(s[0])
    ensures !HasHttpScheme(s) && !StartsWithIgnoringCase(s, "exp://")
  {
    if |s| >= 6 {
      assert Lower(s[..6])[0] == s[0];
    }
    if |s| >= 7 {
      assert Lower(s[..7])[0] == s[0];
    }
    if |s| >= 8 {
      assert Lower(s[..8])[0] == s[0];
    }
  }

  /** A bare IPv4 address is tried with `http://` in front. */
  lemma LoopbackCandidate()
    ensures Candidate(LOOPBACK_HOST) == Some("http://" + LOOPBACK_HOST)
  {
    StripUnpadded(LOOPBACK_HOST, JavaScript);
    NoSchemeBeforeDigit(LOOPBACK_HOST);
  }

  /** The loopback address never counts as a development-server host. */
  lemma LoopbackIgnored(parse: UrlParser)
    requires parse("http://" + LOOPBACK_HOST) == Some(LOOPBACK_HOST)
    ensures ExtractHost(JsString(LOOPBACK_HOST), parse).None?
  {
    LoopbackCandidate();
  }

  /** A loopback address reported first is skipped in favour of the next sources. */
  lemma LoopbackSkipped(sources: HostSources, parse: UrlParser)
    requires sources.expoGoHostUri == JsString(LOOPBACK_HOST)
    requires parse("http://" + LOOPBACK_HOST) == Some(LOOPBACK_HOST)
    ensures FirstHost(PotentialHosts(sources), parse) == FirstHost(PotentialHosts(sources)[1..], parse)
  {
    LoopbackIgnored(parse);
  }
}

=== FILE: inference_routes.dfy ===
/**
 * The two inference endpoints. POST /liedetect runs the analysis for a
 * session; POST /transcript reuses a stored transcript or produces one, and
 * then enriches the stored summary with the LLM's emotion map: its alignment
 * with the comparison vector and the final lie probability. A handler's
 * `Err` is an exception it lets escape, which the framework answers with 500.
 */
module InferenceRoutes {
  import opened Wrappers
  import opened Exceptions
  import opened Emotions
  import opened VectorMath
  import opened Config
  import opened SessionStore
  import opened Whisper
  import opened LieLlm
  import opened Analysis

  const OK: int := 200
  const BAD_REQUEST: int := 400
  const SESSION_REQUIRED_MESSAGE: string := "sessionId is required"

  datatype Body =
    | ErrorBody(error: string)
    | AnalysisBody(sessionId: string, summary: Summary)
    | TranscriptBody(sessionId: string, transcript: string, enriched: Option<Summary>)

  datatype Response = Response(status: int, body: Body)

  /** The outside services the transcript endpoint reaches, and the one API key both use. */
  datatype Backends = Backends(
    apiKey: Option<string>,
    onDisk: set<string>,
    download: Option<Exception>,
    transcriber: Transcriber,
    chat: Chat,
    parseFloat: FloatParser)

  // ---------------------------------------------------------------------------
  // _maybe_enrich_summary

  /**
   * The summary after enrichment: exactly `llmVector`, `alignmentScore` (the
   * cosine of the comparison vector with the dense LLM vector) and
   * `lieProbability` (the final score from the micro score and the alignment)
   * change; a comparison vector of the wrong length is the cosine's ValueError.
   */
  function Enriched(summary: Summary, llm: map<string, real>): (r: Outcome<Summary>)
    ensures r.Ok? <==> |summary.comparisonVector| == DIM
    ensures r.Ok? ==>
      var alignment := LlmAlignmentScore(summary.comparisonVector, llm).value;
      r.value.llmVector == Some(llm) && r.value.alignmentScore == Some(alignment)
      && r.value.lieProbability == FinalLieScore(summary.microScore, alignment)
    ensures r.Ok? ==>
      r.value.(llmVector := summary.llmVector, alignmentScore := summary.alignmentScore,
               lieProbability := summary.lieProbability) == summary
  {
    AlignmentNeedsCanonicalLength(summary.comparisonVector, llm);
    match LlmAlignmentScore(summary.comparisonVector, llm)
    case Err(e) => Err(e)
    case Ok(alignment) =>
      Ok(summary.(llmVector := Some(llm), alignmentScore := Some(alignment),
                  lieProbability := FinalLieScore(summary.microScore, alignment)))
  }

  /** Enrichment reads only the fields it never writes, so enriching twice with one map changes nothing more. */
  lemma EnrichIdempotent(summary: Summary, llm: map<string, real>)
    requires Enriched(summary, llm).Ok?
    ensures Enriched(Enriched(summary, llm).value, llm) == Enriched(summary, llm)
  {
  }

  /** An all-zero comparison vector aligns 0 and the final score is (1 + micro) / 2. */
  lemma EnrichZeroComparison(summary: Summary, llm: map<string, real>)
    requires summary.comparisonVector == Zeros(DIM)
    ensures Enriched(summary, llm).Ok?
    ensures Enriched(summary, llm).value.alignmentScore == Some(0.0)
    ensures Enriched(summary, llm).value.lieProbability == (1.0 + summary.microScore) / 2.0
  {
    AlignmentOfZeroVector(summary.comparisonVector, llm);
  }

  /**
   * What _maybe_enrich_summary returns for the stored state: nothing stored
   * gives None without asking the LLM; otherwise the LLM's failure raises, and
   * its map enriches the stored summary.
   */
  function EnrichOutcome(db: Table, settings: Settings, backends: Backends, sessionId: string, transcript: string)
    : (r: Outcome<Option<Summary>>)
    ensures StoredSummary(db, sessionId).None? ==> r == Ok(None)
    ensures StoredSummary(db, sessionId).Some? ==>
      var summary := StoredSummary(db, sessionId).value;
      var llm := Weights(settings, backends.apiKey, transcript, backends.chat, backends.parseFloat);
      (llm.Err? ==> r == Err(llm.error))
      && (llm.Ok? && Enriched(summary, llm.value).Err? ==> r == Err(Enriched(summary, llm.value).error))
      && (llm.Ok? && Enriched(summary, llm.value).Ok? ==> r == Ok(Some(Enriched(summary, llm.value).value)))
    ensures r.Ok? && r.value.Some? ==>
      StoredSummary(db, sessionId).Some?
      && var llm := Weights(settings, backends.apiKey, transcript, backends.chat, backends.parseFloat);
      llm.Ok? && Enriched(StoredSummary(db, sessionId).value, llm.value) == Ok(r.value.value)
  {
    match StoredSummary(db, sessionId)
    case None => Ok(None)
    case Some(summary) =>
      match Weights(settings, backends.apiKey, transcript, backends.chat, backends.parseFloat)
      case Err(e) => Err(e)
      case Ok(llm) =>
        match Enriched(summary, llm)
        case Err(e) => Err(e)
        case Ok(s) => Ok(Some(s))
  }

  /** Enrichment never fabricates a summary: it yields one exactly when one is stored (and nothing raises). */
  lemma EnrichNeverFabricates(db: Table, settings: Settings, backends: Backends, sessionId: string, transcript: string)
    ensures var r := EnrichOutcome(db, settings, backends, sessionId, transcript);
      r.Ok? ==> (r.value.Some? <==> StoredSummary(db, sessionId).Some?)
  {
  }

  /**
   * _maybe_enrich_summary: with no stored summary nothing is written and the
   * LLM is not asked; otherwise the LLM map is stored, and then the enriched
   * summary is stored and returned.
   */
  method MaybeEnrich(settings: Settings, backends: Backends, store: Store, sessionId: string, transcript: string,
                     now: Timestamp)
    returns (r: Outcome<Option<Summary>>)
    requires store.Valid()
    modifies store
    ensures store.Valid()
    ensures r == EnrichOutcome(old(store.sessions), settings, backends, sessionId, transcript)
    ensures StoredSummary(old(store.sessions), sessionId).None? ==> store.sessions == old(store.sessions)
    ensures StoredSummary(old(store.sessions), sessionId).Some? ==>
      var llm := Weights(settings, backends.apiKey, transcript, backends.chat, backends.parseFloat);
      (llm.Err? ==> store.sessions == old(store.sessions))
      && (llm.Ok? && r.Err? ==> store.sessions == WithLlmVector(old(store.sessions), sessionId, llm.value, now))
    ensures sessionId in old(store.sessions) ==>
      sessionId in store.sessions
      && store.sessions[sessionId].transcript == old(store.sessions)[sessionId].transcript
      && store.sessions[sessionId].media == old(store.sessions)[sessionId].media
    ensures r.Ok? && r.value.Some? ==>
      var llm := Weights(settings, backends.apiKey, transcript, backends.chat, backends.parseFloat).value;
      store.sessions == WithSummary(WithLlmVector(old(store.sessions), sessionId, llm, now), sessionId, r.value.value, now)
  {
    var summary := StoredSummary(store.sessions, sessionId);
    if summary.None? {
      return Ok(None);
    }
    var llm := EmotionWeights(settings, backends.apiKey, store, transcript, sessionId,
                              backends.chat, backends.parseFloat, now);
    if llm.Err? {
      return Err(llm.error);
    }
    var enriched := Enriched(summary.value, llm.value);
    if enriched.Err? {
      return Err(enriched.error);
    }
    store.SetSummary(sessionId, enriched.value, now);
    r := Ok(Some(enriched.value));
  }

  // ---------------------------------------------------------------------------
  // The handlers

  /** `session.get('transcript')` is a non-empty string. */
  predicate HasTranscript(db: Table, sessionId: string) {
    sessionId in db && db[sessionId].transcript.Some? && db[sessionId].transcript.value != ""
  }

  /** The transcript endpoint's answer once a transcript is in hand. */
  function TranscriptResponse(sessionId: string, transcript: string, enriched: Outcome<Option<Summary>>)
    : (r: Outcome<Response>)
    ensures enriched.Err? ==> r == Err(enriched.error)
    ensures enriched.Ok? ==> r == Ok(Response(OK, TranscriptBody(sessionId, transcript, enriched.value)))
  {
    match enriched
    case Err(e) => Err(e)
    case Ok(s) => Ok(Response(OK, TranscriptBody(sessionId, transcript, s)))
  }

  /** The /liedetect answer to a run's outcome: a ValueError is a 400 with its message, other exceptions escape. */
  function RunResponse(sessionId: string, run: Outcome<Summary>): (r: Outcome<Response>)
    ensures run.Ok? ==> r == Ok(Response(OK, AnalysisBody(sessionId, run.value)))
    ensures run.Err? && run.error.IsValueError() ==> r == Ok(Response(BAD_REQUEST, ErrorBody(run.error.Message())))
    ensures run.Err? && !run.error.IsValueError() ==> r == Err(run.error)
  {
    match run
    case Ok(summary) => Ok(Response(OK, AnalysisBody(sessionId, summary)))
    case Err(e) => if e.IsValueError() then Ok(Response(BAD_REQUEST, ErrorBody(e.Message()))) else Err(e)
  }

  /** An unknown session or one without media is answered 400, not 500. */
  lemma RunRejectsUnknownSession(db: Table, settings: Settings, sessionId: string, gateway: Gateway)
    requires sessionId !in db || ChosenRole(db[sessionId].media).None?
    ensures RunResponse(sessionId, Analyse(db, settings, sessionId, gateway)).Ok?
    ensures RunResponse(sessionId, Analyse(db, settings, sessionId, gateway)).value.status == BAD_REQUEST
  {
  }

  /** POST /liedetect: a missing or empty sessionId is a 400 before anything else happens. */
  method RunLiedetect(settings: Settings, store: Store, sessionId: Option<string>, gateway: Gateway, now: Timestamp)
    returns (r: Outcome<Response>)
    requires store.Valid()
    modifies store
    ensures store.Valid()
    ensures !Present(sessionId) ==>
      r == Ok(Response(BAD_REQUEST, ErrorBody(SESSION_REQUIRED_MESSAGE))) && store.sessions == old(store.sessions)
    ensures Present(sessionId) ==>
      r == RunResponse(sessionId.value, Analyse(old(store.sessions), settings, sessionId.value, gateway))
    ensures Present(sessionId) ==>
      var a := Analyse(old(store.sessions), settings, sessionId.value, gateway);
      (a.Ok? ==> store.sessions == WithSummary(old(store.sessions), sessionId.value, a.value, now))
      && (a.Err? ==> store.sessions == old(store.sessions))
  {
    if !Present(sessionId) {
      return Ok(Response(BAD_REQUEST, ErrorBody(SESSION_REQUIRED_MESSAGE)));
    }
    var summary := Run(settings, store, sessionId.value, gateway, now);
    r := RunResponse(sessionId.value, summary);
  }

  /**
   * POST /transcript: a missing or empty sessionId is a 400 before anything
   * else; a stored non-empty transcript is reused without transcribing;
   * otherwise any exception of the transcription is a 400 with its message.
   * Either way the answer carries the transcript and the enrichment of the
   * summary stored before the request.
   */
  method Transcript(settings: Settings, backends: Backends, store: Store, sessionId: Option<string>, now: Timestamp)
    returns (r: Outcome<Response>)
    requires store.Valid()
    modifies store
    ensures store.Valid()
    ensures !Present(sessionId) ==>
      r == Ok(Response(BAD_REQUEST, ErrorBody(SESSION_REQUIRED_MESSAGE))) && store.sessions == old(store.sessions)
    ensures Present(sessionId) && HasTranscript(old(store.sessions), sessionId.value) ==>
      var id := sessionId.value;
      var stored := old(store.sessions)[id].transcript.value;
      r == TranscriptResponse(id, stored, EnrichOutcome(old(store.sessions), settings, backends, id, stored))
      && id in store.sessions && store.sessions[id].transcript == Some(stored)
    ensures Present(sessionId) && !HasTranscript(old(store.sessions), sessionId.value) ==>
      var id := sessionId.value;
      var t := TranscribeOutcome(old(store.sessions), settings, backends.apiKey, id, backends.onDisk,
                                 backends.download, backends.transcriber);
      (t.Err? ==> r == Ok(Response(BAD_REQUEST, ErrorBody(t.error.Message()))))
      && (t.Ok? ==> r == TranscriptResponse(id, t.value, EnrichOutcome(old(store.sessions), settings, backends, id, t.value)))
    ensures (Present(sessionId) && !HasTranscript(old(store.sessions), sessionId.value)
               && SelectMedia(old(store.sessions), sessionId.value).None?) ==>
      r == Ok(Response(BAD_REQUEST, ErrorBody(Whisper.NO_MEDIA_MESSAGE))) && store.sessions == old(store.sessions)
    ensures Present(sessionId) && r.Ok? && r.value.status == OK ==>
      var id := sessionId.value;
      r.value.body.TranscriptBody?
      && r == TranscriptResponse(id, r.value.body.transcript,
                EnrichOutcome(old(store.sessions), settings, backends, id, r.value.body.transcript))
      && id in store.sessions && store.sessions[id].transcript == Some(r.value.body.transcript)
    ensures Present(sessionId) && r.Ok? && r.value.status == OK && r.value.body.TranscriptBody?
            && r.value.body.enriched.Some? ==>
      var id := sessionId.value;
      var llm := Weights(settings, backends.apiKey, r.value.body.transcript, backends.chat, backends.parseFloat);
      id in store.sessions && store.sessions[id].summary == r.value.body.enriched
      && llm.Ok? && store.sessions[id].llmVector == Some(llm.value)
  {
    if !Present(sessionId) {
      return Ok(Response(BAD_REQUEST, ErrorBody(SESSION_REQUIRED_MESSAGE)));
    }
    var id := sessionId.value;
    var session := store.Get(id);
    if session.Some? && session.value.transcript.Some? && session.value.transcript.value != "" {
      var stored := session.value.transcript.value;
      var enriched := MaybeEnrich(settings, backends, store, id, stored, now);
      return TranscriptResponse(id, stored, enriched);
    }
    ghost var before := store.sessions;
    var transcript := Transcribe(settings, backends.apiKey, store, id, backends.onDisk, backends.download,
                                 backends.transcriber, now);
    if transcript.Err? {
      return Ok(Response(BAD_REQUEST, ErrorBody(transcript.error.Message())));
    }
    EnrichDependsOnSummary(before, store.sessions, settings, backends, id, transcript.value);
    var enriched := MaybeEnrich(settings, backends, store, id, transcript.value, now);
    r := TranscriptResponse(id, transcript.value, enriched);
  }

  /** The enrichment outcome depends on the store only through the stored summary. */
  lemma EnrichDependsOnSummary(db: Table, db': Table, settings: Settings, backends: Backends,
                               sessionId: string, transcript: string)
    requires StoredSummary(db, sessionId) == StoredSummary(db', sessionId)
    ensures EnrichOutcome(db, settings, backends, sessionId, transcript)
      == EnrichOutcome(db', settings, backends, sessionId, transcript)
  {
  }
}

=== FILE: json_values.dfy ===
/**
 * Decoded JSON documents as `json.loads` builds them, and Python's truthiness
 * of the decoded values.
 */
module JsonValues {
  import opened Wrappers

  /** A decoded JSON value; objects keep their members in document order, duplicates included. */
  datatype Json =
    | JNumber(number: real)
    | JString(text: string)
    | JBool(flag: bool)
    | JNull
    | JArray(items: seq<Json>)
    | JObject(members: seq<(string, Json)>)

  /** The dict json.loads builds from an object's members: a repeated key keeps its last value. */
  function Members(members: seq<(string, Json)>): (m: map<string, Json>)
    ensures forall x :: x in m <==> x in Keys(members)
  {
    if |members| == 0 then map[]
    else
      var init := members[..|members| - 1];
      var last := members[|members| - 1];
      assert Keys(members) == Keys(init) + [last.0];
      Members(init)[last.0 := last.1]
  }

  /** A key is mapped to the value of its last member. */
  lemma {:induction false} MembersLastWins(members: seq<(string, Json)>, k: nat)
    requires k < |members|
    requires forall j :: k < j < |members| ==> members[j].0 != members[k].0
    ensures Members(members)[members[k].0] == members[k].1
  {
    if k < |members| - 1 {
      MembersLastWins(members[..|members| - 1], k);
    }
  }

  /** The keys of an object's members, in document order. */
  function Keys(members: seq<(string, Json)>): (keys: seq<string>)
    ensures |keys| == |members| && forall k :: 0 <= k < |keys| ==> keys[k] == members[k].0
  {
    seq(|members|, k requires 0 <= k < |members| => members[k].0)
  }

  /** Python's `bool(value)`: null, false, zero and empty strings, lists and objects are falsy. */
  predicate Truthy(value: Json) {
    match value
    case JNumber(x) => x != 0.0
    case JString(s) => s != ""
    case JBool(b) => b
    case JNull => false
    case JArray(items) => items != []
    case JObject(members) => members != []
  }

  /** `d.get(key)` on a decoded object: None for an absent key. */
  function Get(members: seq<(string, Json)>, key: string): (r: Option<Json>)
    ensures r.Some? <==> key in Keys(members)
    ensures r.Some? ==> r.value == Members(members)[key]
  {
    var m := Members(members);
    if key in m then Some(m[key]) else None
  }
}

=== FILE: lie_llm.dfy ===
/**
 * The LLM emotion service: weights each canonical emotion for a transcript,
 * either with a fixed mock map or by asking the chat backend for a JSON object
 * whose values are converted to floats, and stores the map with the session.
 */
module LieLlm {
  import opened Wrappers
  import opened Exceptions
  import opened Emotions
  import opened JsonValues
  import opened Config
  import opened SessionStore

  /**
   * The chat backend, given the transcript: the JSON document found in the
   * first choice's message content, or the exception raised by the request,
   * its status check, the response indexing or the JSON decoding.
   */
  type Chat = string -> Outcome<Json>

  /** Python's `float(str)`; None for a string it rejects. */
  type FloatParser = string -> Option<real>

  /** The message of `float(s)` for a string it rejects. */
  function ConvertMessage(s: string): string {
    "could not convert string to float: '" + s + "'"
  }

  /** The message of `float(v)` for a value of the named type. */
  function FloatTypeMessage(typeName: string): string {
    "float() argument must be a string or a real number, not '" + typeName + "'"
  }

  /** Python's name of the type json.loads gives a null, an array or an object. */
  function ContainerTypeName(value: Json): string
    requires value.JNull? || value.JArray? || value.JObject?
  {
    if value.JNull? then "NoneType" else if value.JArray? then "list" else "dict"
  }

  const ITEMS_MESSAGE: string := "object has no attribute 'items'"

  // ---------------------------------------------------------------------------
  // _mock_weights

  const MOCK_WEIGHTS: map<string, real> := map[
    "angry" := 0.1, "calm" := 0.2, "disgust" := 0.1, "fearful" := 0.1,
    "happy" := 0.2, "neutral" := 0.2, "sad" := 0.05, "surprised" := 0.05]

  /** The map's values summed over `names`, a missing name counting 0. */
  function Total(m: map<string, real>, names: seq<string>): real {
    if |names| == 0 then 0.0
    else Total(m, names[..|names| - 1]) + (if names[|names| - 1] in m then m[names[|names| - 1]] else 0.0)
  }

  /** The mock map weights exactly the canonical emotions, each in [0, 1]. */
  lemma MockWeightsCanonical()
    ensures MOCK_WEIGHTS.Keys == set e | e in EMOTIONS
    ensures forall e :: e in MOCK_WEIGHTS ==> 0.0 <= MOCK_WEIGHTS[e] <= 1.0
  {
  }

  /** The mock weights sum to one. */
  lemma MockWeightsSumToOne()
    ensures Total(MOCK_WEIGHTS, EMOTIONS) == 1.0
  {
    var w := MOCK_WEIGHTS;
    assert EMOTIONS[..8] == EMOTIONS;
    assert Total(w, EMOTIONS[..1]) == 0.1 by { assert EMOTIONS[..0] == []; }
    assert Total(w, EMOTIONS[..2]) == 0.3 by { assert EMOTIONS[..2][..1] == EMOTIONS[..1]; }
    assert Total(w, EMOTIONS[..3]) == 0.4 by { assert EMOTIONS[..3][..2] == EMOTIONS[..2]; }
    assert Total(w, EMOTIONS[..4]) == 0.5 by { assert EMOTIONS[..4][..3] == EMOTIONS[..3]; }
    assert Total(w, EMOTIONS[..5]) == 0.7 by { assert EMOTIONS[..5][..4] == EMOTIONS[..4]; }
    assert Total(w, EMOTIONS[..6]) == 0.9 by { assert EMOTIONS[..6][..5] == EMOTIONS[..5]; }
    assert Total(w, EMOTIONS[..7]) == 0.95 by { assert EMOTIONS[..7][..6] == EMOTIONS[..6]; }
    assert Total(w, EMOTIONS[..8]) == 1.0 by { assert EMOTIONS[..8][..7] == EMOTIONS[..7]; }
  }

  // ---------------------------------------------------------------------------
  // _invoke_openai: the coercion of the returned object

  /** `float(value)`: numbers as they are, booleans as 1.0 and 0.0, strings parsed, anything else a TypeError. */
  function ToFloat(value: Json, parseFloat: FloatParser): (r: Outcome<real>)
    ensures value.JNumber? ==> r == Ok(value.number)
    ensures (value.JNull? || value.JArray? || value.JObject?) ==>
      r == Err(TypeError(FloatTypeMessage(ContainerTypeName(value))))
    ensures value.JString? ==> (r.Ok? <==> parseFloat(value.text).Some?)
    ensures value.JString? && parseFloat(value.text).Some? ==> r == Ok(parseFloat(value.text).value)
    ensures value.JString? && parseFloat(value.text).None? ==> r == Err(ValueError(ConvertMessage(value.text)))
    ensures value.JBool? ==> r == Ok(if value.flag then 1.0 else 0.0)
  {
    match value
    case JNumber(x) => Ok(x)
    case JBool(b) => Ok(if b then 1.0 else 0.0)
    case JString(s) =>
      if parseFloat(s).Some? then Ok(parseFloat(s).value) else Err(ValueError(ConvertMessage(s)))
    case _ => Err(TypeError(FloatTypeMessage(ContainerTypeName(value))))
  }

  /**
   * `{emotion: float(value) for emotion, value in parsed.items()}` over the
   * keys in `order`: the first value that does not convert raises; otherwise
   * every key is kept with its converted value.
   */
  function Coerce(parsed: map<string, Json>, order: seq<string>, parseFloat: FloatParser): (r: Outcome<map<string, real>>)
    requires forall x :: x in order ==> x in parsed
    ensures r.Ok? <==> forall x :: x in order ==> ToFloat(parsed[x], parseFloat).Ok?
    ensures r.Ok? ==> forall x :: x in r.value <==> x in order
    ensures r.Ok? ==> forall x :: x in r.value ==> Ok(r.value[x]) == ToFloat(parsed[x], parseFloat)
  {
    if |order| == 0 then Ok(map[])
    else
      var init := order[..|order| - 1];
      var e := order[|order| - 1];
      assert order == init + [e];
      match Coerce(parsed, init, parseFloat)
      case Err(x) => Err(x)
      case Ok(m) =>
        match ToFloat(parsed[e], parseFloat)
        case Err(x) => Err(x)
        case Ok(v) => Ok(m[e := v])
  }

  /** The weights of a chat response: a failed call raises, a non-object has no items, an object is coerced. */
  function LiveWeights(response: Outcome<Json>, parseFloat: FloatParser): (r: Outcome<map<string, real>>)
    ensures response.Err? ==> r == Err(response.error)
    ensures response.Ok? && !response.value.JObject? ==> r.Err?
  {
    match response
    case Err(x) => Err(x)
    case Ok(JObject(members)) =>
      var parsed := Members(members);
      Coerce(parsed, Keys(members), parseFloat)
    case Ok(_) => Err(OtherError(ITEMS_MESSAGE))
  }

  /** Every value of the parsed object converts to a float. */
  predicate AllConvert(parsed: map<string, Json>, parseFloat: FloatParser) {
    forall e :: e in parsed ==> ToFloat(parsed[e], parseFloat).Ok?
  }

  /** `weights` holds exactly the keys of `parsed`, each with its converted value. */
  ghost predicate Converted(weights: map<string, real>, parsed: map<string, Json>, parseFloat: FloatParser) {
    (forall e :: e in weights <==> e in parsed)
    && forall e :: e in weights ==> Ok(weights[e]) == ToFloat(parsed[e], parseFloat)
  }

  /**
   * The live map keeps exactly the returned keys, with every value converted;
   * it fails exactly when some value does not convert.
   */
  lemma LiveKeepsKeys(members: seq<(string, Json)>, parseFloat: FloatParser)
    ensures LiveWeights(Ok(JObject(members)), parseFloat).Ok? <==> AllConvert(Members(members), parseFloat)
    ensures LiveWeights(Ok(JObject(members)), parseFloat).Ok? ==>
      Converted(LiveWeights(Ok(JObject(members)), parseFloat).value, Members(members), parseFloat)
  {
    var parsed, keys := Members(members), Keys(members);
    var r := Coerce(parsed, keys, parseFloat);
    assert LiveWeights(Ok(JObject(members)), parseFloat) == r;
    if r.Ok? {
      forall e | e in parsed ensures ToFloat(parsed[e], parseFloat).Ok? {
        assert e in keys;
      }
    } else {
      var x :| x in keys && !ToFloat(parsed[x], parseFloat).Ok?;
      assert x in parsed;
    }
  }

  /** An object of numbers with distinct keys comes back as those numbers. */
  lemma NumbersPassThrough(members: seq<(string, Json)>, parseFloat: FloatParser)
    requires forall k :: 0 <= k < |members| ==> members[k].1.JNumber?
    requires forall j, k :: 0 <= j < k < |members| ==> members[j].0 != members[k].0
    ensures var r := LiveWeights(Ok(JObject(members)), parseFloat);
      r.Ok? && forall k :: 0 <= k < |members| ==> r.value[members[k].0] == members[k].1.number
  {
    LiveKeepsKeys(members, parseFloat);
    forall k | 0 <= k < |members|
      ensures Members(members)[members[k].0] == members[k].1
    {
      MembersLastWins(members, k);
    }
  }

  // ---------------------------------------------------------------------------
  // emotion_weights

  /** The weights emotion_weights settles on before storing them. */
  function Weights(settings: Settings, apiKey: Option<string>, transcript: string, chat: Chat, parseFloat: FloatParser)
    : (r: Outcome<map<string, real>>)
    ensures UsesMock(settings, apiKey) ==> r == Ok(MOCK_WEIGHTS)
    ensures !UsesMock(settings, apiKey) ==> r == LiveWeights(chat(transcript), parseFloat)
  {
    if UsesMock(settings, apiKey) then Ok(MOCK_WEIGHTS) else LiveWeights(chat(transcript), parseFloat)
  }

  /** emotion_weights: the returned map is exactly the one stored with set_llm_vector; a failure stores nothing. */
  method EmotionWeights(settings: Settings, apiKey: Option<string>, store: Store, transcript: string,
                        sessionId: string, chat: Chat, parseFloat: FloatParser, now: Timestamp)
    returns (r: Outcome<map<string, real>>)
    requires store.Valid()
    modifies store
    ensures store.Valid()
    ensures r == Weights(settings, apiKey, transcript, chat, parseFloat)
    ensures r.Ok? ==> store.sessions == WithLlmVector(old(store.sessions), sessionId, r.value, now)
    ensures r.Err? ==> store.sessions == old(store.sessions)
  {
    r := Weights(settings, apiKey, transcript, chat, parseFloat);
    if r.Ok? {
      store.SetLlmVector(sessionId, r.value, now);
    }
  }
}

=== FILE: session_store.dfy ===
/**
 * The session store: one JSON document per session id holding the uploaded
 * media of each role, the transcript, the analysis summary and the LLM emotion
 * map, with creation and update stamps. Documents are modelled as a map from
 * session id to Session; every mutation is a load-modify-save of one document.
 */
module SessionStore {
  import opened Wrappers

  /** An ISO-8601 instant read from the clock. */
  type Timestamp = string

  const DEFAULT_CONTENT_TYPE: string := "video/mp4"

  /** A key of a stored media entry: missing, JSON null, or a string. */
  datatype Field = Absent | Null | Text(text: string) {
    /** `entry.get(k)`. */
    function Get(): Option<string> {
      if Text? then Some(text) else None
    }

    /** `entry.get(k, default)`: the default only for a missing key, not for null. */
    function GetOr(default: string): Option<string> {
      match this
      case Absent => Some(default)
      case Null => None
      case Text(s) => Some(s)
    }
  }

  /** How an optional string is written into a document: None becomes null. */
  function FieldOf(v: Option<string>): (f: Field)
    ensures f.Get() == v && !f.Absent?
  {
    if v.Some? then Text(v.value) else Null
  }

  /** The `media[role]` entry of a document; only the four keys below are ever written. */
  datatype MediaEntry = MediaEntry(key: Field, bucket: Field, localPath: Field, contentType: Field) {
    /** An empty dict, which Python treats as false. */
    predicate IsEmpty() {
      key.Absent? && bucket.Absent? && localPath.Absent? && contentType.Absent?
    }
  }

  const EMPTY_ENTRY: MediaEntry := MediaEntry(Absent, Absent, Absent, Absent)

  datatype MediaRecord = MediaRecord(
    sessionId: string,
    role: string,
    key: Option<string>,
    bucket: Option<string>,
    localPath: Option<string>,
    contentType: Option<string>)

  /** The analysis summary document; the last two keys are added by transcript enrichment. */
  datatype Summary = Summary(
    lieProbability: real,
    audioScore: real,
    macroScore: real,
    microScore: real,
    comparisonVector: seq<real>,
    audioVector: seq<real>,
    macroVector: seq<real>,
    llmVector: Option<map<string, real>>,
    alignmentScore: Option<real>)

  /** One session document; None stands for a key the document does not have. */
  datatype Session = Session(
    sessionId: string,
    media: map<string, MediaEntry>,
    createdAt: Timestamp,
    updatedAt: Option<Timestamp>,
    transcript: Option<string>,
    summary: Option<Summary>,
    llmVector: Option<map<string, real>>)

  /** All stored documents, by session id. */
  type Table = map<string, Session>

  /** Every stored document names its own id and carries an update stamp. */
  predicate WellFormed(db: Table) {
    forall id :: id in db ==> db[id].sessionId == id && db[id].updatedAt.Some?
  }

  // ---------------------------------------------------------------------------
  // _load and _save

  /** The stored document, or a fresh one created at `now` with no media. */
  function Load(db: Table, id: string, now: Timestamp): (s: Session)
    ensures id in db ==> s == db[id]
    ensures id !in db ==>
      s.sessionId == id && s.media == map[] && s.createdAt == now
      && s.updatedAt.None? && s.transcript.None? && s.summary.None? && s.llmVector.None?
  {
    if id in db then db[id] else Session(id, map[], now, None, None, None, None)
  }

  /** Stamps `updatedAt` and writes the document back under its id. */
  function Save(db: Table, id: string, s: Session, now: Timestamp): (db': Table)
    ensures id in db' && db'[id] == s.(updatedAt := Some(now))
    ensures forall other :: other != id ==> (other in db' <==> other in db)
    ensures forall other :: other != id && other in db ==> db'[other] == db[other]
  {
    db[id := s.(updatedAt := Some(now))]
  }

  /** Documents other than `id` are exactly as they were. */
  ghost predicate OthersUnchanged(db: Table, db': Table, id: string) {
    (forall other :: other != id ==> (other in db' <==> other in db))
    && (forall other :: other != id && other in db ==> db'[other] == db[other])
  }

  /**
   * The document `id` exists afterwards, keeps the identity and creation stamp
   * it was loaded with, and is stamped `now`.
   */
  predicate Stamped(db: Table, db': Table, id: string, now: Timestamp) {
    id in db'
    && db'[id].sessionId == Load(db, id, now).sessionId
    && db'[id].createdAt == Load(db, id, now).createdAt
    && db'[id].updatedAt == Some(now)
  }

  // ---------------------------------------------------------------------------
  // The mutations, as transitions of the table

  /** The entry update_media writes: all four keys, a None as null. */
  function EntryOf(record: MediaRecord): (e: MediaEntry)
    ensures !e.IsEmpty()
  {
    MediaEntry(FieldOf(record.key), FieldOf(record.bucket), FieldOf(record.localPath), FieldOf(record.contentType))
  }

  /** update_media: the role's entry is replaced wholesale; nothing else changes. */
  function WithMedia(db: Table, id: string, role: string, record: MediaRecord, now: Timestamp): (db': Table)
    ensures OthersUnchanged(db, db', id) && Stamped(db, db', id, now)
    ensures role in db'[id].media && db'[id].media[role] == EntryOf(record)
    ensures forall r :: r != role ==> (r in db'[id].media <==> r in Load(db, id, now).media)
    ensures forall r :: r != role && r in db'[id].media ==> db'[id].media[r] == Load(db, id, now).media[r]
    ensures db'[id].transcript == Load(db, id, now).transcript
    ensures db'[id].summary == Load(db, id, now).summary
    ensures db'[id].llmVector == Load(db, id, now).llmVector
  {
    var payload := Load(db, id, now);
    Save(db, id, payload.(media := payload.media[role := EntryOf(record)]), now)
  }

  /**
   * update_media_path: only `localPath` of the record's role changes, the other
   * keys of the entry stay; a role without an entry gets a `localPath`-only one.
   */
  function WithMediaPath(db: Table, record: MediaRecord, now: Timestamp): (db': Table)
    ensures var id, role := record.sessionId, record.role;
      var before := Load(db, id, now).media;
      var entry := if role in before then before[role] else EMPTY_ENTRY;
      OthersUnchanged(db, db', id) && Stamped(db, db', id, now)
      && role in db'[id].media
      && db'[id].media[role] == entry.(localPath := FieldOf(record.localPath))
      && (forall r :: r != role ==> (r in db'[id].media <==> r in before))
      && (forall r :: r != role && r in db'[id].media ==> db'[id].media[r] == before[r])
      && db'[id].transcript == Load(db, id, now).transcript
      && db'[id].summary == Load(db, id, now).summary
      && db'[id].llmVector == Load(db, id, now).llmVector
  {
    var payload := Load(db, record.sessionId, now);
    var entry := if record.role in payload.media then payload.media[record.role] else EMPTY_ENTRY;
    var media := payload.media[record.role := entry.(localPath := FieldOf(record.localPath))];
    Save(db, record.sessionId, payload.(media := media), now)
  }

  /** set_transcript: replaces the transcript; media, summary and LLM map stay. */
  function WithTranscript(db: Table, id: string, transcript: string, now: Timestamp): (db': Table)
    ensures OthersUnchanged(db, db', id) && Stamped(db, db', id, now)
    ensures db'[id].transcript == Some(transcript)
    ensures db'[id].media == Load(db, id, now).media
    ensures db'[id].summary == Load(db, id, now).summary
    ensures db'[id].llmVector == Load(db, id, now).llmVector
  {
    Save(db, id, Load(db, id, now).(transcript := Some(transcript)), now)
  }

  /** set_summary: replaces the summary; media, transcript and LLM map stay. */
  function WithSummary(db: Table, id: string, summary: Summary, now: Timestamp): (db': Table)
    ensures OthersUnchanged(db, db', id) && Stamped(db, db', id, now)
    ensures db'[id].summary == Some(summary)
    ensures db'[id].media == Load(db, id, now).media
    ensures db'[id].transcript == Load(db, id, now).transcript
    ensures db'[id].llmVector == Load(db, id, now).llmVector
  {
    Save(db, id, Load(db, id, now).(summary := Some(summary)), now)
  }

  /** set_llm_vector: replaces the LLM map; media, transcript and summary stay. */
  function WithLlmVector(db: Table, id: string, vector: map<string, real>, now: Timestamp): (db': Table)
    ensures OthersUnchanged(db, db', id) && Stamped(db, db', id, now)
    ensures db'[id].llmVector == Some(vector)
    ensures db'[id].media == Load(db, id, now).media
    ensures db'[id].transcript == Load(db, id, now).transcript
    ensures db'[id].summary == Load(db, id, now).summary
  {
    Save(db, id, Load(db, id, now).(llmVector := Some(vector)), now)
  }

  // ---------------------------------------------------------------------------
  // Reads

  /** get: the stored document, never a synthesised one. */
  function Lookup(db: Table, id: string): (r: Option<Session>)
    ensures r.Some? <==> id in db
    ensures r.Some? ==> r.value == db[id]
  {
    if id in db then Some(db[id]) else None
  }

  /** The summary stored for a session, None without a document or without a summary. */
  function StoredSummary(db: Table, id: string): (r: Option<Summary>)
    ensures id !in db ==> r.None?
    ensures id in db ==> r == db[id].summary
  {
    if id in db then db[id].summary else None
  }

  /**
   * get_media_record: None without a document or without a (non-empty) entry for
   * the role; otherwise the record rebuilt with the given id and role, and
   * "video/mp4" for a missing content type.
   */
  function MediaRecordOf(db: Table, id: string, role: string): (r: Option<MediaRecord>)
    ensures r.Some? <==> id in db && role in db[id].media && !db[id].media[role].IsEmpty()
    ensures r.Some? ==> r.value.sessionId == id && r.value.role == role
    ensures r.Some? ==> var e := db[id].media[role];
      r.value.key == e.key.Get() && r.value.bucket == e.bucket.Get()
      && r.value.localPath == e.localPath.Get()
      && r.value.contentType == e.contentType.GetOr(DEFAULT_CONTENT_TYPE)
  {
    match Lookup(db, id)
    case None => None
    case Some(payload) =>
      if role !in payload.media || payload.media[role].IsEmpty() then None
      else
        var e := payload.media[role];
        Some(MediaRecord(id, role, e.key.Get(), e.bucket.Get(), e.localPath.Get(),
          e.contentType.GetOr(DEFAULT_CONTENT_TYPE)))
  }

  /** After update_media(id, role, r), get_media_record(id, role) gives r back. */
  lemma MediaRoundTrip(db: Table, record: MediaRecord, now: Timestamp)
    ensures MediaRecordOf(WithMedia(db, record.sessionId, record.role, record, now),
      record.sessionId, record.role) == Some(record)
  {
  }

  /** The same read under any id and role, with the record's own id and role replaced. */
  lemma MediaRoundTripRelabelled(db: Table, id: string, role: string, record: MediaRecord, now: Timestamp)
    ensures MediaRecordOf(WithMedia(db, id, role, record, now), id, role)
      == Some(record.(sessionId := id, role := role))
  {
  }

  /** A path patch is read back as the new local path, with key, bucket and type kept. */
  lemma PathPatchReadBack(db: Table, record: MediaRecord, now: Timestamp)
    requires record.localPath.Some?
    ensures var db' := WithMediaPath(db, record, now);
      var r := MediaRecordOf(db', record.sessionId, record.role);
      r.Some? && r.value.localPath == record.localPath
      && (var before := MediaRecordOf(db, record.sessionId, record.role);
          before.Some? ==>
            r.value.key == before.value.key && r.value.bucket == before.value.bucket
            && r.value.contentType == before.value.contentType)
  {
  }

  // ---------------------------------------------------------------------------
  // Histories of mutations

  datatype Mutation =
    | PutMedia(id: string, role: string, record: MediaRecord)
    | PatchMediaPath(record: MediaRecord)
    | PutTranscript(id: string, transcript: string)
    | PutSummary(id: string, summary: Summary)
    | PutLlmVector(id: string, vector: map<string, real>)
  {
    /** The document the mutation loads and saves. */
    function Target(): string {
      if PatchMediaPath? then record.sessionId else id
    }
  }

  function Apply(db: Table, m: Mutation, now: Timestamp): (db': Table)
    ensures OthersUnchanged(db, db', m.Target()) && Stamped(db, db', m.Target(), now)
  {
    match m
    case PutMedia(id, role, record) => WithMedia(db, id, role, record, now)
    case PatchMediaPath(record) => WithMediaPath(db, record, now)
    case PutTranscript(id, t) => WithTranscript(db, id, t, now)
    case PutSummary(id, s) => WithSummary(db, id, s, now)
    case PutLlmVector(id, v) => WithLlmVector(db, id, v, now)
  }

  /** The table after the mutations, in order, each with its own clock reading. */
  function Replay(db: Table, history: seq<(Mutation, Timestamp)>): Table
  {
    if |history| == 0 then db
    else
      var last := history[|history| - 1];
      Apply(Replay(db, history[..|history| - 1]), last.0, last.1)
  }

  /** Every mutation keeps the table well formed. */
  lemma ApplyKeepsWellFormed(db: Table, m: Mutation, now: Timestamp)
    requires WellFormed(db)
    ensures WellFormed(Apply(db, m, now))
  {
  }

  lemma {:induction false} ReplayKeepsWellFormed(db: Table, history: seq<(Mutation, Timestamp)>)
    requires WellFormed(db)
    ensures WellFormed(Replay(db, history))
  {
    if |history| > 0 {
      ReplayKeepsWellFormed(db, history[..|history| - 1]);
      var last := history[|history| - 1];
      ApplyKeepsWellFormed(Replay(db, history[..|history| - 1]), last.0, last.1);
    }
  }

  /** No mutation aimed at `id`: get(id) is still None on a store that started empty. */
  lemma {:induction false} NeverMutatedIsUnknown(history: seq<(Mutation, Timestamp)>, id: string)
    requires forall k :: 0 <= k < |history| ==> history[k].0.Target() != id
    ensures Lookup(Replay(map[], history), id) == None
  {
    if |history| > 0 {
      NeverMutatedIsUnknown(history[..|history| - 1], id);
    }
  }

  /**
   * Once a mutation has been aimed at `id`, get(id) returns a document whose
   * creation stamp is the clock reading of the first such mutation.
   */
  lemma {:induction false} CreatedAtFirstMutation(history: seq<(Mutation, Timestamp)>, id: string, first: nat)
    requires first < |history| && history[first].0.Target() == id
    requires forall k :: 0 <= k < first ==> history[k].0.Target() != id
    ensures id in Replay(map[], history)
    ensures Replay(map[], history)[id].createdAt == history[first].1
  {
    if |history| - 1 == first {
      NeverMutatedIsUnknown(history[..first], id);
    } else {
      CreatedAtFirstMutation(history[..|history| - 1], id, first);
    }
  }

  /** Every mutation stamps the document's `updatedAt` with its own clock reading. */
  lemma UpdatedAtLastMutation(history: seq<(Mutation, Timestamp)>)
    requires |history| > 0
    ensures var last := history[|history| - 1];
      Replay(map[], history)[last.0.Target()].updatedAt == Some(last.1)
  {
  }

  // ---------------------------------------------------------------------------
  // The store object

  class Store {
    /** The documents on disk, by session id. */
    var sessions: Table

    ghost predicate Valid()
      reads this
    {
      WellFormed(sessions)
    }

    constructor()
      ensures sessions == map[] && Valid()
    {
      sessions := map[];
    }

    /** `_load`. */
    function LoadSession(id: string, now: Timestamp): Session
      reads this
    {
      Load(sessions, id, now)
    }

    /** `_save`. */
    method SaveSession(id: string, payload: Session, now: Timestamp)
      modifies this
      ensures sessions == Save(old(sessions), id, payload, now)
    {
      sessions := sessions[id := payload.(updatedAt := Some(now))];
    }

    method UpdateMedia(id: string, role: string, record: MediaRecord, now: Timestamp)
      requires Valid()
      modifies this
      ensures Valid()
      ensures sessions == WithMedia(old(sessions), id, role, record, now)
    {
      var payload := LoadSession(id, now);
      payload := payload.(media := payload.media[role := EntryOf(record)]);
      SaveSession(id, payload, now);
    }

    method UpdateMediaPath(record: MediaRecord, now: Timestamp)
      requires Valid()
      modifies this
      ensures Valid()
      ensures sessions == WithMediaPath(old(sessions), record, now)
    {
      var payload := LoadSession(record.sessionId, now);
      var entry := if record.role in payload.media then payload.media[record.role] else EMPTY_ENTRY;
      entry := entry.(localPath := FieldOf(record.localPath));
      payload := payload.(media := payload.media[record.role := entry]);
      SaveSession(record.sessionId, payload, now);
    }

    method SetTranscript(id: string, transcript: string, now: Timestamp)
      requires Valid()
      modifies this
      ensures Valid()
      ensures sessions == WithTranscript(old(sessions), id, transcript, now)
    {
      var payload := LoadSession(id, now);
      payload := payload.(transcript := Some(transcript));
      SaveSession(id, payload, now);
    }

    method SetSummary(id: string, summary: Summary, now: Timestamp)
      requires Valid()
      modifies this
      ensures Valid()
      ensures sessions == WithSummary(old(sessions), id, summary, now)
    {
      var payload := LoadSession(id, now);
      payload := payload.(summary := Some(summary));
      SaveSession(id, payload, now);
    }

    method SetLlmVector(id: string, vector: map<string, real>, now: Timestamp)
      requires Valid()
      modifies this
      ensures Valid()
      ensures sessions == WithLlmVector(old(sessions), id, vector, now)
    {
      var payload := LoadSession(id, now);
      payload := payload.(llmVector := Some(vector));
      SaveSession(id, payload, now);
    }

    function Get(id: string): (r: Option<Session>)
      reads this
      ensures r == Lookup(sessions, id)
    {
      if id in sessions then Some(sessions[id]) else None
    }

    function GetMediaRecord(id: string, role: string): (r: Option<MediaRecord>)
      reads this
      ensures r == MediaRecordOf(sessions, id, role)
    {
      MediaRecordOf(sessions, id, role)
    }
  }
}

=== FILE: slices.dfy ===
/**
 * Python's `int()` on a float and the index arithmetic of its slices, shared
 * by the dataset splitter, the feature padding and the frame sampler.
 */
module Slices {
  /** `int(x)` on a float: the integer part, truncated toward zero. */
  function Trunc(x: real): (n: int)
    ensures x >= 0.0 ==> n as real <= x < n as real + 1.0
    ensures x < 0.0 ==> n as real - 1.0 < x <= n as real
  {
    if x >= 0.0 then x.Floor else -((-x).Floor)
  }

  /**
   * Where a slice bound `i` lands in a sequence of length n: a negative bound
   * counts from the end, and either kind is clamped to 0..n.
   */
  function Bound(i: int, n: nat): (b: nat)
    ensures b <= n
    ensures 0 <= i <= n ==> b == i
    ensures i > n ==> b == n
    ensures i < 0 ==> b == if n + i >= 0 then n + i else 0
  {
    if i < 0 then (if n + i >= 0 then n + i else 0)
    else if i > n then n
    else i
  }
}

=== FILE: storage.dfy ===
/**
 * Media storage: validates an upload, derives its object key, stores the file
 * in S3 or under the local media root, and records it in the session store;
 * later it makes sure a local copy exists, downloading it from S3 if needed.
 * The S3 transfers and the local file system are parameters: `transfer` is the
 * exception an upload or download raised (None when it succeeded) and
 * `onDisk` the set of paths that exist.
 */
module Storage {
  import opened Wrappers
  import opened Exceptions
  import opened Config
  import opened SessionStore

  const ROLES: set<string> := {"questioner", "answerer"}
  const SESSION_ID_MESSAGE: string := "session_id is required"
  const ROLE_MESSAGE: string := "role must be 'questioner' or 'answerer'"
  const UNAVAILABLE_MESSAGE: string := "Local media file is unavailable"
  const MISSING_LOCATION_MESSAGE: string := "Media record missing bucket/key"

  /** The constructor creates an S3 client only for a non-empty bucket with mock services off. */
  predicate HasClient(settings: Settings) {
    settings.s3Bucket.Some? && settings.s3Bucket.value != "" && !settings.useMockServices
  }

  /** s3_enabled: a client exists and a bucket is configured. */
  function S3Enabled(settings: Settings): (enabled: bool)
    ensures enabled ==> settings.s3Bucket.Some? && settings.s3Bucket.value != ""
    ensures enabled ==> !settings.useMockServices
    ensures enabled <==> HasClient(settings)
  {
    HasClient(settings) && settings.s3Bucket.Some?
  }

  /** `local_media_root / relative`. */
  function UnderRoot(settings: Settings, relative: string): string {
    settings.localMediaRoot + "/" + relative
  }

  /** The object key `{prefix}/{session_id}/{role}.mp4`. */
  function MediaKey(settings: Settings, sessionId: string, role: string): (key: string)
    ensures |key| == |settings.s3Prefix| + |sessionId| + |role| + 6
    ensures key[..|settings.s3Prefix|] == settings.s3Prefix
    ensures key[|key| - 4..] == ".mp4"
    ensures var p := |settings.s3Prefix|;
      key[p] == '/' && key[p + 1..p + 1 + |sessionId|] == sessionId
      && key[p + 1 + |sessionId|] == '/' && key[p + 2 + |sessionId|..|key| - 4] == role
  {
    settings.s3Prefix + "/" + sessionId + "/" + role + ".mp4"
  }

  /** Different sessions never share a key under one prefix and role. */
  lemma MediaKeysDistinct(settings: Settings, a: string, b: string, role: string)
    requires a != b && '/' !in a && '/' !in b
    ensures MediaKey(settings, a, role) != MediaKey(settings, b, role)
  {
    var p := |settings.s3Prefix| + 1;
    var ka, kb := MediaKey(settings, a, role), MediaKey(settings, b, role);
    if |a| == |b| {
      var i :| 0 <= i < |a| && a[i] != b[i];
      assert ka[p + i] == a[i] && kb[p + i] == b[i];
    }
  }

  /**
   * The checks and the record of save_media before any write: an empty id or a
   * role other than questioner/answerer is a ValueError; the content type is the
   * upload's mimetype or "video/mp4"; the bucket is always the configured one,
   * and the local path is set exactly when S3 is disabled.
   */
  function NewRecord(settings: Settings, sessionId: string, role: string, mimetype: string): (r: Outcome<MediaRecord>)
    ensures sessionId == "" ==> r == Err(ValueError(SESSION_ID_MESSAGE))
    ensures sessionId != "" && role !in ROLES ==> r == Err(ValueError(ROLE_MESSAGE))
    ensures r.Ok? <==> sessionId != "" && role in ROLES
    ensures r.Ok? ==>
      r.value.sessionId == sessionId && r.value.role == role
      && r.value.key == Some(MediaKey(settings, sessionId, role))
      && r.value.bucket == settings.s3Bucket
      && r.value.contentType == Some(if mimetype != "" then mimetype else DEFAULT_CONTENT_TYPE)
      && (r.value.localPath.Some? <==> !S3Enabled(settings))
      && (r.value.localPath.Some? ==> r.value.localPath.value == UnderRoot(settings, r.value.key.value))
  {
    if sessionId == "" then Err(ValueError(SESSION_ID_MESSAGE))
    else if role !in ROLES then Err(ValueError(ROLE_MESSAGE))
    else
      var key := MediaKey(settings, sessionId, role);
      var contentType := if mimetype != "" then mimetype else DEFAULT_CONTENT_TYPE;
      var localPath := if S3Enabled(settings) then None else Some(UnderRoot(settings, key));
      Ok(MediaRecord(sessionId, role, Some(key), settings.s3Bucket, localPath, Some(contentType)))
  }

  /**
   * save_media: a rejected upload, or a transfer that raises, writes nothing; a
   * stored upload is recorded with update_media and the same record returned,
   * so reading the role back gives it.
   */
  method SaveMedia(settings: Settings, store: Store, sessionId: string, role: string, mimetype: string,
                   transfer: Option<Exception>, now: Timestamp)
    returns (r: Outcome<MediaRecord>)
    requires store.Valid()
    modifies store
    ensures store.Valid()
    ensures NewRecord(settings, sessionId, role, mimetype).Err? ==> r == NewRecord(settings, sessionId, role, mimetype)
    ensures NewRecord(settings, sessionId, role, mimetype).Ok? && transfer.Some? ==> r == Err(transfer.value)
    ensures NewRecord(settings, sessionId, role, mimetype).Ok? && transfer.None? ==> r.Ok?
    ensures r.Err? ==> store.sessions == old(store.sessions)
    ensures r.Ok? ==>
      r == NewRecord(settings, sessionId, role, mimetype)
      && store.sessions == WithMedia(old(store.sessions), sessionId, role, r.value, now)
      && MediaRecordOf(store.sessions, sessionId, role) == Some(r.value)
  {
    r := NewRecord(settings, sessionId, role, mimetype);
    if r.Ok? {
      if transfer.Some? {
        r := Err(transfer.value);
      } else {
        store.UpdateMedia(sessionId, role, r.value, now);
        MediaRoundTrip(old(store.sessions), r.value, now);
      }
    }
  }

  /** ensure_local_path finds no usable local file but can fetch the object from S3. */
  predicate Downloads(settings: Settings, record: MediaRecord, onDisk: set<string>, transfer: Option<Exception>) {
    !(Present(record.localPath) && record.localPath.value in onDisk)
    && S3Enabled(settings) && Present(record.bucket) && Present(record.key) && transfer.None?
  }

  /**
   * The path ensure_local_path returns: an existing local file as it is;
   * otherwise a disabled S3 or a record without bucket or key is a
   * FileNotFoundError, a failed download raises, and a download lands at
   * `local_media_root/key`.
   */
  function LocalPath(settings: Settings, record: MediaRecord, onDisk: set<string>, transfer: Option<Exception>)
    : (r: Outcome<string>)
    ensures Present(record.localPath) && record.localPath.value in onDisk ==> r == Ok(record.localPath.value)
    ensures !(Present(record.localPath) && record.localPath.value in onDisk) ==>
      (!S3Enabled(settings) ==> r == Err(FileNotFoundError(UNAVAILABLE_MESSAGE)))
      && (S3Enabled(settings) && !(Present(record.bucket) && Present(record.key)) ==>
            r == Err(FileNotFoundError(MISSING_LOCATION_MESSAGE)))
      && (S3Enabled(settings) && Present(record.bucket) && Present(record.key) && transfer.Some? ==>
            r == Err(transfer.value))
    ensures Downloads(settings, record, onDisk, transfer) ==> r == Ok(UnderRoot(settings, record.key.value))
    ensures r.Ok? && !Downloads(settings, record, onDisk, transfer) ==> r.value in onDisk
  {
    if Present(record.localPath) && record.localPath.value in onDisk then Ok(record.localPath.value)
    else if !S3Enabled(settings) then Err(FileNotFoundError(UNAVAILABLE_MESSAGE))
    else if !Present(record.bucket) || !Present(record.key) then Err(FileNotFoundError(MISSING_LOCATION_MESSAGE))
    else if transfer.Some? then Err(transfer.value)
    else Ok(UnderRoot(settings, record.key.value))
  }

  /**
   * ensure_local_path: returns LocalPath; only a download changes anything, and
   * then the record's local path is set to the download and only `localPath` is
   * patched in the store.
   */
  method EnsureLocalPath(settings: Settings, store: Store, record: MediaRecord, onDisk: set<string>,
                         transfer: Option<Exception>, now: Timestamp)
    returns (r: Outcome<string>, updated: MediaRecord)
    requires store.Valid()
    modifies store
    ensures store.Valid()
    ensures r == LocalPath(settings, record, onDisk, transfer)
    ensures Downloads(settings, record, onDisk, transfer) ==>
      updated == record.(localPath := Some(r.value))
      && store.sessions == WithMediaPath(old(store.sessions), updated, now)
      && MediaRecordOf(store.sessions, record.sessionId, record.role).Some?
      && MediaRecordOf(store.sessions, record.sessionId, record.role).value.localPath == Some(r.value)
    ensures !Downloads(settings, record, onDisk, transfer) ==>
      updated == record && store.sessions == old(store.sessions)
  {
    updated := record;
    if Present(record.localPath) && record.localPath.value in onDisk {
      return Ok(record.localPath.value), updated;
    }
    if !S3Enabled(settings) {
      return Err(FileNotFoundError(UNAVAILABLE_MESSAGE)), updated;
    }
    if !Present(record.bucket) || !Present(record.key) {
      return Err(FileNotFoundError(MISSING_LOCATION_MESSAGE)), updated;
    }
    var downloadPath := UnderRoot(settings, record.key.value);
    if transfer.Some? {
      return Err(transfer.value), updated;
    }
    updated := record.(localPath := Some(downloadPath));
    store.UpdateMediaPath(updated, now);
    r := Ok(downloadPath);
  }
}

=== FILE: strings.dfy ===
/**
 * String operations the system relies on, with the semantics of the language
 * that performs them: Python's `str.split(sep)`, `str.strip()`, `int()` and
 * `format(n, '06d')`, JavaScript's `String.prototype.trim`, and ASCII case
 * folding.
 */
module Strings {
  import opened Wrappers

  // ---------------------------------------------------------------------------
  // Splitting on a separator character

  /**
   * Python's `s.split(sep)` for a one-character separator: the pieces between
   * separators, empty ones included, so there is always one piece more than
   * there are separators.
   */
  function Split(s: string, sep: char): (r: seq<string>)
    ensures |r| >= 1
    ensures forall k :: 0 <= k < |r| ==> sep !in r[k]
    decreases |s|
  {
    if |s| == 0 then [""]
    else if s[0] == sep then [""] + Split(s[1..], sep)
    else
      var rest := Split(s[1..], sep);
      [[s[0]] + rest[0]] + rest[1..]
  }

  /** `sep.join(pieces)`. */
  function Join(pieces: seq<string>, sep: char): string
    requires |pieces| >= 1
  {
    if |pieces| == 1 then pieces[0] else pieces[0] + [sep] + Join(pieces[1..], sep)
  }

  /** A character that is neither the separator nor in any piece is not in their join. */
  lemma {:induction false} JoinAvoids(pieces: seq<string>, sep: char, c: char)
    requires |pieces| >= 1 && c != sep
    requires forall k :: 0 <= k < |pieces| ==> c !in pieces[k]
    ensures c !in Join(pieces, sep)
    decreases |pieces|
  {
    if |pieces| > 1 {
      JoinAvoids(pieces[1..], sep, c);
    }
  }

  /** Joining the pieces of a split with the same separator gives the string back. */
  lemma {:induction false} JoinSplit(s: string, sep: char)
    ensures Join(Split(s, sep), sep) == s
    decreases |s|
  {
    if |s| == 0 {
    } else if s[0] == sep {
      JoinSplit(s[1..], sep);
      assert s == [sep] + s[1..];
    } else {
      var rest := Split(s[1..], sep);
      var r := Split(s, sep);
      JoinSplit(s[1..], sep);
      assert s == [s[0]] + s[1..];
      if |rest| == 1 {
        assert r == [[s[0]] + rest[0]];
      } else {
        assert r[0] == [s[0]] + rest[0] && r[1..] == rest[1..];
        assert Join(rest, sep) == rest[0] + [sep] + Join(rest[1..], sep);
        assert Join(r, sep) == [s[0]] + (rest[0] + [sep] + Join(rest[1..], sep));
      }
    }
  }

  /** A string without the separator is a single piece. */
  lemma {:induction false} SplitWithoutSeparator(s: string, sep: char)
    requires sep !in s
    ensures Split(s, sep) == [s]
    decreases |s|
  {
    if |s| > 0 {
      assert sep !in s[1..] by {
        forall k | 0 <= k < |s| - 1 ensures s[1..][k] != sep {
          assert s[1..][k] == s[k + 1];
        }
      }
      SplitWithoutSeparator(s[1..], sep);
      assert s == [s[0]] + s[1..];
    }
  }

  /** A separator after a separator-free head splits off exactly that head. */
  lemma {:induction false} SplitAfterHead(a: string, b: string, sep: char)
    requires sep !in a
    ensures Split(a + [sep] + b, sep) == [a] + Split(b, sep)
    decreases |a|
  {
    var s := a + [sep] + b;
    if |a| == 0 {
      assert s == [sep] + b;
      assert s[1..] == b;
    } else {
      assert s[0] == a[0] && s[0] != sep;
      assert s[1..] == a[1..] + [sep] + b;
      assert sep !in a[1..] by {
        forall k | 0 <= k < |a| - 1 ensures a[1..][k] != sep {
          assert a[1..][k] == a[k + 1];
        }
      }
      SplitAfterHead(a[1..], b, sep);
      assert [a[0]] + a[1..] == a;
    }
  }

  /** Splitting a join of separator-free pieces gives the pieces back. */
  lemma {:induction false} SplitJoin(pieces: seq<string>, sep: char)
    requires |pieces| >= 1
    requires forall k :: 0 <= k < |pieces| ==> sep !in pieces[k]
    ensures Split(Join(pieces, sep), sep) == pieces
  {
    if |pieces| == 1 {
      SplitWithoutSeparator(pieces[0], sep);
    } else {
      SplitJoin(pieces[1..], sep);
      SplitAfterHead(pieces[0], Join(pieces[1..], sep), sep);
      assert [pieces[0]] + pieces[1..] == pieces;
    }
  }

  // ---------------------------------------------------------------------------
  // Stripping whitespace

  /**
   * The characters Python's `str.isspace` accepts, which `str.strip()` removes:
   * the ASCII controls 0x09-0x0D and 0x1C-0x1F, the space, NEL, NO-BREAK SPACE,
   * OGHAM SPACE MARK, the spaces U+2000-U+200A, the line and paragraph
   * separators, NARROW NO-BREAK SPACE, MEDIUM MATHEMATICAL SPACE and the
   * ideographic space.
   */
  predicate IsPythonSpace(c: char) {
    ('\U{9}' <= c <= '\U{D}') || ('\U{1C}' <= c <= '\U{1F}') || c == ' ' || c == '\U{85}'
    || c == '\U{A0}' || c == '\U{1680}' || ('\U{2000}' <= c <= '\U{200A}') || c == '\U{2028}'
    || c == '\U{2029}' || c == '\U{202F}' || c == '\U{205F}' || c == '\U{3000}'
  }

  /**
   * The characters JavaScript's `trim` removes (WhiteSpace and LineTerminator of
   * ECMA-262): tab, line feed, vertical tab, form feed, carriage return, the
   * space, NO-BREAK SPACE, the Zs spaces, the line and paragraph separators and
   * the byte order mark. Unlike Python, 0x1C-0x1F and NEL are not among them.
   */
  predicate IsJsSpace(c: char) {
    ('\U{9}' <= c <= '\U{D}') || c == ' ' || c == '\U{A0}' || c == '\U{1680}'
    || ('\U{2000}' <= c <= '\U{200A}') || c == '\U{2028}' || c == '\U{2029}' || c == '\U{202F}'
    || c == '\U{205F}' || c == '\U{3000}' || c == '\U{FEFF}'
  }

  datatype Whitespace = Python | JavaScript {
    predicate Has(c: char) {
      match this
      case Python => IsPythonSpace(c)
      case JavaScript => IsJsSpace(c)
    }
  }

  predicate AllSpace(s: string, ws: Whitespace) {
    forall k :: 0 <= k < |s| ==> ws.Has(s[k])
  }

  /** Number of leading whitespace characters. */
  function LeadingSpace(s: string, ws: Whitespace): (n: nat)
    ensures n <= |s| && AllSpace(s[..n], ws)
    ensures n < |s| ==> !ws.Has(s[n])
    decreases |s|
  {
    if |s| > 0 && ws.Has(s[0]) then
      var n := 1 + LeadingSpace(s[1..], ws);
      assert forall k :: 1 <= k < n ==> s[..n][k] == s[1..][..n - 1][k - 1];
      n
    else 0
  }

  /** Number of trailing whitespace characters. */
  function TrailingSpace(s: string, ws: Whitespace): (n: nat)
    ensures n <= |s| && AllSpace(s[|s| - n..], ws)
    ensures n < |s| ==> !ws.Has(s[|s| - n - 1])
    decreases |s|
  {
    if |s| > 0 && ws.Has(s[|s| - 1]) then
      var m := TrailingSpace(s[..|s| - 1], ws);
      TrailingStep(s, ws, m);
      m + 1
    else 0
  }

  /** A run of trailing whitespace grows by one when the last character is whitespace too. */
  lemma TrailingStep(s: string, ws: Whitespace, m: nat)
    requires |s| > 0 && ws.Has(s[|s| - 1]) && m < |s|
    requires AllSpace(s[..|s| - 1][|s| - 1 - m..], ws)
    ensures AllSpace(s[|s| - 1 - m..], ws)
  {
    var init, tail := s[..|s| - 1], s[|s| - 1 - m..];
    assert forall k :: 0 <= k < m ==> tail[k] == init[|s| - 1 - m..][k];
  }

  /** `s.strip()` in Python, `s.trim()` in JavaScript, depending on `ws`. */
  function Strip(s: string, ws: Whitespace): (r: string)
    ensures |r| <= |s|
  {
    var a := LeadingSpace(s, ws);
    if a == |s| then "" else s[a..|s| - TrailingSpace(s, ws)]
  }

  /** Leading and trailing whitespace do not overlap unless the string is all whitespace. */
  lemma SpaceRunsDisjoint(s: string, ws: Whitespace)
    requires LeadingSpace(s, ws) < |s|
    ensures LeadingSpace(s, ws) < |s| - TrailingSpace(s, ws)
  {
    var a, t := LeadingSpace(s, ws), TrailingSpace(s, ws);
    assert !ws.Has(s[a]);
    assert forall k :: |s| - t <= k < |s| ==> ws.Has(s[k]) by {
      forall k | |s| - t <= k < |s| ensures ws.Has(s[k]) {
        assert s[|s| - t..][k - (|s| - t)] == s[k];
      }
    }
  }

  /** The stripped string sits between a whitespace-only prefix and a whitespace-only suffix. */
  lemma StripIsInfix(s: string, ws: Whitespace)
    ensures exists a, b ::
      0 <= a <= b <= |s| && Strip(s, ws) == s[a..b] && AllSpace(s[..a], ws) && AllSpace(s[b..], ws)
  {
    var a := LeadingSpace(s, ws);
    var t := TrailingSpace(s, ws);
    if a == |s| {
      assert s[a..] == "";
      assert 0 <= a <= a <= |s| && Strip(s, ws) == s[a..a] && AllSpace(s[..a], ws) && AllSpace(s[a..], ws);
    } else {
      var b := StripSlice(s, ws);
      assert 0 <= a <= b <= |s| && Strip(s, ws) == s[a..b] && AllSpace(s[..a], ws) && AllSpace(s[b..], ws);
    }
  }

  /** The stripped string neither begins nor ends with whitespace. */
  lemma StripEnds(s: string, ws: Whitespace)
    ensures var r := Strip(s, ws); |r| > 0 ==> !ws.Has(r[0]) && !ws.Has(r[|r| - 1])
  {
    StripFirst(s, ws);
    StripLast(s, ws);
  }

  /** The stripped string does not begin with whitespace. */
  lemma StripFirst(s: string, ws: Whitespace)
    ensures var r := Strip(s, ws); |r| > 0 ==> !ws.Has(r[0])
  {
    var a := LeadingSpace(s, ws);
    if a < |s| {
      var b := StripSlice(s, ws);
      SliceEnds(s, a, b);
    }
  }

  /** The stripped string does not end with whitespace. */
  lemma StripLast(s: string, ws: Whitespace)
    ensures var r := Strip(s, ws); |r| > 0 ==> !ws.Has(r[|r| - 1])
  {
    var a := LeadingSpace(s, ws);
    if a < |s| {
      var b := StripSlice(s, ws);
      LastKept(s, ws, b);
      SliceEnds(s, a, b);
    }
  }

  /** The character just before the trailing whitespace run is not whitespace. */
  lemma LastKept(s: string, ws: Whitespace, b: nat)
    requires b == |s| - TrailingSpace(s, ws) && 0 < b
    ensures !ws.Has(s[b - 1])
  {
  }

  /** Unless the string is all whitespace, its strip is the slice between the two runs. */
  lemma StripSlice(s: string, ws: Whitespace) returns (b: nat)
    requires LeadingSpace(s, ws) < |s|
    ensures b == |s| - TrailingSpace(s, ws) && LeadingSpace(s, ws) < b <= |s|
    ensures Strip(s, ws) == s[LeadingSpace(s, ws)..b]
  {
    SpaceRunsDisjoint(s, ws);
    b := |s| - TrailingSpace(s, ws);
  }

  /** The first and last characters of a non-empty slice. */
  lemma SliceEnds(s: string, a: nat, b: nat)
    requires a < b <= |s|
    ensures |s[a..b]| == b - a && s[a..b][0] == s[a] && s[a..b][b - a - 1] == s[b - 1]
  {
  }

  /** Stripping leaves nothing exactly when the string is all whitespace. */
  lemma StripEmpty(s: string, ws: Whitespace)
    ensures Strip(s, ws) == "" <==> AllSpace(s, ws)
  {
    var a := LeadingSpace(s, ws);
    if a == |s| {
      assert s[..a] == s;
    } else {
      SpaceRunsDisjoint(s, ws);
      assert !ws.Has(s[a]);
    }
  }

  /** Stripping never introduces a character. */
  lemma StripKeepsAbsence(s: string, ws: Whitespace, c: char)
    requires c !in s
    ensures c !in Strip(s, ws)
  {
    StripIsInfix(s, ws);
    var a, b :| 0 <= a <= b <= |s| && Strip(s, ws) == s[a..b];
    forall i | 0 <= i < b - a ensures s[a..b][i] != c {
      assert s[a..b][i] == s[a + i];
    }
  }

  /** Stripping twice is stripping once. */
  lemma StripIdempotent(s: string, ws: Whitespace)
    ensures Strip(Strip(s, ws), ws) == Strip(s, ws)
  {
    StripEnds(s, ws);
    var r := Strip(s, ws);
    if |r| > 0 {
      assert LeadingSpace(r, ws) == 0;
      assert TrailingSpace(r, ws) == 0;
      assert r[0..|r|] == r;
    }
  }

  /** A string without whitespace at either end is its own strip. */
  lemma StripUnpadded(s: string, ws: Whitespace)
    requires |s| > 0 && !ws.Has(s[0]) && !ws.Has(s[|s| - 1])
    ensures Strip(s, ws) == s
  {
    assert LeadingSpace(s, ws) == 0;
    assert TrailingSpace(s, ws) == 0;
    assert s[0..|s|] == s;
  }

  // ---------------------------------------------------------------------------
  // ASCII case

  function LowerChar(c: char): (r: char)
    ensures 'A' <= c <= 'Z' ==> 'a' <= r <= 'z'
    ensures !('A' <= c <= 'Z') ==> r == c
  {
    if 'A' <= c <= 'Z' then (c as int + 32) as char else c
  }

  /** Lower-cases the ASCII letters A-Z and leaves every other character alone. */
  function Lower(s: string): (r: string)
    ensures |r| == |s| && forall k :: 0 <= k < |s| ==> r[k] == LowerChar(s[k])
  {
    seq(|s|, k requires 0 <= k < |s| => LowerChar(s[k]))
  }

  /** `s` begins with `prefix` when ASCII case is ignored; `prefix` is lower-case. */
  predicate StartsWithIgnoringCase(s: string, prefix: string) {
    |prefix| <= |s| && Lower(s[..|prefix|]) == prefix
  }

  // ---------------------------------------------------------------------------
  // Decimal numerals

  predicate IsDigit(c: char) {
    '0' <= c <= '9'
  }

  function DigitValue(c: char): nat
    requires IsDigit(c)
  {
    c as int - '0' as int
  }

  function DigitChar(d: nat): (c: char)
    requires d < 10
    ensures IsDigit(c) && DigitValue(c) == d
  {
    ('0' as int + d) as char
  }

  /** The decimal numeral of n, without leading zeros ("0" for zero). */
  function Decimal(n: nat): (r: string)
    ensures |r| >= 1 && forall k :: 0 <= k < |r| ==> IsDigit(r[k])
    ensures |r| > 1 ==> r[0] != '0'
  {
    if n < 10 then [DigitChar(n)] else Decimal(n / 10) + [DigitChar(n % 10)]
  }

  /** The value of a non-empty string of decimal digits. */
  function DigitsValue(s: string): nat
    requires forall k :: 0 <= k < |s| ==> IsDigit(s[k])
  {
    if |s| == 0 then 0 else 10 * DigitsValue(s[..|s| - 1]) + DigitValue(s[|s| - 1])
  }

  lemma {:induction false} DecimalRoundTrip(n: nat)
    ensures DigitsValue(Decimal(n)) == n
  {
    if n >= 10 {
      var d := Decimal(n);
      assert d[..|d| - 1] == Decimal(n / 10);
      DecimalRoundTrip(n / 10);
    }
  }

  /** Leading zeros do not change the value of a numeral. */
  lemma {:induction false} LeadingZerosValue(z: nat, s: string)
    requires forall k :: 0 <= k < |s| ==> IsDigit(s[k])
    ensures var p := seq(z, _ => '0') + s;
      (forall k :: 0 <= k < |p| ==> IsDigit(p[k])) && DigitsValue(p) == DigitsValue(s)
  {
    var p := seq(z, _ => '0') + s;
    assert forall k :: 0 <= k < |p| ==> IsDigit(p[k]);
    if |s| == 0 {
      ZerosValue(z);
      assert p == seq(z, _ => '0');
    } else {
      LeadingZerosValue(z, s[..|s| - 1]);
      assert p[..|p| - 1] == seq(z, _ => '0') + s[..|s| - 1];
    }
  }

  lemma {:induction false} ZerosValue(z: nat)
    ensures DigitsValue(seq(z, _ => '0')) == 0
  {
    if z > 0 {
      assert seq(z, _ => '0')[..z - 1] == seq(z - 1, _ => '0');
      ZerosValue(z - 1);
    }
  }

  /** `format(n, '0{width}d')`: the numeral of n left-padded with zeros to `width` characters. */
  function ZeroPadded(n: nat, width: nat): (r: string)
    ensures |r| == if |Decimal(n)| < width then width else |Decimal(n)|
    ensures forall k :: 0 <= k < |r| ==> IsDigit(r[k])
  {
    var d := Decimal(n);
    if |d| < width then seq(width - |d|, _ => '0') + d else d
  }

  /** The padded numeral still reads as n, so distinct numbers never share a padded name. */
  lemma ZeroPaddedRoundTrip(n: nat, width: nat)
    ensures DigitsValue(ZeroPadded(n, width)) == n
  {
    var d := Decimal(n);
    DecimalRoundTrip(n);
    if |d| < width {
      LeadingZerosValue(width - |d|, d);
    }
  }

  lemma ZeroPaddedInjective(m: nat, n: nat, width: nat)
    requires ZeroPadded(m, width) == ZeroPadded(n, width)
    ensures m == n
  {
    ZeroPaddedRoundTrip(m, width);
    ZeroPaddedRoundTrip(n, width);
  }

  // ---------------------------------------------------------------------------
  // Python's int() on a string

  /**
   * Digits with single underscores allowed between two digits, as Python's
   * integer literal grammar permits.
   */
  predicate IsDigitGroup(s: string) {
    |s| > 0 && IsDigit(s[0]) && IsDigit(s[|s| - 1])
    && (forall k :: 0 <= k < |s| ==> IsDigit(s[k]) || s[k] == '_')
    && (forall k :: 0 <= k < |s| - 1 && s[k] == '_' ==> s[k + 1] != '_')
  }

  /** The digits of a group with the underscores removed. */
  function DropUnderscores(s: string): (r: string)
    requires forall k :: 0 <= k < |s| ==> IsDigit(s[k]) || s[k] == '_'
    ensures forall k :: 0 <= k < |r| ==> IsDigit(r[k])
  {
    if |s| == 0 then ""
    else if s[|s| - 1] == '_' then DropUnderscores(s[..|s| - 1])
    else DropUnderscores(s[..|s| - 1]) + [s[|s| - 1]]
  }

  /** The ValueError message of `int(s)` for a string it rejects. */
  function IntLiteralMessage(s: string): string {
    "invalid literal for int() with base 10: '" + s + "'"
  }

  /**
   * `int(s)` for a string of ASCII digits: surrounding whitespace is ignored,
   * one sign is allowed, digits may be grouped with underscores; anything else
   * is a ValueError, here None.
   */
  function ParseInt(s: string): (r: Option<int>)
    ensures Strip(s, Python) == "" ==> r.None?
    ensures r.Some? ==> var t := Strip(s, Python); t != "" && (IsDigit(t[0]) || t[0] == '-' || t[0] == '+')
  {
    var t := Strip(s, Python);
    if |t| == 0 then None
    else
      var negative := t[0] == '-';
      var body := if t[0] == '-' || t[0] == '+' then t[1..] else t;
      if !IsDigitGroup(body) then None
      else
        var v := DigitsValue(DropUnderscores(body)) as int;
        Some(if negative then -v else v)
  }

  /** A non-empty run of digits, leading zeros included, parses to its value. */
  lemma ParseDigits(d: string)
    requires |d| > 0 && forall k :: 0 <= k < |d| ==> IsDigit(d[k])
    ensures ParseInt(d) == Some(DigitsValue(d) as int)
  {
    assert IsDigit(d[0]) && IsDigit(d[|d| - 1]);
    StripUnpadded(d, Python);
    assert IsDigitGroup(d);
    NoUnderscores(d);
    assert ParseInt(d) == Some(DigitsValue(DropUnderscores(d)) as int);
  }

  /** Every numeral Decimal produces parses back to its number. */
  lemma ParseDecimal(n: nat)
    ensures ParseInt(Decimal(n)) == Some(n)
  {
    ParseDigits(Decimal(n));
    DecimalRoundTrip(n);
  }

  /** A zero-padded numeral parses back to its number. */
  lemma ParseZeroPadded(n: nat, width: nat)
    ensures ParseInt(ZeroPadded(n, width)) == Some(n)
  {
    ParseDigits(ZeroPadded(n, width));
    ZeroPaddedRoundTrip(n, width);
  }

  lemma {:induction false} NoUnderscores(s: string)
    requires forall k :: 0 <= k < |s| ==> IsDigit(s[k])
    ensures DropUnderscores(s) == s
  {
    if |s| > 0 {
      NoUnderscores(s[..|s| - 1]);
    }
  }

  /** Text without a digit is never an integer. */
  lemma ParseIntNeedsDigit(s: string)
    requires forall k :: 0 <= k < |s| ==> !IsDigit(s[k])
    ensures ParseInt(s) == None
  {
    var t := Strip(s, Python);
    StripIsInfix(s, Python);
    if |t| > 0 {
      var body := if t[0] == '-' || t[0] == '+' then t[1..] else t;
      if |body| > 0 {
        var a, b :| 0 <= a <= b <= |s| && t == s[a..b];
        assert t[0] == s[a];
        if t[0] == '-' || t[0] == '+' {
          assert body[0] == s[a + 1];
        }
      }
    }
  }
}

=== FILE: vector_math.dfy ===
/**
 * Score and vector fusion of the analysis backend: averaging of emotion vectors,
 * cosine similarity, weighted fusion of the three lie scores, and the
 * transcript-alignment adjustment.
 */
module VectorMath {
  import opened Wrappers
  import opened Emotions
  import opened Exceptions

  const ALIGN_MESSAGE: string := "Vectors must align with canonical emotion schema"
  const LENGTH_MESSAGE: string := "Vectors must have the same length"

  /** Rounding to four decimal places, taken as exact in this model. */
  function Round4(x: real): real {
    x
  }

  /** The square root behind the vector norms; its value is left abstract. */
  const Sqrt: real -> real

  function Zeros(n: nat): (r: seq<real>)
    ensures |r| == n && forall i :: 0 <= i < n ==> r[i] == 0.0
  {
    seq(n, _ => 0.0)
  }

  function Sum(s: seq<real>): real {
    if |s| == 0 then 0.0 else Sum(s[..|s| - 1]) + s[|s| - 1]
  }

  function Dot(a: seq<real>, b: seq<real>): real
    requires |a| == |b|
  {
    if |a| == 0 then 0.0 else Dot(a[..|a| - 1], b[..|b| - 1]) + a[|a| - 1] * b[|b| - 1]
  }

  predicate IsZero(v: seq<real>) {
    forall i :: 0 <= i < |v| ==> v[i] == 0.0
  }

  // ---------------------------------------------------------------------------
  // average_vectors

  predicate AllCanonical(vectors: seq<seq<real>>) {
    forall k :: 0 <= k < |vectors| ==> |vectors[k]| == DIM
  }

  /** Sum of slot i over the given vectors. */
  function SlotSum(vectors: seq<seq<real>>, i: nat): real
    requires AllCanonical(vectors) && i < DIM
  {
    if |vectors| == 0 then 0.0
    else SlotSum(vectors[..|vectors| - 1], i) + vectors[|vectors| - 1][i]
  }

  /**
   * The component-wise mean of canonical-length vectors, eight zeros for no vectors,
   * and a ValueError as soon as one vector has another length.
   */
  function Averaged(vectors: seq<seq<real>>): (r: Outcome<seq<real>>)
    ensures |vectors| == 0 ==> r == Ok(Zeros(DIM))
    ensures r.Err? <==> |vectors| > 0 && !AllCanonical(vectors)
    ensures r.Err? ==> r.error == ValueError(ALIGN_MESSAGE)
    ensures r.Ok? ==> |r.value| == DIM
  {
    if |vectors| == 0 then Ok(Zeros(DIM))
    else if !AllCanonical(vectors) then Err(ValueError(ALIGN_MESSAGE))
    else Ok(seq(DIM, i requires 0 <= i < DIM => Round4(SlotSum(vectors, i) / (|vectors| as real))))
  }

  /** Accumulates slot totals vector by vector, then divides each total by the count. */
  method AverageVectors(vectors: seq<seq<real>>) returns (r: Outcome<seq<real>>)
    ensures r == Averaged(vectors)
  {
    if |vectors| == 0 {
      return Ok(Zeros(DIM));
    }
    var totals := new real[DIM](_ => 0.0);
    var j := 0;
    while j < |vectors|
      invariant 0 <= j <= |vectors|
      invariant AllCanonical(vectors[..j])
      invariant forall i :: 0 <= i < DIM ==> totals[i] == SlotSum(vectors[..j], i)
    {
      var vector := vectors[j];
      if |vector| != DIM {
        assert !AllCanonical(vectors);
        return Err(ValueError(ALIGN_MESSAGE));
      }
      assert vectors[..j + 1][..j] == vectors[..j];
      var idx := 0;
      while idx < DIM
        invariant 0 <= idx <= DIM
        invariant forall i :: 0 <= i < idx ==> totals[i] == SlotSum(vectors[..j + 1], i)
        invariant forall i :: idx <= i < DIM ==> totals[i] == SlotSum(vectors[..j], i)
      {
        totals[idx] := totals[idx] + vector[idx];
        idx := idx + 1;
      }
      j := j + 1;
    }
    assert vectors[..j] == vectors;
    var count := |vectors| as real;
    var sums := totals[..];
    r := Ok(seq(DIM, i requires 0 <= i < DIM => Round4(sums[i] / count)));
    assert AllCanonical(vectors);
    assert forall i :: 0 <= i < DIM ==> sums[i] == SlotSum(vectors, i);
    assert forall i :: 0 <= i < DIM ==> r.value[i] == Averaged(vectors).value[i];
    assert r.value == Averaged(vectors).value;
  }

  /** Any input vector of the wrong length is rejected; nothing is padded or truncated. */
  lemma AverageRejectsMisaligned(vectors: seq<seq<real>>, k: nat)
    requires k < |vectors| && |vectors[k]| != DIM
    ensures Averaged(vectors) == Err(ValueError(ALIGN_MESSAGE))
  {
  }

  /** A successful average always has the canonical length. */
  lemma AverageHasCanonicalLength(vectors: seq<seq<real>>)
    ensures Averaged(vectors).Ok? ==> |Averaged(vectors).value| == DIM
  {
  }

  /** The mean of two canonical vectors is their slot-wise midpoint. */
  lemma AverageOfTwo(a: seq<real>, b: seq<real>)
    requires |a| == DIM && |b| == DIM
    ensures Averaged([a, b]).Ok?
    ensures forall i :: 0 <= i < DIM ==> Averaged([a, b]).value[i] == (a[i] + b[i]) / 2.0
  {
    var vs := [a, b];
    assert vs[..1] == [a] && [a][..0] == [];
    forall i | 0 <= i < DIM
      ensures SlotSum(vs, i) == a[i] + b[i]
    {
      assert SlotSum([a], i) == a[i];
    }
  }

  /** The worked example of the test suite: [0.2]*8 and [0.4]*8 average to [0.3]*8. */
  lemma AverageExample()
    ensures Averaged([seq(DIM, _ => 0.2), seq(DIM, _ => 0.4)]) == Ok(seq(DIM, _ => 0.3))
  {
    var a, b := seq(DIM, _ => 0.2), seq(DIM, _ => 0.4);
    AverageOfTwo(a, b);
    assert Averaged([a, b]).value == seq(DIM, _ => 0.3);
  }

  /** Averaging n copies of the same canonical vector gives that vector back. */
  lemma {:induction false} SlotSumOfCopies(vectors: seq<seq<real>>, v: seq<real>, i: nat)
    requires |v| == DIM && i < DIM
    requires forall k :: 0 <= k < |vectors| ==> vectors[k] == v
    ensures SlotSum(vectors, i) == (|vectors| as real) * v[i]
  {
    if |vectors| > 0 {
      SlotSumOfCopies(vectors[..|vectors| - 1], v, i);
    }
  }

  lemma AverageOfCopies(vectors: seq<seq<real>>, v: seq<real>)
    requires |vectors| > 0 && |v| == DIM
    requires forall k :: 0 <= k < |vectors| ==> vectors[k] == v
    ensures Averaged(vectors) == Ok(v)
  {
    assert AllCanonical(vectors);
    forall i | 0 <= i < DIM
      ensures SlotSum(vectors, i) / (|vectors| as real) == v[i]
    {
      SlotSumOfCopies(vectors, v, i);
    }
    assert Averaged(vectors).value == v;
  }

  // ---------------------------------------------------------------------------
  // cosine_similarity

  /**
   * dot(a, b) / (|a| * |b|), where |x| is the square root of x's sum of squares;
   * exactly 0.0 when either norm is zero, a ValueError when the lengths differ.
   */
  function CosineSimilarity(a: seq<real>, b: seq<real>): (r: Outcome<real>)
    ensures r.Err? <==> |a| != |b|
    ensures r.Err? ==> r.error == ValueError(LENGTH_MESSAGE)
    ensures r.Ok? && (Sqrt(Dot(a, a)) == 0.0 || Sqrt(Dot(b, b)) == 0.0) ==> r.value == 0.0
  {
    if |a| != |b| then Err(ValueError(LENGTH_MESSAGE))
    else
      var dot := Dot(a, b);
      var normA := Sqrt(Dot(a, a));
      var normB := Sqrt(Dot(b, b));
      if normA == 0.0 || normB == 0.0 then Ok(0.0)
      else Ok(Round4(dot / (normA * normB)))
  }

  lemma {:induction false} DotSymmetric(a: seq<real>, b: seq<real>)
    requires |a| == |b|
    ensures Dot(a, b) == Dot(b, a)
  {
    if |a| > 0 {
      DotSymmetric(a[..|a| - 1], b[..|b| - 1]);
    }
  }

  lemma {:induction false} DotWithZero(a: seq<real>, b: seq<real>)
    requires |a| == |b| && IsZero(a)
    ensures Dot(a, b) == 0.0
  {
    if |a| > 0 {
      DotWithZero(a[..|a| - 1], b[..|b| - 1]);
    }
  }

  lemma {:induction false} SumOfSquaresPositive(v: seq<real>, i: nat)
    requires i < |v| && v[i] != 0.0
    ensures Dot(v, v) > 0.0
  {
    var n := |v| - 1;
    if i < n {
      assert v[..n][i] == v[i];
      calc {
        Dot(v, v);
      ==
        Dot(v[..n], v[..n]) + v[n] * v[n];
      >=  { SquareNonNegative(v[n]); }
        Dot(v[..n], v[..n]);
      >   { SumOfSquaresPositive(v[..n], i); }
        0.0;
      }
    } else {
      calc {
        Dot(v, v);
      ==
        Dot(v[..n], v[..n]) + v[n] * v[n];
      >=  { SumOfSquaresNonNegative(v[..n]); }
        v[n] * v[n];
      >   { SquarePositive(v[n]); }
        0.0;
      }
    }
  }

  lemma {:induction false} SumOfSquaresNonNegative(v: seq<real>)
    ensures Dot(v, v) >= 0.0
  {
    if |v| > 0 {
      SumOfSquaresNonNegative(v[..|v| - 1]);
      SquareNonNegative(v[|v| - 1]);
    }
  }

  lemma SquarePositive(x: real)
    requires x != 0.0
    ensures x * x > 0.0
  {
    if x < 0.0 {
      assert (-x) * (-x) == x * x;
      assert -x > 0.0;
    }
  }

  lemma SquareNonNegative(x: real)
    ensures x * x >= 0.0
  {
    if x != 0.0 {
      SquarePositive(x);
    }
  }

  /** Cosine similarity does not depend on the order of its arguments. */
  lemma CosineSymmetric(a: seq<real>, b: seq<real>)
    ensures CosineSimilarity(a, b) == CosineSimilarity(b, a)
  {
    if |a| == |b| {
      DotSymmetric(a, b);
      var na, nb := Sqrt(Dot(a, a)), Sqrt(Dot(b, b));
      assert na * nb == nb * na;
    }
  }

  /** A zero vector has cosine 0.0 with every vector of its length, never an error. */
  lemma CosineWithZeroVector(a: seq<real>, b: seq<real>)
    requires |a| == |b| && IsZero(a)
    ensures CosineSimilarity(a, b) == Ok(0.0)
    ensures CosineSimilarity(b, a) == Ok(0.0)
  {
    DotWithZero(a, b);
    CosineSymmetric(a, b);
  }

  /**
   * A non-zero vector has cosine 1 with itself, wherever Sqrt gives a square root
   * of its sum of squares (the value of Sqrt is otherwise left open).
   */
  lemma CosineWithItself(v: seq<real>, i: nat)
    requires i < |v| && v[i] != 0.0
    requires Sqrt(Dot(v, v)) * Sqrt(Dot(v, v)) == Dot(v, v)
    ensures CosineSimilarity(v, v) == Ok(1.0)
  {
    SumOfSquaresPositive(v, i);
    CosineOfPositive(v);
  }

  lemma CosineOfPositive(v: seq<real>)
    requires Dot(v, v) > 0.0
    requires Sqrt(Dot(v, v)) * Sqrt(Dot(v, v)) == Dot(v, v)
    ensures CosineSimilarity(v, v) == Ok(1.0)
  {
    var n := Sqrt(Dot(v, v));
    assert n != 0.0;
    calc {
      CosineSimilarity(v, v).value;
    ==
      Dot(v, v) / (n * n);
    ==
      Dot(v, v) / Dot(v, v);
    ==  { DivSelf(Dot(v, v)); }
      1.0;
    }
  }

  lemma DivSelf(x: real)
    requires x != 0.0
    ensures x / x == 1.0
  {
  }

  // ---------------------------------------------------------------------------
  // fuse_lie_scores

  const DEFAULT_WEIGHTS: seq<real> := [0.35, 0.35, 0.30]

  /** The weights in force: the caller's, unless they are missing or empty. */
  function WeightsOrDefault(weights: Option<seq<real>>): seq<real> {
    if weights.None? || weights.value == [] then DEFAULT_WEIGHTS else weights.value
  }

  function DividedBy(w: seq<real>, t: real): (r: seq<real>)
    requires t != 0.0
    ensures |r| == |w| && forall k :: 0 <= k < |w| ==> r[k] == w[k] / t
  {
    seq(|w|, k requires 0 <= k < |w| => w[k] / t)
  }

  /** Each weight divided by the weight sum. */
  function Normalized(w: seq<real>): seq<real>
    requires Sum(w) != 0.0
  {
    DividedBy(w, Sum(w))
  }

  lemma DivAdd(a: real, b: real, t: real)
    requires t != 0.0
    ensures a / t + b / t == (a + b) / t
  {
  }

  lemma {:induction false} SumDivided(w: seq<real>, t: real)
    requires t != 0.0
    ensures Sum(DividedBy(w, t)) == Sum(w) / t
  {
    if |w| > 0 {
      var n := |w| - 1;
      var d := DividedBy(w, t);
      assert d[..n] == DividedBy(w[..n], t);
      SumDivided(w[..n], t);
      DivAdd(Sum(w[..n]), w[n], t);
    }
  }

  /** The normalised weights sum to 1, whatever the scale of the weights given. */
  lemma NormalizedSumsToOne(w: seq<real>)
    requires Sum(w) != 0.0
    ensures |Normalized(w)| == |w|
    ensures Sum(Normalized(w)) == 1.0
  {
    SumDivided(w, Sum(w));
    DivSelf(Sum(w));
  }

  /**
   * Normalises the weights by their sum and returns the weighted sum of the three
   * scores; a zero weight sum divides by zero and fewer than three weights fail
   * on the missing index.
   */
  function FuseLieScores(audio: real, macro: real, micro: real, weights: Option<seq<real>>): (r: Outcome<real>)
    ensures Sum(WeightsOrDefault(weights)) == 0.0 ==> r == Err(ZeroDivisionError(FLOAT_DIVISION_MESSAGE))
    ensures Sum(WeightsOrDefault(weights)) != 0.0 && |WeightsOrDefault(weights)| < 3 ==> r == Err(IndexError)
    ensures r.Ok? ==> var w := WeightsOrDefault(weights); var t := Sum(w);
      r.value == w[0] / t * audio + w[1] / t * macro + w[2] / t * micro
  {
    var w := WeightsOrDefault(weights);
    if Sum(w) == 0.0 then Err(ZeroDivisionError(FLOAT_DIVISION_MESSAGE))
    else
      var normalized := Normalized(w);
      if |normalized| < 3 then Err(IndexError)
      else Ok(Round4(Blend(audio, macro, micro, normalized)))
  }

  /** The scores weighted by the first three weights. */
  function Blend(audio: real, macro: real, micro: real, w: seq<real>): real
    requires |w| >= 3
  {
    audio * w[0] + macro * w[1] + micro * w[2]
  }

  lemma SumOfThree(w: seq<real>)
    requires |w| == 3
    ensures Sum(w) == w[0] + w[1] + w[2]
  {
    assert w[..2][..1] == w[..1] && w[..1][..0] == [];
    assert Sum(w[..1]) == w[0];
    assert Sum(w[..2]) == w[0] + w[1];
  }

  /** The fused score fails exactly on a zero weight sum or on fewer than three weights. */
  lemma FuseFailures(audio: real, macro: real, micro: real, weights: Option<seq<real>>)
    ensures var w := WeightsOrDefault(weights);
      FuseLieScores(audio, macro, micro, weights).Err? <==> Sum(w) == 0.0 || |w| < 3
  {
  }

  /** With the default weights the fused score is 0.35·audio + 0.35·macro + 0.30·micro. */
  lemma FuseWithDefaults(audio: real, macro: real, micro: real)
    ensures FuseLieScores(audio, macro, micro, None) == Ok(0.35 * audio + 0.35 * macro + 0.30 * micro)
  {
    SumOfThree(DEFAULT_WEIGHTS);
    assert Sum(DEFAULT_WEIGHTS) == 1.0;
    assert Normalized(DEFAULT_WEIGHTS) == DEFAULT_WEIGHTS;
    assert Blend(audio, macro, micro, DEFAULT_WEIGHTS) == 0.35 * audio + 0.35 * macro + 0.30 * micro;
  }

  /** fuse(0.5, 0.25, 0.75) is 0.4875 with the default weights. */
  lemma FuseExample()
    ensures FuseLieScores(0.5, 0.25, 0.75, None) == Ok(0.4875)
  {
    FuseWithDefaults(0.5, 0.25, 0.75);
  }

  /** Three scores equal to x fuse to x under any three weights with a non-zero sum. */
  lemma FuseEqualScores(x: real, weights: Option<seq<real>>)
    requires |WeightsOrDefault(weights)| == 3 && Sum(WeightsOrDefault(weights)) != 0.0
    ensures FuseLieScores(x, x, x, weights) == Ok(x)
  {
    var w := WeightsOrDefault(weights);
    var n := Normalized(w);
    NormalizedSumsToOne(w);
    SumOfThree(n);
    calc {
      FuseLieScores(x, x, x, weights).value;
    ==
      x * n[0] + x * n[1] + x * n[2];
    ==  { Distribute(x, n[0], n[1], n[2]); }
      x;
    }
  }

  /** Normalisation makes the result independent of the scale of the weights. */
  lemma FuseScaleInvariant(audio: real, macro: real, micro: real, w: seq<real>, c: real)
    requires |w| == 3 && Sum(w) != 0.0 && c > 0.0
    ensures var scaled := [c * w[0], c * w[1], c * w[2]];
      FuseLieScores(audio, macro, micro, Some(scaled)) == FuseLieScores(audio, macro, micro, Some(w))
  {
    var scaled := [c * w[0], c * w[1], c * w[2]];
    NormalizedScaled(w, c);
    assert WeightsOrDefault(Some(scaled)) == scaled;
  }

  lemma NormalizedScaled(w: seq<real>, c: real)
    requires |w| == 3 && Sum(w) != 0.0 && c > 0.0
    ensures var scaled := [c * w[0], c * w[1], c * w[2]];
      Sum(scaled) != 0.0 && Normalized(scaled) == Normalized(w)
  {
    var scaled := [c * w[0], c * w[1], c * w[2]];
    ScaledNormalized(w, c, scaled);
  }

  /** Scaling every weight by the same non-zero factor leaves the normalised weights unchanged. */
  lemma ScaledNormalized(w: seq<real>, c: real, scaled: seq<real>)
    requires |w| == 3 && |scaled| == 3 && Sum(w) != 0.0 && c > 0.0
    requires forall k :: 0 <= k < 3 ==> scaled[k] == c * w[k]
    ensures Sum(scaled) != 0.0 && Normalized(scaled) == Normalized(w)
  {
    var t, st := Sum(w), Sum(scaled);
    ScaledSum(w, c, scaled);
    DividedByScaled(w, c, t, scaled);
    DividedBySame(scaled, st, c * t);
  }

  lemma DividedBySame(w: seq<real>, s: real, t: real)
    requires s == t && s != 0.0
    ensures DividedBy(w, s) == DividedBy(w, t)
  {
  }

  lemma DividedByScaled(w: seq<real>, c: real, t: real, scaled: seq<real>)
    requires |scaled| == |w| && c != 0.0 && t != 0.0
    requires forall k :: 0 <= k < |w| ==> scaled[k] == c * w[k]
    ensures c * t != 0.0 && DividedBy(scaled, c * t) == DividedBy(w, t)
  {
    MulNonZero(c, t);
    forall k | 0 <= k < |w|
      ensures DividedBy(scaled, c * t)[k] == DividedBy(w, t)[k]
    {
      DivCancel(c, w[k], t);
    }
  }

  lemma ScaledSum(w: seq<real>, c: real, scaled: seq<real>)
    requires |w| == 3 && |scaled| == 3
    requires forall k :: 0 <= k < 3 ==> scaled[k] == c * w[k]
    ensures Sum(scaled) == c * Sum(w)
  {
    var a, b, d := w[0], w[1], w[2];
    SumOfThree(scaled);
    SumOfThree(w);
    Distr(c, a, b, d);
    MulEqual(c, a + b + d, Sum(w));
  }

  lemma MulEqual(c: real, t: real, u: real)
    requires t == u
    ensures c * t == c * u
  {
  }

  lemma MulNonZero(a: real, b: real)
    requires a != 0.0 && b != 0.0
    ensures a * b != 0.0
  {
  }

  lemma Distr(x: real, a: real, b: real, c: real)
    ensures x * a + x * b + x * c == x * (a + b + c)
  {
  }

  lemma Distribute(x: real, a: real, b: real, c: real)
    requires a + b + c == 1.0
    ensures x * a + x * b + x * c == x
  {
    Distr(x, a, b, c);
  }

  lemma MulBounds(x: real, n: real)
    requires 0.0 <= x <= 1.0 && n >= 0.0
    ensures 0.0 <= x * n <= n
  {
    assert x * n <= 1.0 * n;
  }

  lemma DivCancel(c: real, x: real, t: real)
    requires c != 0.0 && t != 0.0
    ensures (c * x) / (c * t) == x / t
  {
  }

  lemma DivNonNegative(x: real, t: real)
    requires x >= 0.0 && t > 0.0
    ensures x / t >= 0.0
  {
  }

  /** A convex combination of three values in [0, 1] stays in [0, 1]. */
  lemma ConvexBounded(a: real, b: real, c: real, p: real, q: real, r: real)
    requires 0.0 <= a <= 1.0 && 0.0 <= b <= 1.0 && 0.0 <= c <= 1.0
    requires p >= 0.0 && q >= 0.0 && r >= 0.0 && p + q + r == 1.0
    ensures 0.0 <= a * p + b * q + c * r <= 1.0
  {
    MulBounds(a, p);
    MulBounds(b, q);
    MulBounds(c, r);
    calc {
      a * p + b * q + c * r;
    <=
      p + b * q + c * r;
    <=
      p + q + c * r;
    <=
      p + q + r;
    }
    calc {
      a * p + b * q + c * r;
    >=
      b * q + c * r;
    >=
      c * r;
    >=
      0.0;
    }
  }

  /** Scores in [0, 1] and three non-negative weights give a fused score in [0, 1]. */
  lemma FuseBounded(audio: real, macro: real, micro: real, weights: Option<seq<real>>)
    requires 0.0 <= audio <= 1.0 && 0.0 <= macro <= 1.0 && 0.0 <= micro <= 1.0
    requires var w := WeightsOrDefault(weights); |w| == 3 && w[0] >= 0.0 && w[1] >= 0.0 && w[2] >= 0.0
    requires Sum(WeightsOrDefault(weights)) != 0.0
    ensures FuseLieScores(audio, macro, micro, weights).Ok?
    ensures 0.0 <= FuseLieScores(audio, macro, micro, weights).value <= 1.0
  {
    var w := WeightsOrDefault(weights);
    var n := Normalized(w);
    NormalizedThree(w);
    ConvexBounded(audio, macro, micro, n[0], n[1], n[2]);
  }

  /** Three non-negative weights normalise to three non-negative weights summing to one. */
  lemma NormalizedThree(w: seq<real>)
    requires |w| == 3 && w[0] >= 0.0 && w[1] >= 0.0 && w[2] >= 0.0 && Sum(w) != 0.0
    ensures var n := Normalized(w);
      |n| == 3 && n[0] >= 0.0 && n[1] >= 0.0 && n[2] >= 0.0 && n[0] + n[1] + n[2] == 1.0
  {
    var n := Normalized(w);
    var t := Sum(w);
    NormalizedSumsToOne(w);
    SumOfThree(n);
    assert t > 0.0 by {
      SumOfThree(w);
    }
    DivNonNegative(w[0], t);
    DivNonNegative(w[1], t);
    DivNonNegative(w[2], t);
  }

  // ---------------------------------------------------------------------------
  // llm_alignment_score and final_lie_score

  /** The LLM's sparse emotion map as a canonical-order vector; missing emotions read 0.0. */
  function DenseLlmVector(llm: map<string, real>): (r: seq<real>)
    ensures |r| == DIM
  {
    seq(DIM, i requires 0 <= i < DIM => if EMOTIONS[i] in llm then llm[EMOTIONS[i]] else 0.0)
  }

  /** Keys outside the canonical set have no effect on the dense vector. */
  lemma DenseIgnoresExtraKeys(llm: map<string, real>, other: map<string, real>)
    requires forall e :: e in EMOTIONS ==> (e in llm <==> e in other)
    requires forall e :: e in EMOTIONS && e in llm ==> llm[e] == other[e]
    ensures DenseLlmVector(llm) == DenseLlmVector(other)
  {
    forall i | 0 <= i < DIM
      ensures DenseLlmVector(llm)[i] == DenseLlmVector(other)[i]
    {
      assert EMOTIONS[i] in EMOTIONS;
    }
  }

  /** A canonical emotion the LLM did not weight reads 0.0; one it weighted keeps its weight. */
  lemma DenseSlots(llm: map<string, real>, i: nat)
    requires i < DIM
    ensures EMOTIONS[i] !in llm ==> DenseLlmVector(llm)[i] == 0.0
    ensures EMOTIONS[i] in llm ==> DenseLlmVector(llm)[i] == llm[EMOTIONS[i]]
  {
  }

  function LlmAlignmentScore(comparison: seq<real>, llm: map<string, real>): (r: Outcome<real>)
    ensures r.Err? <==> |comparison| != DIM
    ensures r.Err? ==> r.error == ValueError(LENGTH_MESSAGE)
  {
    CosineSimilarity(comparison, DenseLlmVector(llm))
  }

  /** A comparison vector of the wrong length is a ValueError. */
  lemma AlignmentNeedsCanonicalLength(comparison: seq<real>, llm: map<string, real>)
    ensures LlmAlignmentScore(comparison, llm).Err? <==> |comparison| != DIM
  {
  }

  /** A zero comparison vector aligns 0.0 with every LLM map. */
  lemma AlignmentOfZeroVector(comparison: seq<real>, llm: map<string, real>)
    requires |comparison| == DIM && IsZero(comparison)
    ensures LlmAlignmentScore(comparison, llm) == Ok(0.0)
  {
    CosineWithZeroVector(comparison, DenseLlmVector(llm));
  }

  function Max(a: real, b: real): real {
    if a >= b then a else b
  }

  /** Mean of the micro score and the mismatch 1 - max(alignment, 0). */
  function FinalLieScore(microScore: real, alignment: real): (r: real)
    ensures alignment <= 0.0 ==> r == (1.0 + microScore) / 2.0
    ensures alignment >= 0.0 ==> r == (1.0 - alignment + microScore) / 2.0
  {
    Round4((1.0 - Max(alignment, 0.0) + microScore) / 2.0)
  }

  /** Every negative alignment scores the same as alignment 0. */
  lemma FinalIgnoresNegativeAlignment(microScore: real, alignment: real)
    requires alignment < 0.0
    ensures FinalLieScore(microScore, alignment) == FinalLieScore(microScore, 0.0)
    ensures FinalLieScore(microScore, alignment) == (1.0 + microScore) / 2.0
  {
  }

  /** final(0.6, 0.2) is 0.7: mismatch 0.8 averaged with 0.6. */
  lemma FinalExample()
    ensures FinalLieScore(0.6, 0.2) == 0.7
  {
  }

  /** A better alignment never raises the final score. */
  lemma FinalAntitoneInAlignment(microScore: real, a: real, b: real)
    requires a <= b
    ensures FinalLieScore(microScore, b) <= FinalLieScore(microScore, a)
  {
  }

  /** A micro score and an alignment in [0, 1] keep the final score in [0, 1]. */
  lemma FinalBounded(microScore: real, alignment: real)
    requires 0.0 <= microScore <= 1.0 && alignment <= 1.0
    ensures 0.0 <= FinalLieScore(microScore, alignment) <= 1.0
  {
  }
}

=== FILE: vector_ops.dfy ===
/**
 * Expansion of a (label, probability) listing from some classifier into a dense
 * vector in the canonical emotion order.
 */
module VectorOps {
  import opened Wrappers
  import opened Emotions

  function Min(a: nat, b: nat): nat {
    if a <= b then a else b
  }

  /** Position of the last of the first n labels equal to e, if any. */
  function LastMatch(labels: seq<string>, n: nat, e: string): (r: Option<nat>)
    requires n <= |labels|
    ensures r.Some? ==> r.value < n && labels[r.value] == e
    ensures r.Some? ==> forall k :: r.value < k < n ==> labels[k] != e
    ensures r.None? <==> forall k :: 0 <= k < n ==> labels[k] != e
  {
    if n == 0 then None
    else if labels[n - 1] == e then Some(n - 1)
    else LastMatch(labels, n - 1, e)
  }

  /**
   * Slot i after the first n pairs have been written: the probability paired with
   * the last occurrence of EMOTIONS[i] among them, or 0.0 when there is none.
   */
  function SlotAfter(labels: seq<string>, probabilities: seq<real>, n: nat, i: nat): real
    requires n <= |labels| && n <= |probabilities| && i < DIM
  {
    match LastMatch(labels, n, EMOTIONS[i])
    case Some(k) => probabilities[k]
    case None => 0.0
  }

  /** Slot i of the finished vector: `zip` stops at the shorter of the two inputs. */
  function Slot(labels: seq<string>, probabilities: seq<real>, i: nat): real
    requires i < DIM
  {
    SlotAfter(labels, probabilities, Min(|labels|, |probabilities|), i)
  }

  /**
   * Starts from eight zeros and, pair by pair, writes each probability into the
   * slot of its label when the label is canonical.
   */
  method ExpandEmotionVector(labels: seq<string>, probabilities: seq<real>) returns (vector: seq<real>)
    ensures |vector| == DIM
    ensures forall i :: 0 <= i < DIM ==> vector[i] == Slot(labels, probabilities, i)
  {
    var v := new real[DIM](_ => 0.0);
    var n := Min(|labels|, |probabilities|);
    var k := 0;
    while k < n
      invariant 0 <= k <= n
      invariant forall i :: 0 <= i < DIM ==> v[i] == SlotAfter(labels, probabilities, k, i)
    {
      match IndexOf(labels[k]) {
        case Some(i) => v[i] := probabilities[k];
        case None =>
      }
      k := k + 1;
    }
    vector := v[..];
  }

  /** LastMatch over the first n labels does not look past them. */
  lemma {:induction false} LastMatchPrefix(labels: seq<string>, m: nat, n: nat, e: string)
    requires n <= m <= |labels|
    ensures LastMatch(labels, n, e) == LastMatch(labels[..m], n, e)
  {
    if n > 0 {
      LastMatchPrefix(labels, m, n - 1, e);
    }
  }

  /** Only the paired prefix matters: surplus labels or probabilities are ignored. */
  lemma PairingStopsAtShorter(labels: seq<string>, probabilities: seq<real>, i: nat)
    requires i < DIM
    ensures var n := Min(|labels|, |probabilities|);
      Slot(labels, probabilities, i) == Slot(labels[..n], probabilities[..n], i)
  {
    var n := Min(|labels|, |probabilities|);
    LastMatchPrefix(labels, n, n, EMOTIONS[i]);
  }

  /** A slot whose emotion is never named among the paired labels stays 0.0. */
  lemma UnmatchedSlotStaysZero(labels: seq<string>, probabilities: seq<real>, i: nat)
    requires i < DIM
    requires forall k :: 0 <= k < Min(|labels|, |probabilities|) ==> labels[k] != EMOTIONS[i]
    ensures Slot(labels, probabilities, i) == 0.0
  {
  }

  /** When a label repeats, the probability of its last paired occurrence wins. */
  lemma RepeatedLabelKeepsLast(labels: seq<string>, probabilities: seq<real>, i: nat, k: nat)
    requires i < DIM && k < Min(|labels|, |probabilities|)
    requires labels[k] == EMOTIONS[i]
    requires forall j :: k < j < Min(|labels|, |probabilities|) ==> labels[j] != EMOTIONS[i]
    ensures Slot(labels, probabilities, i) == probabilities[k]
  {
  }

  /** Appending a pair whose label is outside the canonical set changes no slot. */
  lemma UnknownLabelIgnored(labels: seq<string>, probabilities: seq<real>, x: string, p: real, i: nat)
    requires |labels| == |probabilities| && i < DIM
    requires !IsEmotion(x)
    ensures Slot(labels + [x], probabilities + [p], i) == Slot(labels, probabilities, i)
  {
    var ls, ps := labels + [x], probabilities + [p];
    var n := |labels|;
    assert ls[n] != EMOTIONS[i];
    assert LastMatch(ls, n + 1, EMOTIONS[i]) == LastMatch(ls, n, EMOTIONS[i]);
    LastMatchPrefix(ls, n, n, EMOTIONS[i]);
    assert ls[..n] == labels;
    match LastMatch(ls, n, EMOTIONS[i])
    case Some(k) =>
      assert ps[k] == probabilities[k];
    case None =>
  }

  /** The seven labels of the FER-2013 facial-expression model, in its class order. */
  const FER_LABELS: seq<string> := ["angry", "disgust", "fearful", "happy", "sad", "surprised", "neutral"]

  /** FER-2013 has no 'calm' class, so the calm slot of an expanded FER output is always 0.0. */
  lemma FerCalmSlotIsZero(probabilities: seq<real>)
    ensures Slot(FER_LABELS, probabilities, 1) == 0.0
  {
    UnmatchedSlotStaysZero(FER_LABELS, probabilities, 1);
  }
}

=== FILE: whisper.dfy ===
/**
 * The transcription service: picks the session's media (questioner first),
 * produces a transcript either as a mock placeholder or by sending the local
 * media file to the speech-to-text backend, and stores it with the session.
 */
module Whisper {
  import opened Wrappers
  import opened Exceptions
  import opened Strings
  import opened Config
  import opened SessionStore
  import opened Storage

  const NO_MEDIA_MESSAGE: string := "No media available for transcription"
  const DEFAULT_AUDIO_TYPE: string := "audio/mpeg"

  /**
   * The transcription backend, given the media path and content type: the
   * response's `text` field (None when it has none), or the exception raised
   * by the request or its status check.
   */
  type Transcriber = (string, string) -> Outcome<Option<string>>

  /** _select_media: the questioner's media record, else the answerer's. */
  function SelectMedia(db: Table, sessionId: string): (r: Option<MediaRecord>)
    ensures r.None? <==>
      MediaRecordOf(db, sessionId, "questioner").None? && MediaRecordOf(db, sessionId, "answerer").None?
    ensures r.Some? ==> r.value.role in ROLES && r == MediaRecordOf(db, sessionId, r.value.role)
    ensures r.Some? && r.value.role == "answerer" ==> MediaRecordOf(db, sessionId, "questioner").None?
  {
    var questioner := MediaRecordOf(db, sessionId, "questioner");
    if questioner.Some? then questioner else MediaRecordOf(db, sessionId, "answerer")
  }

  /** With both roles uploaded, the questioner's media is transcribed. */
  lemma QuestionerPreferred(db: Table, sessionId: string)
    requires MediaRecordOf(db, sessionId, "questioner").Some?
    ensures SelectMedia(db, sessionId).Some? && SelectMedia(db, sessionId).value.role == "questioner"
  {
  }

  function MockTranscript(sessionId: string, role: string): string {
    "[mock transcript for " + sessionId + " using " + role + "]"
  }

  /** The content type sent with the file: the record's, or "audio/mpeg" when it has none. */
  function AudioContentType(record: MediaRecord): string {
    if Present(record.contentType) then record.contentType.value else DEFAULT_AUDIO_TYPE
  }

  /** The transcript of a backend response: its `text` stripped, or "" without one. */
  function TranscriptOf(response: Outcome<Option<string>>): (r: Outcome<string>)
    ensures response.Err? ==> r == Err(response.error)
    ensures response.Ok? && response.value.None? ==> r == Ok("")
    ensures response.Ok? && response.value.Some? ==> r == Ok(Strip(response.value.value, Python))
    ensures r.Ok? && |r.value| > 0 ==> !IsPythonSpace(r.value[0]) && !IsPythonSpace(r.value[|r.value| - 1])
  {
    match response
    case Err(e) => Err(e)
    case Ok(None) => Ok("")
    case Ok(Some(text)) =>
      StripEnds(text, Python);
      Ok(Strip(text, Python))
  }

  /** A text of blanks transcribes to the empty transcript. */
  lemma BlankResponseIsEmpty(text: string)
    requires AllSpace(text, Python)
    ensures TranscriptOf(Ok(Some(text))) == Ok("")
  {
    StripEmpty(text, Python);
  }

  /** A transcript sent back as a response's text transcribes to itself. */
  lemma TranscriptStable(response: Outcome<Option<string>>)
    requires TranscriptOf(response).Ok?
    ensures TranscriptOf(Ok(Some(TranscriptOf(response).value))) == TranscriptOf(response)
  {
    if response.value.Some? {
      StripIdempotent(response.value.value, Python);
    }
  }

  /**
   * What transcribe returns for the stored state: no media for either role is
   * a ValueError; in mock mode the placeholder names the session and the
   * chosen role; otherwise a failure to make the media local raises, and the
   * backend's response for the local file is the transcript.
   */
  function TranscribeOutcome(db: Table, settings: Settings, apiKey: Option<string>, sessionId: string,
                             onDisk: set<string>, download: Option<Exception>, transcriber: Transcriber)
    : (r: Outcome<string>)
    ensures var media := SelectMedia(db, sessionId);
      (media.None? ==> r == Err(ValueError(NO_MEDIA_MESSAGE)))
      && (media.Some? && UsesMock(settings, apiKey) ==> r == Ok(MockTranscript(sessionId, media.value.role)))
      && (media.Some? && !UsesMock(settings, apiKey) ==>
            var path := LocalPath(settings, media.value, onDisk, download);
            (path.Err? ==> r == Err(path.error))
            && (path.Ok? ==> r == TranscriptOf(transcriber(path.value, AudioContentType(media.value)))))
    ensures r.Ok? && !UsesMock(settings, apiKey) && |r.value| > 0 ==>
      !IsPythonSpace(r.value[0]) && !IsPythonSpace(r.value[|r.value| - 1])
  {
    match SelectMedia(db, sessionId)
    case None => Err(ValueError(NO_MEDIA_MESSAGE))
    case Some(record) =>
      if UsesMock(settings, apiKey) then Ok(MockTranscript(sessionId, record.role))
      else
        match LocalPath(settings, record, onDisk, download)
        case Err(e) => Err(e)
        case Ok(path) => TranscriptOf(transcriber(path, AudioContentType(record)))
  }

  /**
   * transcribe: no media for either role is a ValueError and writes nothing;
   * in mock mode the placeholder naming the session and the chosen role is
   * the transcript; otherwise the media is made local (which may download it
   * and patch its path) and sent to the backend. A transcript is returned only
   * after it has been stored with set_transcript.
   */
  method Transcribe(settings: Settings, apiKey: Option<string>, store: Store, sessionId: string,
                    onDisk: set<string>, download: Option<Exception>, transcriber: Transcriber, now: Timestamp)
    returns (r: Outcome<string>)
    requires store.Valid()
    modifies store
    ensures store.Valid()
    ensures r == TranscribeOutcome(old(store.sessions), settings, apiKey, sessionId, onDisk, download, transcriber)
    ensures SelectMedia(old(store.sessions), sessionId).None? ==> store.sessions == old(store.sessions)
    ensures r.Ok? ==> sessionId in store.sessions && store.sessions[sessionId].transcript == Some(r.value)
    ensures r.Ok? && UsesMock(settings, apiKey) ==>
      store.sessions == WithTranscript(old(store.sessions), sessionId, r.value, now)
    ensures StoredSummary(store.sessions, sessionId) == StoredSummary(old(store.sessions), sessionId)
  {
    var media := SelectMedia(store.sessions, sessionId);
    if media.None? {
      return Err(ValueError(NO_MEDIA_MESSAGE));
    }
    var record := media.value;
    var transcript: string;
    if UsesMock(settings, apiKey) {
      transcript := MockTranscript(sessionId, record.role);
    } else {
      var path, _ := EnsureLocalPath(settings, store, record, onDisk, download, now);
      if path.Err? {
        return Err(path.error);
      }
      var response := TranscriptOf(transcriber(path.value, AudioContentType(record)));
      if response.Err? {
        return response;
      }
      transcript := response.value;
    }
    store.SetTranscript(sessionId, transcript, now);
    r := Ok(transcript);
  }
}

=== FILE: wrappers.dfy ===
/** Option and Result, used for the source's `None` returns and raised exceptions. */
module Wrappers {

  datatype Option<+T> = None | Some(value: T) {
    function GetOr(default: T): T {
      match this
      case Some(v) => v
      case None => default
    }
  }

  datatype Result<+T, +E> = Ok(value: T) | Err(error: E)
}
